=== FILE: README.md ===
# nba_analysis in Dafny

A model of the data pipeline behind a Denver Nuggets game-analysis app.

The app pulls a team's games from a stats API, enriches every game with the box-score stats of two tracked players, and derives the rest-of-team stats. It projects the rows to a fixed lower-case schema and keeps them in a feature store. A scheduled job appends the games played since the latest stored date.

The model covers the parts of that pipeline that make decisions and reshape data:

- the next-day date cursor;
- the season string, the tagging, concatenation and sorting of the game finder's answers;
- the per-season enrichment, the residual stats, the integer cast and the final projection;
- the season-range filter and date sort on stored data, and the "latest stored date plus one day" cursor;
- the delta logic of `pull_data`: which seasons are missing, the fetched range, the first run and the up-to-date store;
- `fetch_recent_games`: the cursor reformat, the summer-league filter, the four branches and the push;
- the starter filter `pull_games_starters`.

A table is a `Frame`: a sequence of column names and a sequence of rows. Each row maps column names to a `Value`, which is `Int`, `Str` or `Null`. Null stands for pandas' NaN.

The API, the store and the players CSV are parameters:

- the game finders are functions from a query to a frame;
- the box scores are a function from a game id to box-score lines;
- the surnames are a map from player id to surname;
- what `feature_group.read()` returns is an input frame, or `NotFound` for a group that was never written.

Errors that the Python code raises become `Failure` values of a `Result`:

- `ValueError` from `strptime` becomes `FormatError`;
- a date past year 9999 becomes `OverflowError`;
- `pd.concat([])` becomes `NothingToConcatenate`;
- `.values[0]` on an unknown player becomes `UnknownPlayer`;
- a failed `astype(int)` becomes `IntCastError`;
- reading row 0 of an empty store becomes `EmptyStore`;
- a cursor that does not split into three parts becomes `CursorSplitError`;
- returning an unbound `feature_store_data` becomes `UnboundStoreData`.

Modules, one per file:

- `Strings` covers decimal rendering and parsing, zero padding, Python string order, slicing and case.
- `Outcomes` holds the error and result types.
- `Dates` covers `add_one_day` in src/utils.py.
- `Frames` covers the pandas operations the code uses: boolean masks, column assignment, selection, `concat`, `sort_values` and `rename`.
- `Pipeline` covers enrichment, `teammates_stats`, `stats_to_int`, `final_preparation` and `push_data_to_feature_store`.
- `Seasons` covers `pull_team_games`.
- `SeasonGroups` covers `append_players_stats` in src/data.py, which enriches season by season; `pull_data` prepares its fetched games with it. `fetch_recent_games` uses the one-pass enrichment of src/fetch_data.py, in `Pipeline`.
- `Store` covers the post-read logic of src/feature_store.py.
- `Starters` covers `pull_games_starters`.
- `Sync` covers `pull_data`.
- `Recent` covers `fetch_recent_games`.

## Model

| member | source | states |
|---|---|---|
| Dates.ParseDate | src/utils.py:22 | `strptime(s, "%Y-%m-%d")`: a success is a valid Gregorian date; anything else is a FormatError |
| Dates.NextDay | src/utils.py:25 | the successor date is valid and its day number is one more; only 9999-12-31 has none (OverflowError) |
| Dates.AddOneDay | src/utils.py:9-35 | unparsable input gives FormatError, 9999-12-31 gives OverflowError; otherwise the result renders the date whose day number is one more |
| Dates.ResetIsNoOp | src/utils.py:28-30 | whenever the month changes the successor's day is already 1, so the reset branch leaves the result as the plain successor |
| Dates.AddOneDayOfRendering | src/utils.py:22-35 | on a rendered date the result is the rendering of the successor date |
| Dates.AddOneDayWithinMonth | src/utils.py:22-25 | before the month's last day: same year and month, day + 1 |
| Dates.AddOneDayMonthEnd | src/utils.py:25-30 | the last day of January to November goes to the 1st of the next month of the same year |
| Dates.AddOneDayYearEnd | src/utils.py:25-30 | December 31 goes to January 1 of the next year, and fails for year 9999 |
| Dates.AddOneDayFebruary | src/utils.py:22-25 | Feb 28 goes to Feb 29 in leap years and to Mar 1 otherwise; Feb 29 goes to Mar 1 |
| Dates.AddOneDayIncreases | src/utils.py:25-33 | on a zero-padded `YYYY-MM-DD` input (a rendered date before 9999-12-31) the result is a canonical `YYYY-MM-DD` string strictly greater, as a string, than the input |
| Dates.AddOneDayUnpaddedSortsEarlier | src/utils.py:22-33 | the padding matters: `2023-1-5` is accepted and becomes `2023-01-06`, which sorts before the input as a string |
| Dates.AddOneDayRejectsNoSuchDay | src/utils.py:22 | "2023-02-30" is rejected with FormatError |
| Dates.AddOneDayRejectsLayout | src/utils.py:22 | examples: "2023/02/01" (wrong separators) and "23-02-01" (short year) are rejected with FormatError |
| Dates.ParseDateFields | src/utils.py:22 | every string of four digits, a dash, an accepted month field, a dash and an accepted day field parses to the date its fields name, or fails with FormatError when that day does not exist |
| Dates.ParseDateShape | src/utils.py:22 | conversely, a string that parses has exactly that shape: four digits, a dash, a month field, a dash, a day field |
| Dates.ParsePadded | src/utils.py:22 | for every year 1-9999, month 1-12 and day 1-31 written zero-padded, parsing succeeds with that date exactly when the month has that day, and fails with FormatError otherwise |
| Dates.ParseFormat | src/utils.py:22-33 | parsing a rendered date gives the date back (round trip of `strftime` and `strptime`) |
| Dates.FormatDateOrder | src/utils.py:33 | the string order of renderings is the calendar order |
| Dates.FormatDateLe | src/utils.py:33 | `<=` on renderings is "not after" on dates |
| Dates.DayNumberOrder | src/utils.py:25 | a date is before another exactly when its day number is smaller |
| Seasons.SeasonStringFourDigits | src/data.py:54 | the season id of a four-digit year is the padded year, a dash and the last two digits of the next year |
| Seasons.SeasonStringParts | src/data.py:54 | the season id has length 7, a dash at 4; its first part parses back to the year and its last part to the next year mod 100 |
| Seasons.SeasonStringExamples | src/data.py:54 | 2022 gives "2022-23" and 1999 gives "1999-00" |
| Seasons.TaggedFacts | src/data.py:63-73 | tagging sets `PLAYOFFS` in every row, keeps every other cell and the row count, and adds the column only when new |
| Seasons.SeasonRequestsAt | src/data.py:51-76 | for each year the regular-season query comes first, then the playoff query |
| Seasons.AnswerTags | src/data.py:63-73 | regular-season answers are tagged 0 and playoff answers 1 |
| Seasons.PullTeamGames | src/data.py:26-85 | fails with NothingToConcatenate exactly on an empty year range; otherwise a well-formed table sorted ascending by `GAME_DATE` |
| Seasons.PullTeamGamesRows | src/data.py:79-85 | the result is a permutation of the concatenated answers, and its row count is the sum of theirs |
| Seasons.PullTeamGamesTags | src/data.py:63-85 | every result row carries a `PLAYOFFS` flag of 0 or 1 |
| Seasons.AnswersConcatenate | src/data.py:84 | the concatenated answers are well formed and every row has a string `GAME_DATE` |
| Seasons.PullTeamGamesInt | src/data.py:84-85 | a column the finder fills with integers stays integer after concatenation and sorting |
| Seasons.PullTeamGamesColumns | src/data.py:57-84 | the result has the game keys, `WL` and `PLAYOFFS`, and no tracked-stat column |
| Seasons.PullTeamGamesGameFrame | src/data.py:26-85 | the result is a game table ready for enrichment |
| Pipeline.PlayerStats | src/data.py:160-183 | an absent player gets four zeros; a present one gets the first matching box-score line's PTS, REB, AST and starter = 1 exactly when `START_POSITION` is not empty |
| Pipeline.Enrich | src/fetch_data.py:18-111 | fails exactly when a roster id has no surname (the first such id); otherwise the columns are the game columns followed by the tracked ones, the row count is kept and each row is its game row enriched |
| Pipeline.EnrichKeeps | src/fetch_data.py:104-111 | every cell of a game row is kept |
| Pipeline.EnrichCell | src/fetch_data.py:71-100 | player i's j-th column holds the j-th value from that game's box score |
| Pipeline.EnrichAbsent | src/fetch_data.py:98-100 | a player missing from a game's box score gets 0 in all four columns |
| Pipeline.EnrichShape | src/fetch_data.py:43-61 | exactly four columns per player, `SURNAME_PTS/_REB/_AST/_STARTER` with the surname upper-cased, after the game columns in roster order; rows kept |
| Pipeline.TeammatesStats | src/fetch_data.py:114-155 | the result is well formed, keeps the row count and extends the input columns |
| Pipeline.TeammatesStatsKeeps | src/fetch_data.py:132-138 | every other cell becomes its `fillna(0)` value |
| Pipeline.TeammatesStatsInts | src/fetch_data.py:132-153 | after the residuals no stat cell is missing or a string |
| Pipeline.ResidualInvariant | src/fetch_data.py:142-153 | in every row `REST_X` plus the input columns containing `_X` equals the team total X, for PTS, REB and AST; `REST_X` is the only new column matching `_X` |
| Pipeline.ResidualPoints | src/data.py:279-280 | the residual invariant for points |
| Pipeline.ResidualRebounds | src/data.py:284-285 | the residual invariant for rebounds |
| Pipeline.ResidualAssists | src/data.py:289-290 | the residual invariant for assists |
| Pipeline.RestNames | src/data.py:279-290 | `REST_X` contains `_X` and no other stat's substring, so the projection keeps it under its own stat |
| Pipeline.StatsToInt | src/fetch_data.py:158-178 | succeeds exactly when every stat cell is an integer, and then changes nothing; otherwise IntCastError |
| Pipeline.StatsToIntAfterResiduals | src/fetch_data.py:225-226 | after the residuals the cast always succeeds |
| Pipeline.FinalPreparation | src/fetch_data.py:181-208 | the columns are the stat columns in order, then `GAME_ID, GAME_DATE, SEASON_ID, PLAYOFFS, WIN`, all lower-cased; the row count is kept |
| Pipeline.FinalStatCell | src/fetch_data.py:193-206 | each stat cell is kept under its lower-cased name |
| Pipeline.FinalKeyCell | src/fetch_data.py:198-206 | `game_id`, `game_date`, `season_id` and `playoffs` copy the source keys |
| Pipeline.FinalWinCell | src/fetch_data.py:192 | `win` is 1 exactly when `WL` is "W", else 0 |
| Pipeline.StoreKeysAreLowered | src/fetch_data.py:205-206 | the stored key names are the lower-cased final keys |
| Pipeline.Prepare | src/fetch_data.py:222-227 | enrichment, residuals, cast and projection succeed exactly when every player is known; rows kept; the columns are the stored schema |
| Pipeline.PushRows | src/fetch_data.py:211-229 | the rows pushed for roster [203999, 1627750]: success exactly when both surnames are known, one row per game, the stored schema |
| SeasonGroups.SeasonKeys | src/data.py:226 | the distinct seasons in order of first appearance: every row's season is listed, every listed season comes from a row |
| SeasonGroups.AppendBySeason | src/data.py:197-244 | fails with NothingToConcatenate exactly on no games, and with the first unknown player otherwise |
| SeasonGroups.RegroupPermutation | src/data.py:226-244 | grouping by season is a permutation of the rows that have a season id |
| SeasonGroups.RegroupKeepsAll | src/data.py:226-244 | when every row has a string season id, grouping keeps every row |
| SeasonGroups.AppendBySeasonRegroups | src/data.py:227-244 | per-season enrichment equals enriching the season-grouped games at once |
| SeasonGroups.AppendBySeasonRows | src/data.py:197-244 | the result has the game columns plus the tracked ones, and one row per game with a season id |
| SeasonGroups.PrepareSeasons | src/data.py:474-477 | the data.py pipeline fails exactly on no games or an unknown player; otherwise the stored schema |
| SeasonGroups.PrepareSeasonsRegroups | src/data.py:474-477 | it equals the fetch_data.py preparation of the season-grouped games |
| SeasonGroups.PrepareSeasonsRows | src/data.py:474-477 | one prepared row per game with a season id |
| Store.ReadSeasons | src/feature_store.py:135-165 | a permutation of the stored rows whose season is in range, sorted ascending by `game_date`; columns kept |
| Store.ReadSeasonsMembers | src/feature_store.py:156-159 | a stored row is read back exactly when `str(init) <= season_id[1:] <= str(end)` as strings |
| Store.SeasonRangeIsNumeric | src/feature_store.py:156-159 | for four-digit years the string test is `init <= year <= end` |
| Store.MostRecentCursor | src/feature_store.py:224-248 | fails with EmptyStore exactly on an empty store; otherwise it is `add_one_day` of a stored date (the greatest, see `Store.MostRecentCursorIsLatest`), its FormatError and OverflowError included |
| Store.MostRecentCursorIsLatest | src/feature_store.py:241-246 | the cursor is `add_one_day` of the greatest stored `game_date` |
| Store.MostRecentCursorAfterAll | src/feature_store.py:241-246 | for `YYYY-MM-DD` dates before 9999-12-31 the cursor exists and is greater than every stored date |
| Starters.PullGamesStarters | src/data.py:515-556 | the kept rows, in order, are those in the date range whose starter cells sum to the number of starter columns, projected onto the columns without `starters` and `_starter` |
| Starters.KeptColumns | src/data.py:542-554 | a column survives exactly when it is neither `starters` nor contains `_starter` |
| Starters.StartersSumIffAll | src/data.py:546-548 | with 0/1 flags the sum equals the count exactly when every tracked player started |
| Starters.StartersSelected | src/data.py:536-548 | with 0/1 flags the rows kept are those in range in which every tracked player started |
| Starters.StarterColumnsDropped | src/data.py:551-554 | no starter column and no `starters` column is left, and every other column is |
| Starters.DateRangeIsChronological | src/data.py:536-539 | for `YYYY-MM-DD` dates the string bounds are the calendar bounds |
| Sync.RequestedMembers | src/data.py:411-412 | the requested list holds exactly the decimal forms of the years of the range |
| Sync.Missing | src/data.py:432-447 | a season is missing exactly when it is requested and, unless the store was never written, not among the stored seasons |
| Sync.FirstRunMissesAll | src/data.py:438-447 | on a first run every requested season is missing, in order |
| Sync.MissingYear | src/data.py:432-447 | for four-digit years a season is missing exactly on a first run or when no stored game belongs to it |
| Sync.NothingMissing | src/data.py:449-512 | a first run misses nothing only for an empty range; a store holding every requested season misses nothing |
| Sync.FetchBounds | src/data.py:461-462 | the bounds are the numbers of the least and greatest missing season in string order |
| Sync.FetchBoundsCover | src/data.py:461-467 | for four-digit years the fetched range lies within the requested one, its ends are missing seasons, and it covers every missing season |
| Sync.FirstRunFetchesAll | src/data.py:438-467 | for four-digit years, a first run fetches exactly the requested range |
| Sync.PullData | src/data.py:356-512 | nothing missing: the stored rows, with no fetch and no insert, or UnboundStoreData on a first run; otherwise the returned rows number store rows plus API rows, and the inserted rows have the stored schema |
| Sync.PullDataInserts | src/data.py:461-504 | the inserted rows are the fetched range's games prepared by the season-grouped `append_players_stats`, which equals the one-pass preparation of the games regrouped by season; the returned table is the stored rows followed by them, or them alone on a first run |
| Sync.PullDataFails | src/data.py:449-512 | for four-digit years the fetch of the missing range never fails, and the call fails exactly on a first run over an empty range, when the fetched range has no game (`pd.concat([])` at data.py:244), or when a roster surname is unknown |
| Recent.DateFrom | src/fetch_data.py:253-257 | fails exactly when the cursor splits on "-" into fewer than three parts |
| Recent.DateFromRendering | src/fetch_data.py:253-257 | a `YYYY-MM-DD` cursor becomes `MM/DD/YYYY` |
| Recent.CursorSplits | src/fetch_data.py:249-257 | the cursor read from the store always splits into three parts |
| Recent.DropSummerLeague | src/fetch_data.py:269-272 | a row remains exactly when it was there and its `GAME_DATE[5:7]` is not "07"; columns kept |
| Recent.DropSummerLeagueCount | src/fetch_data.py:269-272 | the rows kept and the July rows dropped together make up the frame |
| Recent.InJulyOfRendering | src/fetch_data.py:269-271 | for a `YYYY-MM-DD` date the test is the month being July |
| Recent.RecentBatch | src/fetch_data.py:284-321 | nothing to push exactly when both frames are empty; otherwise as many rows as both frames |
| Recent.RecentBatchTags | src/fetch_data.py:284-313 | regular-season rows come first, tagged 0, then playoff rows, tagged 1 |
| Recent.RecentBatchRegularCells | src/fetch_data.py:284-299 | every other regular-season cell is kept at its position |
| Recent.RecentBatchPlayoffCells | src/fetch_data.py:284-309 | every other playoff cell is kept, after the regular-season rows |
| Recent.RecentBatchGameFrame | src/fetch_data.py:284-309 | the batch built from finder answers is ready for the push step |
| Recent.RecentGames | src/fetch_data.py:232-321 | an empty store fails with EmptyStore; the cursor split never fails |
| Recent.RecentGamesWindow | src/fetch_data.py:249-279 | when every stored `game_date` renders a date and the latest of them is before 9999-12-31, both queries start the calendar day after the latest stored game, written `MM/DD/YYYY`; the batch is the summer-filtered regular season up to the end date followed by the playoffs from that day |
| Recent.FetchRecentGames | src/fetch_data.py:232-321 | the off-season outcome is exactly an empty batch; pushed rows have the stored schema |
| Recent.FetchRecentGamesFails | src/fetch_data.py:249 | a cursor failure is passed through |
| Recent.FetchRecentGamesPushes | src/fetch_data.py:284-314 | a non-empty batch is pushed as one prepared row per game, failing only for an unknown roster surname |

## Left out

- Network and SDK calls are parameters: the game finders, box scores, players CSV and feature-group reads. Connections, `feature_group.insert` as I/O, `time.sleep` and the status and print messages are not modelled.
- src/modeling.py and src/streamlit_app.py (statistics and UI) and the configuration files are not part of this model, nor is `pull_games_feature_store`.
- The regular-season query's `date_to` constant "01/31/2024" is a parameter of `Recent.RecentGames`.
- `Dates.FormatDate` always pads the year to four digits. For years below 1000 `strftime("%Y")` depends on the C library (glibc writes "999"); stored dates are four-digit years.
- `Dates.ParseDate` treats only ASCII `0`-`9` as digits, while `strptime`'s `\d` also accepts other Unicode decimal digits.
- `Pipeline.RosterNames` (and `Pipeline.FreshTracked`, `Pipeline.FinalReady`): the players' surnames are assumed to give distinct column names, also after lower-casing and next to `rest_*` and the key columns. Two roster ids with the same surname would make pandas build duplicate columns, which the model does not represent.
- `Recent.RecentGames` (and `Recent.FetchRecentGames`) takes the stored table itself. A feature group that was never written makes `feature_group.read` raise `RestAPIError`, which `fetch_recent_games` does not catch; that crash is not represented here (`Sync.PullData` models the same read with `NotFound`, because `pull_data` catches it).
- Strings are sequences of characters: `.upper()`/`.lower()` are modelled on ASCII letters only.
- `Seasons.PullTeamGames`: `sort_values` on `GAME_DATE` is not stable in pandas; the model sorts with a stable insertion sort, so games on the same date keep their concatenation order.
- `Store.ReadSeasons`: pandas' default `sort_values` is not stable; the model uses a stable insertion sort, so ties on `game_date` keep their stored order.
- `Starters.PullGamesStarters`: the date bounds are compared as strings, as for a `game_date` stored as text. A `Str` or `Null` in a starter column counts as 0 in the sum.
- `Sync.FetchBoundsCover`, `Sync.FirstRunFetchesAll` and `Sync.PullDataFails`: stated for four-digit years only. For years of another width the string minimum and maximum need not be the numeric ones.
- Tables carry their cells, not pandas dtypes: `stats_to_int` is the identity on integer cells and an error otherwise.
- `add_one_day`'s reset branch (src/utils.py:28-30) sets the day to 1 only when the month changed, and the successor's day is already 1 then, so the branch never changes the date (`Dates.ResetIsNoOp`).
- Several contracts take the API's schema: string `GAME_DATE` and `game_date`, integer team totals, and no API column name containing a tracked-stat substring. These appear as `requires` clauses such as `ApiGames`, `FinderReady` and `AllStrAt`.

=== FILE: dates.dfy ===
/** The date cursor of src/utils.py: `add_one_day` parses a `%Y-%m-%d`
    string the way `datetime.strptime` does, adds one day, moves to the
    first of the month when the month changed, and renders the result
    with `strftime("%Y-%m-%d")`. Calendar facts follow the proleptic
    Gregorian calendar of Python's `datetime` (years 1 through 9999). */
module Dates {
  import opened Strings
  import opened Outcomes

  datatype Date = Date(year: int, month: int, day: int)

  const MinYear: int := 1
  const MaxYear: int := 9999

  predicate IsLeapYear(y: int) {
    y % 4 == 0 && (y % 100 != 0 || y % 400 == 0)
  }

  function DaysInMonth(y: int, m: int): (n: int)
    requires 1 <= m <= 12
    ensures 28 <= n <= 31
  {
    if m == 2 then (if IsLeapYear(y) then 29 else 28)
    else if m == 4 || m == 6 || m == 9 || m == 11 then 30
    else 31
  }

  /** A date `datetime` can represent. */
  predicate ValidDate(d: Date) {
    && MinYear <= d.year <= MaxYear
    && 1 <= d.month <= 12
    && 1 <= d.day <= DaysInMonth(d.year, d.month)
  }

  /** Strict chronological order, field by field. */
  predicate Before(a: Date, b: Date) {
    || a.year < b.year
    || (a.year == b.year && a.month < b.month)
    || (a.year == b.year && a.month == b.month && a.day < b.day)
  }

  // ---------------------------------------------------------------------------
  // Day numbers: the ordinal `date.toordinal()` computes, 0001-01-01 being 1
  // ---------------------------------------------------------------------------

  function DaysBeforeYear(y: int): int
    requires y >= 1
  {
    var p := y - 1;
    p * 365 + p / 4 - p / 100 + p / 400
  }

  function DaysBeforeMonth(y: int, m: int): int
    requires 1 <= m <= 12
  {
    [0, 31, 59, 90, 120, 151, 181, 212, 243, 273, 304, 334][m - 1]
      + (if m > 2 && IsLeapYear(y) then 1 else 0)
  }

  function DayNumber(d: Date): int
    requires ValidDate(d)
  {
    DaysBeforeYear(d.year) + DaysBeforeMonth(d.year, d.month) + d.day
  }

  lemma DaysBeforeNextMonth(y: int, m: int)
    requires 1 <= m < 12
    ensures DaysBeforeMonth(y, m + 1) == DaysBeforeMonth(y, m) + DaysInMonth(y, m)
  {
  }

  lemma DaysBeforeNextYear(y: int)
    requires y >= 1
    ensures DaysBeforeYear(y + 1) == DaysBeforeYear(y) + 365 + (if IsLeapYear(y) then 1 else 0)
  {
    var p := y - 1;
    assert y / 4 - p / 4 == if y % 4 == 0 then 1 else 0;
    assert y / 100 - p / 100 == if y % 100 == 0 then 1 else 0;
    assert y / 400 - p / 400 == if y % 400 == 0 then 1 else 0;
    if y % 400 == 0 {
      assert y % 100 == 0 && y % 4 == 0;
    } else if y % 100 == 0 {
      assert y % 4 == 0;
    }
  }

  // ---------------------------------------------------------------------------
  // The calendar successor (`date + timedelta(days=1)`)
  // ---------------------------------------------------------------------------

  /** `date + timedelta(days=1)`; stepping past 9999-12-31 raises
      OverflowError. */
  function NextDay(d: Date): (r: Result<Date>)
    requires ValidDate(d)
    ensures r.Success? ==> ValidDate(r.value) && DayNumber(r.value) == DayNumber(d) + 1
    ensures r.Failure? <==> d == Date(MaxYear, 12, 31)
    ensures r.Failure? ==> r.error == OverflowError
  {
    if d.day < DaysInMonth(d.year, d.month) then
      Success(Date(d.year, d.month, d.day + 1))
    else if d.month < 12 then
      DaysBeforeNextMonth(d.year, d.month);
      Success(Date(d.year, d.month + 1, 1))
    else if d.year < MaxYear then
      DaysBeforeNextYear(d.year);
      Success(Date(d.year + 1, 1, 1))
    else
      Failure(OverflowError)
  }

  /** Day numbers never repeat and follow chronological order. */
  lemma {:induction false} DayNumberOrder(a: Date, b: Date)
    requires ValidDate(a) && ValidDate(b)
    ensures Before(a, b) <==> DayNumber(a) < DayNumber(b)
  {
    if a.year < b.year {
      DayNumberYearGap(a, b);
    } else if b.year < a.year {
      DayNumberYearGap(b, a);
    } else if a.month < b.month {
      DayNumberMonthGap(a, b);
    } else if b.month < a.month {
      DayNumberMonthGap(b, a);
    }
  }

  lemma DayNumberMonthGap(a: Date, b: Date)
    requires ValidDate(a) && ValidDate(b)
    requires a.year == b.year && a.month < b.month
    ensures DayNumber(a) < DayNumber(b)
  {
    var m := a.month;
    while m + 1 < b.month
      invariant a.month <= m < b.month
      invariant DaysBeforeMonth(a.year, a.month) + DaysInMonth(a.year, a.month)
        <= DaysBeforeMonth(a.year, m + 1)
    {
      DaysBeforeNextMonth(a.year, m + 1);
      m := m + 1;
    }
    DaysBeforeNextMonth(a.year, a.month);
  }

  lemma DayNumberYearGap(a: Date, b: Date)
    requires ValidDate(a) && ValidDate(b)
    requires a.year < b.year
    ensures DayNumber(a) < DayNumber(b)
  {
    DaysBeforeNextYear(a.year);
    assert DaysBeforeYear(a.year + 1) <= DaysBeforeYear(b.year) by {
      var y := a.year + 1;
      while y < b.year
        invariant a.year + 1 <= y <= b.year
        invariant DaysBeforeYear(a.year + 1) <= DaysBeforeYear(y)
      {
        DaysBeforeNextYear(y);
        y := y + 1;
      }
    }
  }

  // ---------------------------------------------------------------------------
  // Text: `strptime(s, "%Y-%m-%d")` and `strftime("%Y-%m-%d")`
  // ---------------------------------------------------------------------------

  /** The month field `strptime` accepts for `%m`: `1[0-2]|0[1-9]|[1-9]`. */
  predicate IsMonthField(t: string) {
    || (|t| == 2 && t[0] == '1' && '0' <= t[1] <= '2')
    || (|t| == 2 && t[0] == '0' && '1' <= t[1] <= '9')
    || (|t| == 1 && '1' <= t[0] <= '9')
  }

  /** The day field `strptime` accepts for `%d`:
      `3[01]|[12][0-9]|0[1-9]|[1-9]| [1-9]`. */
  predicate IsDayField(t: string) {
    || (|t| == 2 && t[0] == '3' && '0' <= t[1] <= '1')
    || (|t| == 2 && '1' <= t[0] <= '2' && IsDigit(t[1]))
    || (|t| == 2 && t[0] == '0' && '1' <= t[1] <= '9')
    || (|t| == 1 && '1' <= t[0] <= '9')
    || (|t| == 2 && t[0] == ' ' && '1' <= t[1] <= '9')
  }

  /** `int()` of an accepted month or day field (a leading blank or zero
      does not count). */
  function FieldValue(t: string): (v: int)
    requires IsMonthField(t) || IsDayField(t)
    ensures 1 <= v <= 31
  {
    if |t| == 1 then DigitValue(t[0])
    else if t[0] == ' ' then DigitValue(t[1])
    else DigitValue(t[0]) * 10 + DigitValue(t[1])
  }

  /** Position of the first occurrence of `c` in `s`. */
  function IndexOf(s: string, c: char): (r: Option<nat>)
    ensures r.Some? ==> r.value < |s| && s[r.value] == c
    ensures r.Some? ==> forall j :: 0 <= j < r.value ==> s[j] != c
    ensures r.None? ==> forall j :: 0 <= j < |s| ==> s[j] != c
  {
    if |s| == 0 then None
    else if s[0] == c then Some(0)
    else match IndexOf(s[1..], c)
      case None => None
      case Some(k) => Some(k + 1)
  }

  /** `datetime.strptime(s, "%Y-%m-%d")`: four digits, a dash, an accepted
      month field, a dash and an accepted day field, and nothing else;
      a year 0 or a day beyond the month's length raise ValueError too. */
  function ParseDate(s: string): (r: Result<Date>)
    ensures r.Success? ==> ValidDate(r.value)
    ensures r.Failure? ==> r.error == FormatError
  {
    if |s| < 5 || !AllDigits(s[..4]) || s[4] != '-' then Failure(FormatError)
    else
      var rest := s[5..];
      match IndexOf(rest, '-')
      case None => Failure(FormatError)
      case Some(k) =>
        var m, d := rest[..k], rest[k + 1..];
        if !IsMonthField(m) || !IsDayField(d) then Failure(FormatError)
        else
          var date := Date(ParsePad4(s[..4]), FieldValue(m), FieldValue(d));
          if ValidDate(date) then Success(date) else Failure(FormatError)
  }

  /** `strftime("%Y-%m-%d")`: zero-padded year, month and day. */
  function FormatDate(d: Date): (s: string)
    requires ValidDate(d)
    ensures |s| == 10 && s[4] == '-' && s[7] == '-'
  {
    Pad4(d.year) + "-" + Pad2(d.month) + "-" + Pad2(d.day)
  }

  /** The canonical `YYYY-MM-DD` strings: renderings of representable dates. */
  ghost predicate IsCanonicalDate(s: string) {
    exists d :: ValidDate(d) && FormatDate(d) == s
  }

  lemma FormatDateParts(d: Date)
    requires ValidDate(d)
    ensures FormatDate(d)[..4] == Pad4(d.year)
    ensures FormatDate(d)[5..] == Pad2(d.month) + "-" + Pad2(d.day)
    ensures FormatDate(d)[5..][..2] == Pad2(d.month)
    ensures FormatDate(d)[5..][3..] == Pad2(d.day)
    ensures FormatDate(d)[5..7] == Pad2(d.month)
    ensures FormatDate(d)[8..] == Pad2(d.day)
  {
  }

  /** Parsing a rendering gives back the date: the zero-padded form is
      always accepted. */
  lemma ParseFormat(d: Date)
    requires ValidDate(d)
    ensures ParseDate(FormatDate(d)) == Success(d)
  {
    var s := FormatDate(d);
    FormatDateParts(d);
    var rest := s[5..];
    assert rest[2] == '-';
    assert IndexOf(rest, '-') == Some(2) by {
      assert rest[0] != '-' && rest[1] != '-';
      assert IndexOf(rest[1..], '-') == Some(1) by {
        assert rest[1..][0] != '-' && rest[1..][1] == '-';
        assert IndexOf(rest[1..][1..], '-') == Some(0);
      }
    }
    Pad4RoundTrip(d.year);
    Pad2RoundTrip(d.month);
    Pad2RoundTrip(d.day);
  }

  /** Every string of the accepted shape (four digits, a dash, a month
      field, a dash, a day field) parses to the date its fields name, and
      raises when no such day exists. */
  lemma ParseDateFields(yt: string, mt: string, dt: string)
    requires |yt| == 4 && AllDigits(yt) && IsMonthField(mt) && IsDayField(dt)
    ensures var date := Date(ParsePad4(yt), FieldValue(mt), FieldValue(dt));
            ParseDate(yt + "-" + mt + "-" + dt) == if ValidDate(date) then Success(date) else Failure(FormatError)
  {
    var s := yt + "-" + mt + "-" + dt;
    assert s[..4] == yt;
    var rest := s[5..];
    assert rest == mt + "-" + dt;
    assert rest[|mt|] == '-';
    assert forall j :: 0 <= j < |mt| ==> rest[j] != '-';
    assert IndexOf(rest, '-') == Some(|mt|);
    assert rest[..|mt|] == mt && rest[|mt| + 1..] == dt;
  }

  /** Conversely, no string of another shape parses. */
  lemma ParseDateShape(s: string)
    requires ParseDate(s).Success?
    ensures |s| >= 8 && AllDigits(s[..4]) && s[4] == '-'
    ensures exists mt, dt :: IsMonthField(mt) && IsDayField(dt) && s == s[..4] + "-" + mt + "-" + dt
  {
    var k := IndexOf(s[5..], '-').value;
    var mt, dt := s[5..][..k], s[5..][k + 1..];
    assert s == s[..4] + "-" + mt + "-" + dt;
  }

  /** A zero-padded month or day is an accepted field denoting itself. */
  lemma Pad2Field(n: int)
    requires 1 <= n <= 31
    ensures IsDayField(Pad2(n)) && FieldValue(Pad2(n)) == n
    ensures n <= 12 ==> IsMonthField(Pad2(n))
  {
    Pad2RoundTrip(n);
  }

  /** Any zero-padded year, month and day from 1 to 31 parses to that date
      when the month has that day, and raises otherwise. */
  lemma ParsePadded(y: int, m: int, d: int)
    requires MinYear <= y <= MaxYear && 1 <= m <= 12 && 1 <= d <= 31
    ensures ParseDate(Pad4(y) + "-" + Pad2(m) + "-" + Pad2(d))
         == if d <= DaysInMonth(y, m) then Success(Date(y, m, d)) else Failure(FormatError)
  {
    Pad2Field(m);
    Pad2Field(d);
    Pad4RoundTrip(y);
    ParseDateFields(Pad4(y), Pad2(m), Pad2(d));
  }

  /** Renderings are ordered as the dates they render. */
  lemma FormatDateOrder(a: Date, b: Date)
    requires ValidDate(a) && ValidDate(b)
    ensures LexLess(FormatDate(a), FormatDate(b)) <==> Before(a, b)
  {
    var ya, yb := Pad4(a.year), Pad4(b.year);
    var ma, mb := Pad2(a.month), Pad2(b.month);
    var da, db := Pad2(a.day), Pad2(b.day);
    var sa, sb := "-" + da, "-" + db;
    var ra, rb := "-" + (ma + sa), "-" + (mb + sb);
    assert FormatDate(a) == ya + ra && FormatDate(b) == yb + rb;
    LexLessAppend(ya, ra, yb, rb);
    Pad4Order(a.year, b.year);
    Pad4Order(b.year, a.year);
    if a.year == b.year {
      LexLessAppend("-", ma + sa, "-", mb + sb);
      LexLessIrreflexive("-");
      LexLessAppend(ma, sa, mb, sb);
      Pad2Order(a.month, b.month);
      Pad2Order(b.month, a.month);
      if a.month == b.month {
        LexLessAppend("-", da, "-", db);
        Pad2Order(a.day, b.day);
      }
    }
  }

  /** A rendering is at most another exactly when its date is not later. */
  lemma FormatDateLe(a: Date, b: Date)
    requires ValidDate(a) && ValidDate(b)
    ensures LexLe(FormatDate(a), FormatDate(b)) <==> !Before(b, a)
  {
    FormatDateOrder(a, b);
    if FormatDate(a) == FormatDate(b) {
      ParseFormat(a);
      ParseFormat(b);
    }
  }

  // ---------------------------------------------------------------------------
  // add_one_day
  // ---------------------------------------------------------------------------

  /** The day `add_one_day` lands on: the successor, moved to the first of
      its month when the month changed. */
  function LandingDay(d: Date, next: Date): Date {
    if next.month != d.month then Date(next.year, next.month, 1) else next
  }

  /** `add_one_day(s)`: the rendering of the day after the date `s` names.
      Fails with FormatError on what `strptime` rejects and with
      OverflowError after 9999-12-31. */
  function AddOneDay(s: string): (r: Result<string>)
    ensures ParseDate(s).Failure? ==> r == Failure(FormatError)
    ensures ParseDate(s).Success? && ParseDate(s).value == Date(MaxYear, 12, 31)
      ==> r == Failure(OverflowError)
    ensures ParseDate(s).Success? && ParseDate(s).value != Date(MaxYear, 12, 31) ==>
      && r.Success?
      && var d := ParseDate(s).value;
         exists n :: ValidDate(n) && DayNumber(n) == DayNumber(d) + 1 && r.value == FormatDate(n)
  {
    var d :- ParseDate(s);
    var next :- NextDay(d);
    var landed := LandingDay(d, next);
    ResetIsNoOp(d);
    Success(FormatDate(landed))
  }

  /** Whenever the successor is in another month, it is already the first
      of that month: the reset to day 1 in `add_one_day` never changes the
      date. */
  lemma ResetIsNoOp(d: Date)
    requires ValidDate(d) && NextDay(d).Success?
    ensures NextDay(d).value.month != d.month ==> NextDay(d).value.day == 1
    ensures LandingDay(d, NextDay(d).value) == NextDay(d).value
  {
  }

  lemma AddOneDayOfRendering(d: Date)
    requires ValidDate(d)
    ensures NextDay(d).Success? ==> AddOneDay(FormatDate(d)) == Success(FormatDate(NextDay(d).value))
    ensures NextDay(d).Failure? ==> AddOneDay(FormatDate(d)) == Failure(OverflowError)
  {
    ParseFormat(d);
    if NextDay(d).Success? {
      ResetIsNoOp(d);
    }
  }

  /** Within a month, the day number goes up by one. */
  lemma AddOneDayWithinMonth(y: int, m: int, day: int)
    requires ValidDate(Date(y, m, day)) && day < DaysInMonth(y, m)
    ensures AddOneDay(FormatDate(Date(y, m, day))) == Success(FormatDate(Date(y, m, day + 1)))
  {
    var d := Date(y, m, day);
    assert NextDay(d) == Success(Date(y, m, day + 1));
    AddOneDayOfRendering(d);
  }

  /** The last day of January through November is followed by the first of
      the next month of the same year. */
  lemma AddOneDayMonthEnd(y: int, m: int)
    requires MinYear <= y <= MaxYear && 1 <= m < 12
    ensures AddOneDay(FormatDate(Date(y, m, DaysInMonth(y, m))))
      == Success(FormatDate(Date(y, m + 1, 1)))
  {
    AddOneDayOfRendering(Date(y, m, DaysInMonth(y, m)));
  }

  /** December 31 is followed by January 1 of the next year; after
      9999-12-31 there is no representable day. */
  lemma AddOneDayYearEnd(y: int)
    requires MinYear <= y <= MaxYear
    ensures y < MaxYear ==> AddOneDay(FormatDate(Date(y, 12, 31))) == Success(FormatDate(Date(y + 1, 1, 1)))
    ensures y == MaxYear ==> AddOneDay(FormatDate(Date(y, 12, 31))) == Failure(OverflowError)
  {
    var d := Date(y, 12, 31);
    if y < MaxYear {
      assert NextDay(d) == Success(Date(y + 1, 1, 1));
    }
    AddOneDayOfRendering(d);
  }

  /** February 28 is followed by February 29 exactly in leap years, and
      February 29 by March 1. */
  lemma AddOneDayFebruary(y: int)
    requires MinYear <= y <= MaxYear
    ensures IsLeapYear(y) ==> AddOneDay(FormatDate(Date(y, 2, 28))) == Success(FormatDate(Date(y, 2, 29)))
    ensures !IsLeapYear(y) ==> AddOneDay(FormatDate(Date(y, 2, 28))) == Success(FormatDate(Date(y, 3, 1)))
    ensures IsLeapYear(y) ==> AddOneDay(FormatDate(Date(y, 2, 29))) == Success(FormatDate(Date(y, 3, 1)))
  {
    if IsLeapYear(y) {
      assert NextDay(Date(y, 2, 28)) == Success(Date(y, 2, 29));
      assert NextDay(Date(y, 2, 29)) == Success(Date(y, 3, 1));
      AddOneDayOfRendering(Date(y, 2, 29));
    } else {
      assert NextDay(Date(y, 2, 28)) == Success(Date(y, 3, 1));
    }
    AddOneDayOfRendering(Date(y, 2, 28));
  }

  /** On a canonical date the cursor is canonical and strictly greater as a
      string. */
  lemma AddOneDayIncreases(d: Date)
    requires ValidDate(d) && d != Date(MaxYear, 12, 31)
    ensures AddOneDay(FormatDate(d)).Success?
    ensures IsCanonicalDate(AddOneDay(FormatDate(d)).value)
    ensures LexLess(FormatDate(d), AddOneDay(FormatDate(d)).value)
  {
    AddOneDayOfRendering(d);
    var n := NextDay(d).value;
    DayNumberOrder(d, n);
    FormatDateOrder(d, n);
  }

  /** `add_one_day` sees its input only through `strptime`. */
  lemma AddOneDayOfParse(s: string, t: string)
    requires ParseDate(s) == ParseDate(t)
    ensures AddOneDay(s) == AddOneDay(t)
  {
  }

  lemma ParseUnpaddedExample()
    ensures ParseDate("2023-1-5") == Success(Date(2023, 1, 5))
  {
    ParseDateFields("2023", "1", "5");
    assert "2023" + "-" + "1" + "-" + "5" == "2023-1-5";
    assert ParsePad4("2023") == 2023 by {
      assert "2023"[..2] == "20" && "2023"[2..] == "23";
    }
  }

  lemma FormatExample()
    ensures FormatDate(Date(2023, 1, 6)) == "2023-01-06"
  {
    assert Pad2(1) == "01" && Pad2(6) == "06";
    assert Pad2(20) == "20" && Pad2(23) == "23";
  }

  lemma UnpaddedOrderExample()
    ensures LexLess("2023-01-06", "2023-1-5")
  {
    assert LexLess("01-06", "1-5");
    assert LexLess("-01-06", "-1-5");
    assert LexLess("3-01-06", "3-1-5");
    assert LexLess("23-01-06", "23-1-5");
    assert LexLess("023-01-06", "023-1-5");
  }

  /** The increase needs a zero-padded input: `strptime` accepts the
      one-digit month of `2023-1-5`, and the padded rendering of the next
      day sorts before it as a string. */
  lemma AddOneDayUnpaddedSortsEarlier()
    ensures AddOneDay("2023-1-5") == Success("2023-01-06")
    ensures LexLess(AddOneDay("2023-1-5").value, "2023-1-5")
  {
    ParseUnpaddedExample();
    ParseFormat(Date(2023, 1, 5));
    AddOneDayOfParse("2023-1-5", FormatDate(Date(2023, 1, 5)));
    AddOneDayWithinMonth(2023, 1, 5);
    FormatExample();
    UnpaddedOrderExample();
  }

  /** `2023-02-30` is well formed but names no day: ValueError. */
  lemma AddOneDayRejectsNoSuchDay()
    ensures AddOneDay("2023-02-30") == Failure(FormatError)
  {
    var s := "2023-02-30";
    assert s[5..] == "02-30";
    assert IndexOf("02-30", '-') == Some(2) by {
      assert IndexOf("2-30", '-') == Some(1) by {
        assert "2-30"[1..] == "-30";
      }
      assert "02-30"[1..] == "2-30";
    }
    assert s[..4] == "2023";
    assert ParsePad4("2023") == 2023 by {
      assert "2023"[..2] == "20" && "2023"[2..] == "23";
    }
    assert "02-30"[..2] == "02" && "02-30"[3..] == "30";
    assert !ValidDate(Date(2023, 2, 30));
  }

  /** `2023/02/01` has the wrong separators and `23-02-01` a short year:
      both raise ValueError. */
  lemma AddOneDayRejectsLayout()
    ensures AddOneDay("2023/02/01") == Failure(FormatError)
    ensures AddOneDay("23-02-01") == Failure(FormatError)
  {
    assert "2023/02/01"[4] == '/';
    assert "23-02-01"[2] == '-';
  }
}

=== FILE: frames.dfy ===
/** The pandas DataFrame, as far as the pipeline uses it: an ordered list
    of distinct column names and a list of rows, each row a map from the
    column names to cell values. Missing cells (NaN/None) are `Null`;
    all numbers are integers. */
module Frames {
  import opened Strings

  datatype Value = Int(n: int) | Str(s: string) | Null

  /** A cell `sum` and `astype(int)` can read: a number or a missing value. */
  predicate IsNumber(v: Value) {
    !v.Str?
  }

  /** What a missing value counts for in `sum(axis=1)` (NaN is skipped). */
  function IntOf(v: Value): int {
    if v.Int? then v.n else 0
  }

  type Row = map<string, Value>

  datatype Frame = Frame(columns: seq<string>, rows: seq<Row>)

  predicate Distinct<T(==)>(s: seq<T>) {
    forall i, j :: 0 <= i < j < |s| ==> s[i] != s[j]
  }

  /** Two duplicate-free sequences with no common element concatenate
      to a duplicate-free one. */
  lemma DistinctConcat<T>(a: seq<T>, b: seq<T>)
    requires Distinct(a) && Distinct(b)
    requires forall x :: x in b ==> x !in a
    ensures Distinct(a + b)
  {
    forall i, j | 0 <= i < j < |a + b|
      ensures (a + b)[i] != (a + b)[j]
    {
      if i < |a| && j >= |a| {
        assert (a + b)[j] in b;
      }
    }
  }

  /** A row holds exactly the frame's columns. */
  predicate RowFits(r: Row, cols: seq<string>) {
    && (forall c :: c in r ==> c in cols)
    && (forall c :: c in cols ==> c in r)
  }

  predicate WellFormed(f: Frame) {
    && Distinct(f.columns)
    && forall k :: 0 <= k < |f.rows| ==> RowFits(f.rows[k], f.columns)
  }

  /** Column `c` exists and holds strings in every row. */
  predicate StrColumn(f: Frame, c: string) {
    && c in f.columns
    && forall k :: 0 <= k < |f.rows| ==> c in f.rows[k] && f.rows[k][c].Str?
  }

  /** Column `c` exists and holds integers in every row. */
  predicate IntColumn(f: Frame, c: string) {
    && c in f.columns
    && forall k :: 0 <= k < |f.rows| ==> c in f.rows[k] && f.rows[k][c].Int?
  }

  // ---------------------------------------------------------------------------
  // Filtering (boolean-mask indexing keeps the selected rows in order)
  // ---------------------------------------------------------------------------

  function Filter<T(!new,==)>(s: seq<T>, p: T -> bool): (r: seq<T>)
    ensures |r| <= |s|
    ensures forall x :: x in r <==> x in s && p(x)
    ensures forall x :: x in r ==> p(x)
    decreases |s|
  {
    if |s| == 0 then []
    else if p(s[0]) then [s[0]] + Filter(s[1..], p)
    else Filter(s[1..], p)
  }

  lemma {:induction false} FilterAppend<T(!new)>(a: seq<T>, b: seq<T>, p: T -> bool)
    ensures Filter(a + b, p) == Filter(a, p) + Filter(b, p)
    decreases |a|
  {
    if |a| == 0 {
      assert a + b == b;
    } else {
      assert (a + b)[1..] == a[1..] + b;
      FilterAppend(a[1..], b, p);
    }
  }

  /** Filtering keeps every selected element with its multiplicity and
      drops every other one. */
  lemma {:induction false} FilterMultiset<T(!new)>(s: seq<T>, p: T -> bool)
    ensures forall x :: multiset(Filter(s, p))[x] == if p(x) then multiset(s)[x] else 0
    decreases |s|
  {
    if |s| > 0 {
      FilterMultiset(s[1..], p);
      assert s == [s[0]] + s[1..];
    }
  }

  lemma {:induction false} FilterAll<T(!new)>(s: seq<T>, p: T -> bool)
    requires forall i :: 0 <= i < |s| ==> p(s[i])
    ensures Filter(s, p) == s
    decreases |s|
  {
    if |s| > 0 {
      FilterAll(s[1..], p);
    }
  }

  lemma {:induction false} FilterNone<T(!new)>(s: seq<T>, p: T -> bool)
    requires forall i :: 0 <= i < |s| ==> !p(s[i])
    ensures Filter(s, p) == []
    decreases |s|
  {
    if |s| > 0 {
      FilterNone(s[1..], p);
    }
  }

  lemma {:induction false} FilterDistinct<T(!new)>(s: seq<T>, p: T -> bool)
    requires Distinct(s)
    ensures Distinct(Filter(s, p))
    decreases |s|
  {
    if |s| > 0 {
      FilterDistinct(s[1..], p);
    }
  }

  /** Filtering by a predicate that agrees with another on every element
      gives the same result. */
  lemma {:induction false} FilterCongruent<T(!new)>(s: seq<T>, p: T -> bool, q: T -> bool)
    requires forall i :: 0 <= i < |s| ==> p(s[i]) == q(s[i])
    ensures Filter(s, p) == Filter(s, q)
    decreases |s|
  {
    if |s| > 0 {
      FilterCongruent(s[1..], p, q);
    }
  }

  /** Filtering by a disjunction of two exclusive conditions selects the
      elements of both filters together. */
  lemma {:induction false} FilterSplit<T(!new)>(s: seq<T>, p: T -> bool, q: T -> bool, either: T -> bool)
    requires forall x :: either(x) == (p(x) || q(x))
    requires forall x :: !(p(x) && q(x))
    ensures multiset(Filter(s, either)) == multiset(Filter(s, p)) + multiset(Filter(s, q))
    decreases |s|
  {
    if |s| > 0 {
      FilterSplit(s[1..], p, q, either);
    }
  }

  function FilterRows(f: Frame, keep: Row -> bool): (r: Frame)
    ensures r.columns == f.columns
    ensures WellFormed(f) ==> WellFormed(r)
    ensures |r.rows| <= |f.rows|
    ensures forall x :: x in r.rows <==> x in f.rows && keep(x)
  {
    var rows := Filter(f.rows, keep);
    assert forall k :: 0 <= k < |rows| ==> rows[k] in f.rows;
    Frame(f.columns, rows)
  }

  // ---------------------------------------------------------------------------
  // Adding and selecting columns
  // ---------------------------------------------------------------------------

  /** `f[name] = vals`: replaces the column in place when it exists,
      otherwise appends it as the last column. */
  function SetColumn(f: Frame, name: string, vals: seq<Value>): (r: Frame)
    requires |vals| == |f.rows|
    ensures r.columns == if name in f.columns then f.columns else f.columns + [name]
    ensures |r.rows| == |f.rows|
    ensures forall k :: 0 <= k < |f.rows| ==> r.rows[k] == f.rows[k][name := vals[k]]
    ensures WellFormed(f) ==> WellFormed(r)
  {
    var cols := if name in f.columns then f.columns else f.columns + [name];
    Frame(cols, seq(|f.rows|, k requires 0 <= k < |f.rows| => f.rows[k][name := vals[k]]))
  }

  /** `f[name] = v` with a scalar. */
  function ConstColumn(f: Frame, name: string, v: Value): (r: Frame)
    ensures r.columns == if name in f.columns then f.columns else f.columns + [name]
    ensures |r.rows| == |f.rows|
    ensures forall k :: 0 <= k < |f.rows| ==> r.rows[k] == f.rows[k][name := v]
    ensures WellFormed(f) ==> WellFormed(r)
  {
    SetColumn(f, name, seq(|f.rows|, _ => v))
  }

  function Project(r: Row, cols: seq<string>): (p: Row)
    requires forall c :: c in cols ==> c in r
    ensures RowFits(p, cols)
    ensures forall c :: c in cols ==> p[c] == r[c]
  {
    map c | c in cols :: r[c]
  }

  /** `f[cols]`: the listed columns, in the listed order. */
  function Select(f: Frame, cols: seq<string>): (r: Frame)
    requires Distinct(cols)
    requires WellFormed(f) && forall c :: c in cols ==> c in f.columns
    ensures WellFormed(r)
    ensures r.columns == cols && |r.rows| == |f.rows|
    ensures forall k, c :: 0 <= k < |f.rows| && c in cols ==> r.rows[k][c] == f.rows[k][c]
  {
    Frame(cols, seq(|f.rows|, k requires 0 <= k < |f.rows| => Project(f.rows[k], cols)))
  }

  /** The row holding `vals[i]` under `cols[i]`. */
  function Zip(cols: seq<string>, vals: seq<Value>): (r: Row)
    requires Distinct(cols) && |vals| == |cols|
    ensures RowFits(r, cols)
    ensures forall i :: 0 <= i < |cols| ==> r[cols[i]] == vals[i]
  {
    map i | 0 <= i < |cols| :: cols[i] := vals[i]
  }

  /** Renaming every column `c` to `Lower(c)`. */
  function LowerRow(r: Row, cols: seq<string>): (l: Row)
    requires Distinct(cols) && Distinct(LowerAll(cols))
    requires forall c :: c in cols ==> c in r
    ensures RowFits(l, LowerAll(cols))
    ensures forall i :: 0 <= i < |cols| ==> l[Lower(cols[i])] == r[cols[i]]
  {
    var l := map i | 0 <= i < |cols| :: Lower(cols[i]) := r[cols[i]];
    assert forall c :: c in LowerAll(cols) ==> c in l by {
      forall c | c in LowerAll(cols)
        ensures c in l
      {
        var i :| 0 <= i < |cols| && LowerAll(cols)[i] == c;
      }
    }
    l
  }

  function LowerAll(cols: seq<string>): (l: seq<string>)
    ensures |l| == |cols|
    ensures forall i :: 0 <= i < |cols| ==> l[i] == Lower(cols[i])
  {
    seq(|cols|, i requires 0 <= i < |cols| => Lower(cols[i]))
  }

  /** `rename(columns={c: c.lower()})` for every column. Renaming two
      columns to the same name would duplicate a column, which this model
      of a frame excludes. */
  function LowercaseColumns(f: Frame): (r: Frame)
    requires WellFormed(f) && Distinct(LowerAll(f.columns))
    ensures WellFormed(r)
    ensures r.columns == LowerAll(f.columns) && |r.rows| == |f.rows|
    ensures forall k, i :: 0 <= k < |f.rows| && 0 <= i < |f.columns| ==>
      r.rows[k][Lower(f.columns[i])] == f.rows[k][f.columns[i]]
  {
    Frame(LowerAll(f.columns),
      seq(|f.rows|, k requires 0 <= k < |f.rows| => LowerRow(f.rows[k], f.columns)))
  }

  // ---------------------------------------------------------------------------
  // Vertical concatenation (`pd.concat(..., axis=0, ignore_index=True)`)
  // ---------------------------------------------------------------------------

  /** The columns of the first frame, then those of the second it lacks. */
  function UnionColumns(a: seq<string>, b: seq<string>): seq<string> {
    a + Filter(b, c => c !in a)
  }

  lemma UnionColumnsFacts(a: seq<string>, b: seq<string>)
    requires Distinct(a) && Distinct(b)
    ensures Distinct(UnionColumns(a, b))
    ensures forall c :: c in UnionColumns(a, b) <==> c in a || c in b
    ensures a == b ==> UnionColumns(a, b) == a
  {
    FilterDistinct(b, c => c !in a);
    var extra := Filter(b, c => c !in a);
    forall i, j | 0 <= i < j < |a + extra|
      ensures (a + extra)[i] != (a + extra)[j]
    {
      if j >= |a| && i < |a| {
        assert (a + extra)[j] in extra;
      }
    }
    if a == b {
      FilterNone(b, c => c !in a);
    }
  }

  /** The row padded with missing values for the columns it lacks. */
  function Widen(r: Row, cols: seq<string>): (w: Row)
    ensures RowFits(w, cols)
    ensures forall c :: c in cols ==> w[c] == if c in r then r[c] else Null
  {
    map c | c in cols :: if c in r then r[c] else Null
  }

  lemma WidenFitting(r: Row, cols: seq<string>)
    requires RowFits(r, cols)
    ensures Widen(r, cols) == r
  {
  }

  function WidenAll(rows: seq<Row>, cols: seq<string>): (w: seq<Row>)
    ensures |w| == |rows|
    ensures forall k :: 0 <= k < |rows| ==> w[k] == Widen(rows[k], cols)
  {
    seq(|rows|, k requires 0 <= k < |rows| => Widen(rows[k], cols))
  }

  /** `pd.concat([f, g])`: rows of `f` then rows of `g`, over the union of
      their columns, with missing cells where a frame lacked a column. */
  function Concat(f: Frame, g: Frame): (r: Frame)
    ensures r.columns == UnionColumns(f.columns, g.columns)
    ensures |r.rows| == |f.rows| + |g.rows|
    ensures forall k :: 0 <= k < |f.rows| ==> r.rows[k] == Widen(f.rows[k], r.columns)
    ensures forall k :: 0 <= k < |g.rows| ==> r.rows[|f.rows| + k] == Widen(g.rows[k], r.columns)
  {
    var cols := UnionColumns(f.columns, g.columns);
    Frame(cols, WidenAll(f.rows, cols) + WidenAll(g.rows, cols))
  }

  lemma ConcatWellFormed(f: Frame, g: Frame)
    requires WellFormed(f) && WellFormed(g)
    ensures WellFormed(Concat(f, g))
  {
    UnionColumnsFacts(f.columns, g.columns);
  }

  /** Frames with the same columns concatenate to the plain sequence of
      their rows. */
  lemma ConcatSameColumns(f: Frame, g: Frame)
    requires WellFormed(f) && WellFormed(g) && f.columns == g.columns
    ensures Concat(f, g) == Frame(f.columns, f.rows + g.rows)
  {
    UnionColumnsFacts(f.columns, g.columns);
    var r := Concat(f, g);
    forall k | 0 <= k < |f.rows + g.rows|
      ensures r.rows[k] == (f.rows + g.rows)[k]
    {
      if k < |f.rows| {
        WidenFitting(f.rows[k], f.columns);
      } else {
        WidenFitting(g.rows[k - |f.rows|], f.columns);
      }
    }
  }

  lemma UnionColumnsHas(a: seq<string>, b: seq<string>)
    ensures forall c :: c in UnionColumns(a, b) <==> c in a || c in b
  {
  }

  /** `pd.concat(frames)` over a non-empty list. */
  function ConcatAll(fs: seq<Frame>): (r: Frame)
    requires |fs| > 0
    ensures |r.rows| == SumRows(fs)
    decreases |fs|
  {
    if |fs| == 1 then Concat(Frame([], []), fs[0])
    else Concat(ConcatAll(fs[..|fs| - 1]), fs[|fs| - 1])
  }

  function SumRows(fs: seq<Frame>): nat
    decreases |fs|
  {
    if |fs| == 0 then 0 else SumRows(fs[..|fs| - 1]) + |fs[|fs| - 1].rows|
  }

  lemma {:induction false} ConcatAllWellFormed(fs: seq<Frame>)
    requires |fs| > 0 && forall i :: 0 <= i < |fs| ==> WellFormed(fs[i])
    ensures WellFormed(ConcatAll(fs))
    ensures forall i, c :: 0 <= i < |fs| && c in fs[i].columns ==> c in ConcatAll(fs).columns
    decreases |fs|
  {
    UnionColumnsFacts([], fs[0].columns);
    ConcatWellFormed(Frame([], []), fs[0]);
    if |fs| > 1 {
      ConcatAllWellFormed(fs[..|fs| - 1]);
      UnionColumnsFacts(ConcatAll(fs[..|fs| - 1]).columns, fs[|fs| - 1].columns);
      ConcatWellFormed(ConcatAll(fs[..|fs| - 1]), fs[|fs| - 1]);
    }
  }

  /** The rows of the frames, one frame after the other. */
  function AllRows(fs: seq<Frame>): (rows: seq<Row>)
    decreases |fs|
  {
    if |fs| == 0 then [] else AllRows(fs[..|fs| - 1]) + fs[|fs| - 1].rows
  }

  /** Frames that share one column list concatenate to their rows, in
      order and unchanged. */
  lemma {:induction false} ConcatAllSameColumns(fs: seq<Frame>, cols: seq<string>)
    requires |fs| > 0
    requires forall i :: 0 <= i < |fs| ==> WellFormed(fs[i]) && fs[i].columns == cols
    ensures ConcatAll(fs) == Frame(cols, AllRows(fs))
    decreases |fs|
  {
    var last := fs[|fs| - 1];
    if |fs| == 1 {
      FilterAll(cols, c => c !in []);
      assert UnionColumns([], cols) == cols;
      forall k | 0 <= k < |last.rows|
        ensures Widen(last.rows[k], cols) == last.rows[k]
      {
        WidenFitting(last.rows[k], cols);
      }
      assert AllRows(fs) == last.rows;
    } else {
      var init := fs[..|fs| - 1];
      ConcatAllSameColumns(init, cols);
      ConcatAllWellFormed(init);
      ConcatSameColumns(Frame(cols, AllRows(init)), last);
    }
  }

  /** Every column of every frame reaches the concatenation, and no other. */
  lemma {:induction false} ConcatAllColumns(fs: seq<Frame>)
    requires |fs| > 0
    ensures forall c :: c in ConcatAll(fs).columns <==> exists i :: 0 <= i < |fs| && c in fs[i].columns
    decreases |fs|
  {
    var last := fs[|fs| - 1];
    if |fs| == 1 {
      UnionColumnsHas([], last.columns);
    } else {
      var init := fs[..|fs| - 1];
      ConcatAllColumns(init);
      UnionColumnsHas(ConcatAll(init).columns, last.columns);
      forall c | c in ConcatAll(fs).columns
        ensures exists i :: 0 <= i < |fs| && c in fs[i].columns
      {
        if c !in last.columns {
          var i :| 0 <= i < |init| && c in init[i].columns;
          assert fs[i] == init[i];
        }
      }
      forall c, i | 0 <= i < |fs| && c in fs[i].columns
        ensures c in ConcatAll(fs).columns
      {
        if i < |init| {
          assert init[i] == fs[i];
        }
      }
    }
  }

  /** A cell of a column its frame has is kept by the concatenation: the
      first frame's rows come first, the second frame's after them. */
  lemma ConcatCells(f: Frame, g: Frame, k: nat, c: string)
    ensures k < |f.rows| && c in f.columns && c in f.rows[k] ==>
      (c in Concat(f, g).rows[k] && Concat(f, g).rows[k][c] == f.rows[k][c])
    ensures k < |g.rows| && c in g.columns && c in g.rows[k] ==>
      (c in Concat(f, g).rows[|f.rows| + k] && Concat(f, g).rows[|f.rows| + k][c] == g.rows[k][c])
  {
    var r := Concat(f, g);
    UnionColumnsHas(f.columns, g.columns);
    if k < |f.rows| && c in f.columns && c in f.rows[k] {
      assert r.rows[k] == Widen(f.rows[k], r.columns);
    }
    if k < |g.rows| && c in g.columns && c in g.rows[k] {
      assert r.rows[|f.rows| + k] == Widen(g.rows[k], r.columns);
    }
  }

  /** A column the second frame has, whose cells in both frames satisfy
      `p`, keeps that property in the concatenation. */
  lemma ConcatKeeps(f: Frame, g: Frame, col: string, p: Value -> bool)
    requires col in g.columns
    requires forall k :: 0 <= k < |f.rows| ==> col in f.rows[k] && p(f.rows[k][col])
    requires forall k :: 0 <= k < |g.rows| ==> col in g.rows[k] && p(g.rows[k][col])
    ensures col in Concat(f, g).columns
    ensures forall k :: 0 <= k < |Concat(f, g).rows| ==> col in Concat(f, g).rows[k] && p(Concat(f, g).rows[k][col])
  {
    var r := Concat(f, g);
    UnionColumnsHas(f.columns, g.columns);
    forall k | 0 <= k < |r.rows|
      ensures col in r.rows[k] && p(r.rows[k][col])
    {
      if k >= |f.rows| {
        assert r.rows[k] == Widen(g.rows[k - |f.rows|], r.columns);
      }
    }
  }

  /** A column every frame has, whose cells all satisfy `p`, keeps that
      property in the concatenation. */
  lemma {:induction false} ConcatAllKeeps(fs: seq<Frame>, col: string, p: Value -> bool)
    requires |fs| > 0
    requires forall i :: 0 <= i < |fs| ==> col in fs[i].columns
    requires forall i, k :: 0 <= i < |fs| && 0 <= k < |fs[i].rows| ==> col in fs[i].rows[k] && p(fs[i].rows[k][col])
    ensures col in ConcatAll(fs).columns
    ensures forall k :: 0 <= k < |ConcatAll(fs).rows| ==> col in ConcatAll(fs).rows[k] && p(ConcatAll(fs).rows[k][col])
    decreases |fs|
  {
    var last := fs[|fs| - 1];
    if |fs| == 1 {
      ConcatKeeps(Frame([], []), last, col, p);
    } else {
      var init := fs[..|fs| - 1];
      assert forall i :: 0 <= i < |init| ==> init[i] == fs[i];
      ConcatAllKeeps(init, col, p);
      ConcatKeeps(ConcatAll(init), last, col, p);
    }
  }

  // ---------------------------------------------------------------------------
  // Sorting by a string column (`sort_values(by=col, ascending=True)`)
  // ---------------------------------------------------------------------------

  predicate StrAt(r: Row, col: string) {
    col in r && r[col].Str?
  }

  predicate AllStrAt(rows: seq<Row>, col: string) {
    forall k :: 0 <= k < |rows| ==> StrAt(rows[k], col)
  }

  /** Ascending by the string in `col`. */
  predicate SortedBy(rows: seq<Row>, col: string)
    requires AllStrAt(rows, col)
  {
    forall i, j :: 0 <= i < j < |rows| ==> LexLe(rows[i][col].s, rows[j][col].s)
  }

  function Insert(r: Row, rows: seq<Row>, col: string): (out: seq<Row>)
    requires StrAt(r, col) && AllStrAt(rows, col)
    ensures multiset(out) == multiset(rows) + multiset{r}
    ensures AllStrAt(out, col)
    decreases |rows|
  {
    if |rows| == 0 then [r]
    else if LexLe(r[col].s, rows[0][col].s) then [r] + rows
    else
      assert rows == [rows[0]] + rows[1..];
      [rows[0]] + Insert(r, rows[1..], col)
  }

  lemma {:induction false} InsertSorted(r: Row, rows: seq<Row>, col: string)
    requires StrAt(r, col) && AllStrAt(rows, col) && SortedBy(rows, col)
    ensures SortedBy(Insert(r, rows, col), col)
    decreases |rows|
  {
    var out: seq<Row> := Insert(r, rows, col);
    if |rows| == 0 {
    } else if LexLe(r[col].s, rows[0][col].s) {
      forall j | 1 <= j < |out|
        ensures LexLe(r[col].s, out[j][col].s)
      {
        if j > 1 {
          LexLeTransitive(r[col].s, rows[0][col].s, rows[j - 1][col].s);
        }
      }
    } else {
      var rest: seq<Row> := Insert(r, rows[1..], col);
      InsertSorted(r, rows[1..], col);
      LexTotal(r[col].s, rows[0][col].s);
      assert rows == [rows[0]] + rows[1..];
      forall j | 0 <= j < |rest|
        ensures LexLe(rows[0][col].s, rest[j][col].s)
      {
        assert rest[j] in multiset(rows[1..]) + multiset{r};
        if rest[j] != r {
          assert rest[j] in rows[1..];
          var m :| 0 <= m < |rows[1..]| && rows[1..][m] == rest[j];
          assert rows[m + 1] == rest[j];
        }
      }
      assert out == [rows[0]] + rest;
    }
  }

  /** An insertion sort: one of the orders `sort_values` may produce (its
      default quicksort leaves the order of equal dates unspecified). */
  function SortRows(rows: seq<Row>, col: string): (out: seq<Row>)
    requires AllStrAt(rows, col)
    ensures multiset(out) == multiset(rows)
    ensures AllStrAt(out, col) && SortedBy(out, col)
    decreases |rows|
  {
    if |rows| == 0 then []
    else
      assert rows == [rows[0]] + rows[1..];
      InsertSorted(rows[0], SortRows(rows[1..], col), col);
      Insert(rows[0], SortRows(rows[1..], col), col)
  }

  lemma PermutationFits(a: seq<Row>, b: seq<Row>, cols: seq<string>)
    requires multiset(a) == multiset(b)
    requires forall k :: 0 <= k < |b| ==> RowFits(b[k], cols)
    ensures forall k :: 0 <= k < |a| ==> RowFits(a[k], cols)
  {
    forall k | 0 <= k < |a|
      ensures RowFits(a[k], cols)
    {
      assert a[k] in multiset(b);
      var m :| 0 <= m < |b| && b[m] == a[k];
    }
  }

  /** A reordering keeps a property every row has in a column. */
  lemma PermutationKeeps(a: seq<Row>, b: seq<Row>, col: string, p: Value -> bool)
    requires multiset(a) == multiset(b)
    requires forall k :: 0 <= k < |b| ==> col in b[k] && p(b[k][col])
    ensures forall k :: 0 <= k < |a| ==> col in a[k] && p(a[k][col])
  {
    forall k | 0 <= k < |a|
      ensures col in a[k] && p(a[k][col])
    {
      assert a[k] in multiset(b);
      var m :| 0 <= m < |b| && b[m] == a[k];
    }
  }

  function SortBy(f: Frame, col: string): (r: Frame)
    requires AllStrAt(f.rows, col)
    ensures r.columns == f.columns
    ensures multiset(r.rows) == multiset(f.rows) && |r.rows| == |f.rows|
    ensures AllStrAt(r.rows, col) && SortedBy(r.rows, col)
    ensures WellFormed(f) ==> WellFormed(r)
  {
    var rows := SortRows(f.rows, col);
    assert |rows| == |multiset(rows)| == |multiset(f.rows)| == |f.rows|;
    assert WellFormed(f) ==> forall k :: 0 <= k < |rows| ==> RowFits(rows[k], f.columns) by {
      if WellFormed(f) {
        PermutationFits(rows, f.rows, f.columns);
      }
    }
    Frame(f.columns, rows)
  }

  /** The largest string in `col`. */
  function MaxStr(rows: seq<Row>, col: string): (m: string)
    requires |rows| > 0 && AllStrAt(rows, col)
    ensures exists k :: 0 <= k < |rows| && rows[k][col].s == m
    ensures forall k :: 0 <= k < |rows| ==> LexLe(rows[k][col].s, m)
    decreases |rows|
  {
    if |rows| == 1 then rows[0][col].s
    else
      var m := MaxStr(rows[1..], col);
      var x := rows[0][col].s;
      LexTotal(x, m);
      assert forall k :: 1 <= k < |rows| ==> rows[k] == rows[1..][k - 1];
      if LexLess(m, x) then
        assert forall k :: 0 <= k < |rows| ==> LexLe(rows[k][col].s, x) by {
          forall k | 1 <= k < |rows|
            ensures LexLe(rows[k][col].s, x)
          {
            LexLeLessTransitive(rows[k][col].s, m, x);
          }
        }
        x
      else
        m
  }
}

=== FILE: groups.dfy ===
/** `append_players_stats` of src/data.py: the games are split by season
    (`SEASON_ID` without its first character), each season is enriched on
    its own, and the enriched seasons are stacked again. `pull_data` runs
    this grouped enrichment before the residual, cast and projection steps. */
module SeasonGroups {
  import opened Strings
  import opened Outcomes
  import opened Frames
  import opened Pipeline

  // ---------------------------------------------------------------------------
  // Season keys
  // ---------------------------------------------------------------------------

  /** `SEASON_ID.str[1:]` of one row. A missing or non-string id gives
      pandas' NaN, written `None` here. */
  function SeasonKey(r: Row): Option<string> {
    if "SEASON_ID" in r && r["SEASON_ID"].Str? then Some(DropFirst(r["SEASON_ID"].s)) else None
  }

  /** `.unique().tolist()`: every key of the rows once, in order of first
      appearance, and no other. */
  function SeasonKeys(rows: seq<Row>): (keys: seq<Option<string>>)
    ensures Distinct(keys)
    ensures forall k :: 0 <= k < |rows| ==> SeasonKey(rows[k]) in keys
    ensures forall i :: 0 <= i < |keys| ==> exists k :: 0 <= k < |rows| && SeasonKey(rows[k]) == keys[i]
    ensures |keys| == 0 <==> |rows| == 0
    decreases |rows|
  {
    if |rows| == 0 then []
    else
      var init := rows[..|rows| - 1];
      var keys := SeasonKeys(init);
      var key := SeasonKey(rows[|rows| - 1]);
      assert forall k :: 0 <= k < |init| ==> init[k] == rows[k];
      if key in keys then keys else keys + [key]
  }

  /** Whether a row belongs to season `key`: `SEASON_ID.str[1:] == season`.
      NaN equals nothing, so a row without a string id is in no season. */
  predicate InSeason(key: Option<string>, r: Row) {
    key.Some? && SeasonKey(r) == key
  }

  function InSeasonOf(key: Option<string>): Row -> bool {
    r => InSeason(key, r)
  }

  /** Whether a row belongs to one of the seasons `keys`. */
  predicate InSeasons(keys: seq<Option<string>>, r: Row) {
    SeasonKey(r).Some? && SeasonKey(r) in keys
  }

  function InSeasonsOf(keys: seq<Option<string>>): Row -> bool {
    r => InSeasons(keys, r)
  }

  /** The rows some season picks up. */
  predicate HasSeason(r: Row) {
    SeasonKey(r).Some?
  }

  /** `team_games[team_games["SEASON_ID"].str[1:] == season]`. */
  function SeasonGames(games: Frame, key: Option<string>): Frame {
    FilterRows(games, InSeasonOf(key))
  }

  // ---------------------------------------------------------------------------
  // append_players_stats
  // ---------------------------------------------------------------------------

  /** The loop's list of enriched season frames. */
  function EnrichedSeasons(players: seq<int>, surnames: map<int, string>, box: BoxScores, games: Frame,
                           keys: seq<Option<string>>): (fs: seq<Frame>)
    requires EnrichReady(players, surnames, games)
    ensures |fs| == |keys|
    ensures forall i :: 0 <= i < |keys| ==> fs[i] == Enrich(players, surnames, box, SeasonGames(games, keys[i])).value
  {
    seq(|keys|, i requires 0 <= i < |keys| => Enrich(players, surnames, box, SeasonGames(games, keys[i])).value)
  }

  /** `append_players_stats(players_list, team_games)`: every season's games
      enriched by `append_players_stats_season`, concatenated. Without a
      game there is no season and `pd.concat` raises; an unknown player
      fails the first season's enrichment. */
  function AppendBySeason(players: seq<int>, surnames: map<int, string>, box: BoxScores, games: Frame): (r: Result<Frame>)
    requires WellFormed(games) && "GAME_ID" in games.columns
    requires FreshTracked(players, surnames, games.columns)
    ensures r.Failure? <==> |games.rows| == 0 || !KnownPlayers(players, surnames)
    ensures |games.rows| == 0 ==> r == Failure(NothingToConcatenate)
    ensures |games.rows| > 0 && r.Failure? ==> r.error == UnknownPlayer(FirstUnknown(players, surnames))
  {
    var keys := SeasonKeys(games.rows);
    if |keys| == 0 then Failure(NothingToConcatenate)
    else if !KnownPlayers(players, surnames) then Failure(UnknownPlayer(FirstUnknown(players, surnames)))
    else Success(ConcatAll(EnrichedSeasons(players, surnames, box, games, keys)))
  }

  // ---------------------------------------------------------------------------
  // The regrouped games
  // ---------------------------------------------------------------------------

  /** The rows of the seasons `keys`, one season after the other. */
  function GroupRows(rows: seq<Row>, keys: seq<Option<string>>): seq<Row>
    decreases |keys|
  {
    if |keys| == 0 then []
    else GroupRows(rows, keys[..|keys| - 1]) + Filter(rows, InSeasonOf(keys[|keys| - 1]))
  }

  /** The games in the order the season loop visits them. */
  function Regroup(games: Frame): Frame {
    Frame(games.columns, GroupRows(games.rows, SeasonKeys(games.rows)))
  }

  /** Grouping only takes rows that are there. */
  lemma {:induction false} GroupRowsFrom(rows: seq<Row>, keys: seq<Option<string>>)
    ensures forall x :: x in GroupRows(rows, keys) ==> x in rows
    decreases |keys|
  {
    if |keys| > 0 {
      GroupRowsFrom(rows, keys[..|keys| - 1]);
    }
  }

  /** Grouping by distinct seasons takes exactly the rows of those seasons,
      each as often as it occurs. */
  lemma {:induction false} GroupRowsPermutation(rows: seq<Row>, keys: seq<Option<string>>)
    requires Distinct(keys)
    ensures multiset(GroupRows(rows, keys)) == multiset(Filter(rows, InSeasonsOf(keys)))
    decreases |keys|
  {
    if |keys| == 0 {
      FilterNone(rows, InSeasonsOf(keys));
    } else {
      var init := keys[..|keys| - 1];
      var last := keys[|keys| - 1];
      assert Distinct(init) by {
        assert forall i :: 0 <= i < |init| ==> init[i] == keys[i];
      }
      GroupRowsPermutation(rows, init);
      assert last !in init by {
        assert forall i :: 0 <= i < |init| ==> init[i] == keys[i];
      }
      forall x: Row
        ensures InSeasonsOf(keys)(x) == (InSeasonsOf(init)(x) || InSeasonOf(last)(x))
      {
        if InSeasonsOf(keys)(x) {
          var i :| 0 <= i < |keys| && keys[i] == SeasonKey(x);
          if i < |keys| - 1 {
            assert init[i] == keys[i];
          }
        }
      }
      FilterSplit(rows, InSeasonsOf(init), InSeasonOf(last), InSeasonsOf(keys));
    }
  }

  /** The regrouped games are the games with a season id, reordered. */
  lemma RegroupPermutation(games: Frame)
    ensures multiset(Regroup(games).rows) == multiset(Filter(games.rows, HasSeason))
    ensures |Regroup(games).rows| == |Filter(games.rows, HasSeason)|
  {
    var keys := SeasonKeys(games.rows);
    GroupRowsPermutation(games.rows, keys);
    FilterCongruent(games.rows, InSeasonsOf(keys), HasSeason);
    assert |Regroup(games).rows| == |multiset(Regroup(games).rows)|;
  }

  /** When every game has a string season id, regrouping loses no game. */
  lemma RegroupKeepsAll(games: Frame)
    requires StrColumn(games, "SEASON_ID")
    ensures multiset(Regroup(games).rows) == multiset(games.rows)
    ensures |Regroup(games).rows| == |games.rows|
  {
    RegroupPermutation(games);
    FilterAll(games.rows, HasSeason);
  }

  /** Regrouping keeps the columns and every row's cells, so the games stay
      what the enrichment needs. */
  lemma RegroupGameFrame(games: Frame)
    requires GameFrame(games)
    ensures GameFrame(Regroup(games))
  {
    var g := Regroup(games);
    GroupRowsFrom(games.rows, SeasonKeys(games.rows));
    assert forall k :: 0 <= k < |g.rows| ==> g.rows[k] in games.rows;
    RegroupWellFormed(games);
    SubRowsInt(games, g, "PTS");
    SubRowsInt(games, g, "REB");
    SubRowsInt(games, g, "AST");
  }

  lemma RegroupWellFormed(games: Frame)
    requires WellFormed(games)
    ensures WellFormed(Regroup(games))
  {
    var g := Regroup(games);
    GroupRowsFrom(games.rows, SeasonKeys(games.rows));
    assert forall k :: 0 <= k < |g.rows| ==> g.rows[k] in games.rows;
    SubRowsWellFormed(games, g);
  }

  lemma SubRowsWellFormed(f: Frame, g: Frame)
    requires WellFormed(f) && g.columns == f.columns
    requires forall k :: 0 <= k < |g.rows| ==> g.rows[k] in f.rows
    ensures WellFormed(g)
  {
  }

  lemma SubRowsInt(f: Frame, g: Frame, c: string)
    requires IntColumn(f, c) && g.columns == f.columns
    requires forall k :: 0 <= k < |g.rows| ==> g.rows[k] in f.rows
    ensures IntColumn(g, c)
  {
  }

  // ---------------------------------------------------------------------------
  // Grouped enrichment is enrichment of the regrouped games
  // ---------------------------------------------------------------------------

  function EnrichRows(rows: seq<Row>, players: seq<int>, surnames: map<int, string>, box: BoxScores): (out: seq<Row>)
    requires forall k :: 0 <= k < |rows| ==> "GAME_ID" in rows[k]
    requires KnownPlayers(players, surnames) && Distinct(TrackedColumns(players, surnames))
    ensures |out| == |rows|
    ensures forall k :: 0 <= k < |rows| ==> out[k] == EnrichRow(rows[k], players, surnames, box)
  {
    seq(|rows|, k requires 0 <= k < |rows| => EnrichRow(rows[k], players, surnames, box))
  }

  lemma EnrichRowsAppend(a: seq<Row>, b: seq<Row>, players: seq<int>, surnames: map<int, string>, box: BoxScores)
    requires forall k :: 0 <= k < |a| ==> "GAME_ID" in a[k]
    requires forall k :: 0 <= k < |b| ==> "GAME_ID" in b[k]
    requires KnownPlayers(players, surnames) && Distinct(TrackedColumns(players, surnames))
    ensures EnrichRows(a + b, players, surnames, box) == EnrichRows(a, players, surnames, box) + EnrichRows(b, players, surnames, box)
  {
  }

  /** Enrichment maps every row on its own. */
  lemma EnrichAsRows(players: seq<int>, surnames: map<int, string>, box: BoxScores, g: Frame)
    requires EnrichReady(players, surnames, g)
    ensures forall k :: 0 <= k < |g.rows| ==> "GAME_ID" in g.rows[k]
    ensures Enrich(players, surnames, box, g).value
         == Frame(g.columns + TrackedColumns(players, surnames), EnrichRows(g.rows, players, surnames, box))
  {
  }

  lemma EnrichedSeasonsPrefix(players: seq<int>, surnames: map<int, string>, box: BoxScores,
                              games: Frame, keys: seq<Option<string>>)
    requires EnrichReady(players, surnames, games) && |keys| > 0
    ensures EnrichedSeasons(players, surnames, box, games, keys)[..|keys| - 1]
         == EnrichedSeasons(players, surnames, box, games, keys[..|keys| - 1])
  {
  }

  lemma GroupRowsIds(rows: seq<Row>, keys: seq<Option<string>>)
    requires forall k :: 0 <= k < |rows| ==> "GAME_ID" in rows[k]
    ensures forall k :: 0 <= k < |GroupRows(rows, keys)| ==> "GAME_ID" in GroupRows(rows, keys)[k]
  {
    GroupRowsFrom(rows, keys);
    assert forall k :: 0 <= k < |GroupRows(rows, keys)| ==> GroupRows(rows, keys)[k] in rows;
  }

  /** The enriched seasons hold the enriched rows of the seasons, season
      after season. */
  lemma {:induction false} EnrichedSeasonsRows(players: seq<int>, surnames: map<int, string>, box: BoxScores,
                                               games: Frame, keys: seq<Option<string>>)
    requires EnrichReady(players, surnames, games)
    requires forall k :: 0 <= k < |games.rows| ==> "GAME_ID" in games.rows[k]
    ensures forall k :: 0 <= k < |GroupRows(games.rows, keys)| ==> "GAME_ID" in GroupRows(games.rows, keys)[k]
    ensures AllRows(EnrichedSeasons(players, surnames, box, games, keys))
         == EnrichRows(GroupRows(games.rows, keys), players, surnames, box)
    decreases |keys|
  {
    GroupRowsIds(games.rows, keys);
    if |keys| > 0 {
      var init := keys[..|keys| - 1];
      var season := SeasonGames(games, keys[|keys| - 1]);
      EnrichedSeasonsPrefix(players, surnames, box, games, keys);
      EnrichedSeasonsRows(players, surnames, box, games, init);
      EnrichAsRows(players, surnames, box, season);
      EnrichRowsAppend(GroupRows(games.rows, init), season.rows, players, surnames, box);
    }
  }

  lemma EnrichedSeasonsFrames(players: seq<int>, surnames: map<int, string>, box: BoxScores,
                              games: Frame, keys: seq<Option<string>>)
    requires EnrichReady(players, surnames, games)
    ensures forall i :: 0 <= i < |keys| ==>
      var f := EnrichedSeasons(players, surnames, box, games, keys)[i];
      WellFormed(f) && f.columns == games.columns + TrackedColumns(players, surnames)
  {
  }

  /** The concatenated seasons are the grouped rows, each enriched. */
  lemma EnrichedSeasonsConcat(players: seq<int>, surnames: map<int, string>, box: BoxScores,
                              games: Frame, keys: seq<Option<string>>)
    requires EnrichReady(players, surnames, games) && |keys| > 0
    ensures forall k :: 0 <= k < |GroupRows(games.rows, keys)| ==> "GAME_ID" in GroupRows(games.rows, keys)[k]
    ensures ConcatAll(EnrichedSeasons(players, surnames, box, games, keys))
         == Frame(games.columns + TrackedColumns(players, surnames), EnrichRows(GroupRows(games.rows, keys), players, surnames, box))
  {
    EnrichedSeasonsFrames(players, surnames, box, games, keys);
    ConcatAllSameColumns(EnrichedSeasons(players, surnames, box, games, keys), games.columns + TrackedColumns(players, surnames));
    EnrichedSeasonsRows(players, surnames, box, games, keys);
  }

  /** With games and known players, the stacked seasons are the regrouped
      games enriched in one pass. */
  lemma AppendBySeasonEnriched(players: seq<int>, surnames: map<int, string>, box: BoxScores, games: Frame)
    requires EnrichReady(players, surnames, games) && |games.rows| > 0
    ensures WellFormed(Regroup(games))
    ensures AppendBySeason(players, surnames, box, games) == Enrich(players, surnames, box, Regroup(games))
  {
    RegroupWellFormed(games);
    EnrichedSeasonsConcat(players, surnames, box, games, SeasonKeys(games.rows));
    EnrichAsRows(players, surnames, box, Regroup(games));
  }

  /** `append_players_stats` gives what enriching the regrouped games in one
      pass gives; with no game it fails to concatenate. */
  lemma AppendBySeasonRegroups(players: seq<int>, surnames: map<int, string>, box: BoxScores, games: Frame)
    requires GameFrame(games) && RosterNames(players, surnames)
    ensures GameFrame(Regroup(games))
    ensures FreshTracked(players, surnames, games.columns)
    ensures AppendBySeason(players, surnames, box, games)
         == if |games.rows| == 0 then Failure(NothingToConcatenate) else Enrich(players, surnames, box, Regroup(games))
  {
    RegroupGameFrame(games);
    GamesFresh(players, surnames, games);
    if |games.rows| > 0 && KnownPlayers(players, surnames) {
      AppendBySeasonEnriched(players, surnames, box, games);
    }
  }

  /** The enriched games are the games with a season id, each enriched once. */
  lemma AppendBySeasonRows(players: seq<int>, surnames: map<int, string>, box: BoxScores, games: Frame)
    requires EnrichReady(players, surnames, games) && |games.rows| > 0
    ensures var r := AppendBySeason(players, surnames, box, games).value;
            && r.columns == games.columns + TrackedColumns(players, surnames)
            && |r.rows| == |Filter(games.rows, HasSeason)|
  {
    AppendBySeasonEnriched(players, surnames, box, games);
    RegroupPermutation(games);
  }

  // ---------------------------------------------------------------------------
  // The pipeline of pull_data
  // ---------------------------------------------------------------------------

  /** The preparation `pull_data` applies to the pulled games: grouped
      enrichment, residuals, integer cast and projection. */
  function PrepareSeasons(players: seq<int>, surnames: map<int, string>, box: BoxScores, games: Frame): (r: Result<Frame>)
    requires GameFrame(games) && RosterNames(players, surnames)
    ensures r.Failure? <==> |games.rows| == 0 || !KnownPlayers(players, surnames)
    ensures r.Success? ==> WellFormed(r.value) && r.value.columns == StoredColumns(players, surnames)
  {
    AppendBySeasonRegroups(players, surnames, box, games);
    var enriched := AppendBySeason(players, surnames, box, games);
    if enriched.Failure? then Failure(enriched.error)
    else
      EnrichedReady(players, surnames, box, Regroup(games));
      ResidualsReadyForFinal(enriched.value);
      var t := TeammatesStats(enriched.value);
      Success(FinalPreparation(StatsToInt(t).value))
  }

  /** Preparing season by season is preparing the regrouped games in one
      pass. */
  lemma PrepareSeasonsRegroups(players: seq<int>, surnames: map<int, string>, box: BoxScores, games: Frame)
    requires GameFrame(games) && RosterNames(players, surnames)
    ensures GameFrame(Regroup(games))
    ensures PrepareSeasons(players, surnames, box, games)
         == if |games.rows| == 0 then Failure(NothingToConcatenate) else Prepare(players, surnames, box, Regroup(games))
  {
    AppendBySeasonRegroups(players, surnames, box, games);
  }

  /** One prepared row per game with a season id. */
  lemma PrepareSeasonsRows(players: seq<int>, surnames: map<int, string>, box: BoxScores, games: Frame)
    requires GameFrame(games) && RosterNames(players, surnames)
    requires |games.rows| > 0 && KnownPlayers(players, surnames)
    ensures |PrepareSeasons(players, surnames, box, games).value.rows| == |Filter(games.rows, HasSeason)|
  {
    PrepareSeasonsRegroups(players, surnames, box, games);
    RegroupPermutation(games);
  }
}

=== FILE: outcomes.dfy ===
/** The exceptions the modelled code raises, and a failure-compatible
    result type carrying them. */
module Outcomes {

  datatype Error =
    | FormatError          // ValueError: not a `%Y-%m-%d` date, or no such day
    | OverflowError        // the next day would lie beyond year 9999
    | EmptyStore           // the store has no row 0 to read a date from
    | UnknownPlayer(id: int)  // the players table has no row for this id
    | NothingToConcatenate // `pd.concat` was handed an empty list
    | IntCastError         // `astype(int)` met a missing value or a string
    | CursorSplitError     // the cursor has fewer than three `-`-separated parts
    | UnboundStoreData     // `feature_store_data` read before assignment

  datatype Result<+T> = Success(value: T) | Failure(error: Error) {

    predicate IsFailure() {
      Failure?
    }

    function PropagateFailure<U>(): Result<U>
      requires Failure?
    {
      Failure(error)
    }

    function Extract(): T
      requires Success?
    {
      value
    }
  }
}

=== FILE: pipeline.dfy ===
/** The feature-table pipeline of src/data.py and src/fetch_data.py: box
    score enrichment with the tracked players' columns, the "rest of team"
    residuals, the integer cast and the projection onto the stored schema.
    Tracked-player columns are found, as in the source, by substring
    containment of `_PTS`, `_REB`, `_AST` and `_STARTER` in the column
    name, not from the roster. */
module Pipeline {
  import opened Strings
  import opened Outcomes
  import opened Frames

  // ---------------------------------------------------------------------------
  // Column names
  // ---------------------------------------------------------------------------

  /** The columns every tracked-stat comprehension of the source selects. */
  predicate IsStatColumn(c: string) {
    Contains(c, "_PTS") || Contains(c, "_REB") || Contains(c, "_AST") || Contains(c, "_STARTER")
  }

  function StatColumns(cols: seq<string>): seq<string> {
    Filter(cols, IsStatColumn)
  }

  /** `[col for col in cols if t in col]`. */
  function ColumnsContaining(cols: seq<string>, t: string): seq<string> {
    Filter(cols, c => Contains(c, t))
  }

  function RestColumn(stat: string): string {
    "REST_" + stat
  }

  const RestColumns: seq<string> := [RestColumn("PTS"), RestColumn("REB"), RestColumn("AST")]

  /** The columns `final_preparation` appends after the stat columns. */
  const FinalKeys: seq<string> := ["GAME_ID", "GAME_DATE", "SEASON_ID", "PLAYOFFS", "WIN"]

  /** Their lower-cased names in the stored schema. */
  const StoreKeys: seq<string> := ["game_id", "game_date", "season_id", "playoffs", "win"]

  lemma LowerLiteral(s: string, l: string)
    requires |s| == |l|
    requires forall i :: 0 <= i < |s| ==> LowerChar(s[i]) == l[i]
    ensures Lower(s) == l
  {
  }

  lemma StoreKeysAreLowered()
    ensures LowerAll(FinalKeys) == StoreKeys
    ensures LowerAll(RestColumns) == ["rest_pts", "rest_reb", "rest_ast"]
  {
    LowerLiteral("GAME_ID", "game_id");
    LowerLiteral("GAME_DATE", "game_date");
    LowerLiteral("SEASON_ID", "season_id");
    LowerLiteral("PLAYOFFS", "playoffs");
    LowerLiteral("WIN", "win");
    LowerLiteral(RestColumn("PTS"), "rest_pts");
    LowerLiteral(RestColumn("REB"), "rest_reb");
    LowerLiteral(RestColumn("AST"), "rest_ast");
  }

  /** `REST_X` contains `_X`. */
  lemma RestMatchesOwn(stat: string)
    ensures Contains(RestColumn(stat), "_" + stat)
  {
    assert RestColumn(stat) == "REST" + ("_" + stat);
    ContainsSuffix("REST", "_" + stat);
  }

  /** `REST_X` does not contain `_Y` for another three-letter stat `Y`. */
  lemma RestMissesOther(stat: string, other: string)
    requires |stat| == 3 && |other| == 3 && stat != other
    requires '_' !in stat
    ensures !Contains(RestColumn(stat), "_" + other)
  {
    var s := RestColumn(stat);
    assert forall i :: 0 <= i < |s| && s[i] == '_' ==> i == 4;
    assert s[4..8] == "_" + stat;
    assert ("_" + stat)[1..] == stat && ("_" + other)[1..] == other;
    assert ("_" + other)[0] == '_';
    NotContainsAt(s, "_" + other, 4);
  }

  /** The three residual columns each match exactly their own stat. */
  lemma RestNames()
    ensures Contains(RestColumn("PTS"), "_" + "PTS") && !Contains(RestColumn("PTS"), "_" + "REB") && !Contains(RestColumn("PTS"), "_" + "AST")
    ensures Contains(RestColumn("REB"), "_" + "REB") && !Contains(RestColumn("REB"), "_" + "PTS") && !Contains(RestColumn("REB"), "_" + "AST")
    ensures Contains(RestColumn("AST"), "_" + "AST") && !Contains(RestColumn("AST"), "_" + "PTS") && !Contains(RestColumn("AST"), "_" + "REB")
    ensures forall c :: c in RestColumns ==> IsStatColumn(c)
  {
    assert '_' !in "PTS" && '_' !in "REB" && '_' !in "AST";
    RestMatchesOwn("PTS");
    RestMatchesOwn("REB");
    RestMatchesOwn("AST");
    RestMissesOther("PTS", "REB");
    RestMissesOther("PTS", "AST");
    RestMissesOther("REB", "PTS");
    RestMissesOther("REB", "AST");
    RestMissesOther("AST", "PTS");
    RestMissesOther("AST", "REB");
    assert "_" + "PTS" == "_PTS" && "_" + "REB" == "_REB" && "_" + "AST" == "_AST";
  }

  /** The three residual columns are different names. */
  lemma RestColumnsDistinct()
    ensures RestColumn("PTS") != RestColumn("REB") && RestColumn("PTS") != RestColumn("AST")
    ensures RestColumn("REB") != RestColumn("AST")
    ensures Distinct(RestColumns)
  {
    assert RestColumn("PTS")[5] == 'P' && RestColumn("REB")[5] == 'R' && RestColumn("AST")[5] == 'A';
  }

  /** A name without an underscore is never a tracked-stat column. */
  lemma NoUnderscoreNotStat(c: string)
    requires forall i :: 0 <= i < |c| ==> c[i] != '_'
    ensures !IsStatColumn(c)
  {
    NotContainsChar(c, "_PTS");
    NotContainsChar(c, "_REB");
    NotContainsChar(c, "_AST");
    NotContainsChar(c, "_STARTER");
  }

  /** The team totals and `WIN` are not tracked-stat columns. */
  lemma TotalsNotStats()
    ensures !IsStatColumn("PTS") && !IsStatColumn("REB") && !IsStatColumn("AST") && !IsStatColumn("WIN")
  {
    NoUnderscoreNotStat("PTS");
    NoUnderscoreNotStat("REB");
    NoUnderscoreNotStat("AST");
    NoUnderscoreNotStat("WIN");
  }

  lemma StatColumnsAppendNonStat(cols: seq<string>, c: string)
    requires !IsStatColumn(c)
    ensures StatColumns(cols + [c]) == StatColumns(cols)
  {
    FilterAppend(cols, [c], IsStatColumn);
  }

  lemma LowerDistinct(cols: seq<string>)
    requires Distinct(LowerAll(cols))
    ensures Distinct(cols)
  {
  }

  // ---------------------------------------------------------------------------
  // Box-score enrichment (append_players_stats)
  // ---------------------------------------------------------------------------

  /** A cell that can hold a count: a number or a missing value. */
  type Number = v: Value | IsNumber(v) witness Null

  /** One row of a game's box score, as far as the enrichment reads it. */
  datatype BoxLine = BoxLine(playerId: int, pts: Number, reb: Number, ast: Number, startPosition: Value)

  /** The box score of the game with the given `GAME_ID`. */
  type BoxScores = Value -> seq<BoxLine>

  /** The player does not appear in the box score. */
  predicate Absent(box: seq<BoxLine>, id: int) {
    forall j :: 0 <= j < |box| ==> box[j].playerId != id
  }

  /** The player's four appended values for one game: points, rebounds,
      assists and the starter flag from the first box-score row with his
      id, or four zeros when he is not in the box score. */
  function PlayerStats(box: seq<BoxLine>, id: int): (v: seq<Value>)
    ensures |v| == 4 && (forall j :: 0 <= j < 4 ==> IsNumber(v[j]))
    ensures Absent(box, id) ==> v == [Int(0), Int(0), Int(0), Int(0)]
    ensures forall j :: 0 <= j < |box| && box[j].playerId == id && (forall i :: 0 <= i < j ==> box[i].playerId != id) ==>
      v == [box[j].pts, box[j].reb, box[j].ast, Int(if box[j].startPosition != Str("") then 1 else 0)]
    ensures v[3] == Int(0) || v[3] == Int(1)
    decreases |box|
  {
    if |box| == 0 then [Int(0), Int(0), Int(0), Int(0)]
    else if box[0].playerId == id then
      [box[0].pts, box[0].reb, box[0].ast, Int(if box[0].startPosition != Str("") then 1 else 0)]
    else
      var v := PlayerStats(box[1..], id);
      assert forall j :: 1 <= j < |box| ==> box[j] == box[1..][j - 1];
      v
  }

  /** The suffixes of a tracked player's four columns. */
  const Suffixes: seq<string> := ["_PTS", "_REB", "_AST", "_STARTER"]

  /** `[SURNAME_PTS, SURNAME_REB, SURNAME_AST, SURNAME_STARTER]` with the
      surname upper-cased. */
  function PlayerColumns(surname: string): (cols: seq<string>)
    ensures |cols| == 4
  {
    var u := Upper(surname);
    [u + Suffixes[0], u + Suffixes[1], u + Suffixes[2], u + Suffixes[3]]
  }

  predicate KnownPlayers(players: seq<int>, surnames: map<int, string>) {
    forall i :: 0 <= i < |players| ==> players[i] in surnames
  }

  /** The appended columns: four per tracked player, in roster order. */
  function TrackedColumns(players: seq<int>, surnames: map<int, string>): (cols: seq<string>)
    requires KnownPlayers(players, surnames)
    ensures |cols| == 4 * |players|
    decreases |players|
  {
    if |players| == 0 then []
    else PlayerColumns(surnames[players[0]]) + TrackedColumns(players[1..], surnames)
  }

  /** The appended values for one game, aligned with `TrackedColumns`. */
  function TrackedValues(players: seq<int>, box: seq<BoxLine>): (vals: seq<Value>)
    ensures |vals| == 4 * |players|
    decreases |players|
  {
    if |players| == 0 then []
    else PlayerStats(box, players[0]) + TrackedValues(players[1..], box)
  }

  /** Player `i`'s columns sit at positions `4 * i` to `4 * i + 3`. */
  lemma {:induction false} TrackedColumnsAt(players: seq<int>, surnames: map<int, string>, i: nat, j: nat)
    requires KnownPlayers(players, surnames) && i < |players| && j < 4
    ensures TrackedColumns(players, surnames)[4 * i + j] == PlayerColumns(surnames[players[i]])[j]
    decreases i
  {
    if i > 0 {
      TrackedColumnsAt(players[1..], surnames, i - 1, j);
    }
  }

  /** Player `i`'s values sit at positions `4 * i` to `4 * i + 3`. */
  lemma {:induction false} TrackedValuesAt(players: seq<int>, box: seq<BoxLine>, i: nat, j: nat)
    requires i < |players| && j < 4
    ensures TrackedValues(players, box)[4 * i + j] == PlayerStats(box, players[i])[j]
    decreases i
  {
    if i > 0 {
      TrackedValuesAt(players[1..], box, i - 1, j);
    }
  }

  /** Every appended value is a count. */
  lemma {:induction false} TrackedValuesAreNumbers(players: seq<int>, box: seq<BoxLine>)
    ensures forall n :: 0 <= n < |TrackedValues(players, box)| ==> IsNumber(TrackedValues(players, box)[n])
    decreases |players|
  {
    if |players| > 0 {
      TrackedValuesAreNumbers(players[1..], box);
    }
  }

  /** Every appended column is one a stat comprehension selects. */
  lemma {:induction false} TrackedColumnsAreStats(players: seq<int>, surnames: map<int, string>)
    requires KnownPlayers(players, surnames)
    ensures forall c :: c in TrackedColumns(players, surnames) ==> IsStatColumn(c)
    decreases |players|
  {
    if |players| > 0 {
      TrackedColumnsAreStats(players[1..], surnames);
      var u := Upper(surnames[players[0]]);
      ContainsSuffix(u, "_PTS");
      ContainsSuffix(u, "_REB");
      ContainsSuffix(u, "_AST");
      ContainsSuffix(u, "_STARTER");
    }
  }

  /** The first roster id the players table lacks. */
  function FirstUnknown(players: seq<int>, surnames: map<int, string>): (p: int)
    requires !KnownPlayers(players, surnames)
    ensures p in players && p !in surnames
    decreases |players|
  {
    if players[0] !in surnames then players[0]
    else
      assert !KnownPlayers(players[1..], surnames) by {
        var i :| 0 <= i < |players| && players[i] !in surnames;
        assert players[1..][i - 1] == players[i];
      }
      FirstUnknown(players[1..], surnames)
  }

  /** The appended columns do not clash with the game columns or each
      other (pandas would create duplicate columns otherwise). */
  predicate FreshTracked(players: seq<int>, surnames: map<int, string>, cols: seq<string>) {
    KnownPlayers(players, surnames) ==>
      && Distinct(TrackedColumns(players, surnames))
      && forall c :: c in TrackedColumns(players, surnames) ==> c !in cols
  }

  function EnrichRow(r: Row, players: seq<int>, surnames: map<int, string>, box: BoxScores): Row
    requires "GAME_ID" in r && KnownPlayers(players, surnames)
    requires Distinct(TrackedColumns(players, surnames))
  {
    r + Zip(TrackedColumns(players, surnames), TrackedValues(players, box(r["GAME_ID"])))
  }

  /** `append_players_stats(players_list, team_games)`: every game row
      gains the tracked players' four columns, filled from that game's box
      score. */
  function Enrich(players: seq<int>, surnames: map<int, string>, box: BoxScores, games: Frame): (r: Result<Frame>)
    requires WellFormed(games) && "GAME_ID" in games.columns
    requires FreshTracked(players, surnames, games.columns)
    ensures r.Success? <==> KnownPlayers(players, surnames)
    ensures r.Failure? ==> r.error == UnknownPlayer(FirstUnknown(players, surnames))
    ensures r.Success? ==> && WellFormed(r.value)
                           && r.value.columns == games.columns + TrackedColumns(players, surnames)
                           && |r.value.rows| == |games.rows|
    ensures r.Success? ==> forall k :: 0 <= k < |games.rows| ==>
      r.value.rows[k] == EnrichRow(games.rows[k], players, surnames, box)
  {
    if !KnownPlayers(players, surnames) then Failure(UnknownPlayer(FirstUnknown(players, surnames)))
    else
      var tracked := TrackedColumns(players, surnames);
      DistinctConcat(games.columns, tracked);
      var out := Frame(games.columns + tracked,
        seq(|games.rows|, k requires 0 <= k < |games.rows| => EnrichRow(games.rows[k], players, surnames, box)));
      assert WellFormed(out) by {
        forall k | 0 <= k < |out.rows|
          ensures RowFits(out.rows[k], out.columns)
        {
          assert RowFits(games.rows[k], games.columns);
        }
      }
      Success(out)
  }

  /** What `append_players_stats` needs of its input, once every roster
      id is known. */
  predicate EnrichReady(players: seq<int>, surnames: map<int, string>, games: Frame) {
    && WellFormed(games) && "GAME_ID" in games.columns
    && KnownPlayers(players, surnames) && FreshTracked(players, surnames, games.columns)
  }

  /** Enrichment keeps every cell of the game row. */
  lemma EnrichKeeps(players: seq<int>, surnames: map<int, string>, box: BoxScores, games: Frame, k: nat)
    requires EnrichReady(players, surnames, games) && k < |games.rows|
    ensures var out := Enrich(players, surnames, box, games).value;
            forall c :: c in games.rows[k] ==> c in out.rows[k] && out.rows[k][c] == games.rows[k][c]
  {
    var tracked := TrackedColumns(players, surnames);
    var vals := TrackedValues(players, box(games.rows[k]["GAME_ID"]));
    assert Enrich(players, surnames, box, games).value.rows[k] == games.rows[k] + Zip(tracked, vals);
    assert RowFits(games.rows[k], games.columns);
  }

  /** The `n`-th appended column holds the `n`-th appended value. */
  lemma EnrichTracked(players: seq<int>, surnames: map<int, string>, box: BoxScores, games: Frame, k: nat, n: nat)
    requires EnrichReady(players, surnames, games) && k < |games.rows| && n < 4 * |players|
    ensures var out := Enrich(players, surnames, box, games).value;
            var col := TrackedColumns(players, surnames)[n];
            && col in out.rows[k]
            && out.rows[k][col] == TrackedValues(players, box(games.rows[k]["GAME_ID"]))[n]
  {
    var tracked := TrackedColumns(players, surnames);
    var vals := TrackedValues(players, box(games.rows[k]["GAME_ID"]));
    var z := Zip(tracked, vals);
    assert Enrich(players, surnames, box, games).value.rows[k] == games.rows[k] + z;
    assert z[tracked[n]] == vals[n];
  }

  /** Enrichment puts player `i`'s box-score values under his four
      columns: zeros when he is not in the game's box score, otherwise the
      first matching box-score row, with starter = 1 exactly when
      `START_POSITION` is not empty. */
  lemma EnrichCell(players: seq<int>, surnames: map<int, string>, box: BoxScores, games: Frame, k: nat, i: nat, j: nat)
    requires EnrichReady(players, surnames, games) && k < |games.rows| && i < |players| && j < 4
    ensures var out := Enrich(players, surnames, box, games).value;
            var lines := box(games.rows[k]["GAME_ID"]);
            var col := PlayerColumns(surnames[players[i]])[j];
            && col in out.rows[k]
            && out.rows[k][col] == PlayerStats(lines, players[i])[j]
  {
    TrackedColumnsAt(players, surnames, i, j);
    TrackedValuesAt(players, box(games.rows[k]["GAME_ID"]), i, j);
    EnrichTracked(players, surnames, box, games, k, 4 * i + j);
  }

  /** A tracked player who did not play gets zeros in all four columns. */
  lemma EnrichAbsent(players: seq<int>, surnames: map<int, string>, box: BoxScores, games: Frame, k: nat, i: nat, j: nat)
    requires EnrichReady(players, surnames, games) && k < |games.rows| && i < |players| && j < 4
    requires Absent(box(games.rows[k]["GAME_ID"]), players[i])
    ensures var col := PlayerColumns(surnames[players[i]])[j];
            var row := Enrich(players, surnames, box, games).value.rows[k];
            col in row && row[col] == Int(0)
  {
    EnrichCell(players, surnames, box, games, k, i, j);
  }

  /** Enrichment adds exactly four columns per tracked player, after the
      game columns and in roster order, and keeps the number of rows. */
  lemma EnrichShape(players: seq<int>, surnames: map<int, string>, box: BoxScores, games: Frame)
    requires EnrichReady(players, surnames, games)
    ensures var out := Enrich(players, surnames, box, games).value;
            && |out.columns| == |games.columns| + 4 * |players|
            && out.columns[..|games.columns|] == games.columns
            && |out.rows| == |games.rows|
            && forall i, j :: 0 <= i < |players| && 0 <= j < 4 ==>
                 out.columns[|games.columns| + 4 * i + j] == Upper(surnames[players[i]]) + Suffixes[j]
  {
    var out := Enrich(players, surnames, box, games).value;
    forall i, j | 0 <= i < |players| && 0 <= j < 4
      ensures out.columns[|games.columns| + 4 * i + j] == Upper(surnames[players[i]]) + Suffixes[j]
    {
      TrackedColumnsAt(players, surnames, i, j);
    }
  }

  // ---------------------------------------------------------------------------
  // Residuals (teammates_stats)
  // ---------------------------------------------------------------------------

  /** `sum(axis=1)` over the listed cells; a missing value counts 0. */
  function SumColumns(r: Row, cols: seq<string>): int
    requires forall c :: c in cols ==> c in r
    decreases |cols|
  {
    if |cols| == 0 then 0 else IntOf(r[cols[0]]) + SumColumns(r, cols[1..])
  }

  lemma {:induction false} SumColumnsAgree(r: Row, s: Row, cols: seq<string>)
    requires forall c :: c in cols ==> c in r && c in s && IntOf(r[c]) == IntOf(s[c])
    ensures SumColumns(r, cols) == SumColumns(s, cols)
    decreases |cols|
  {
    if |cols| > 0 {
      SumColumnsAgree(r, s, cols[1..]);
    }
  }

  /** No missing value or string is left in a stat column. */
  predicate StatCellsAreInts(f: Frame) {
    forall k, c :: 0 <= k < |f.rows| && c in f.columns && IsStatColumn(c) && c in f.rows[k]
      ==> f.rows[k][c].Int?
  }

  /** `fillna(0)` applied to one cell: missing stat values become 0. */
  function FillCell(c: string, v: Value): Value {
    if IsStatColumn(c) && v.Null? then Int(0) else v
  }

  function FillStatNulls(f: Frame): (r: Frame)
    ensures r.columns == f.columns && |r.rows| == |f.rows|
    ensures WellFormed(f) ==> WellFormed(r)
    ensures forall k :: 0 <= k < |f.rows| ==> r.rows[k].Keys == f.rows[k].Keys
    ensures forall k, c :: 0 <= k < |f.rows| && c in f.rows[k] ==> r.rows[k][c] == FillCell(c, f.rows[k][c])
    ensures (forall k, c :: 0 <= k < |f.rows| && c in f.rows[k] && IsStatColumn(c) ==> IsNumber(f.rows[k][c]))
      ==> StatCellsAreInts(r)
  {
    Frame(f.columns, seq(|f.rows|, k requires 0 <= k < |f.rows| =>
      map c | c in f.rows[k] :: FillCell(c, f.rows[k][c])))
  }

  /** `f["REST_X"] = f["X"] - f[cols containing "_X"].sum(axis=1)`. */
  function AddRest(f: Frame, stat: string): (r: Frame)
    requires WellFormed(f) && stat in f.columns
    ensures WellFormed(r) && |r.rows| == |f.rows|
    ensures r.columns == if RestColumn(stat) in f.columns then f.columns else f.columns + [RestColumn(stat)]
    ensures forall k :: 0 <= k < |f.rows| ==>
      && (forall c :: c in ColumnsContaining(f.columns, "_" + stat) ==> c in f.rows[k])
      && r.rows[k] == f.rows[k][RestColumn(stat) :=
           Int(IntOf(f.rows[k][stat]) - SumColumns(f.rows[k], ColumnsContaining(f.columns, "_" + stat)))]
  {
    var cols := ColumnsContaining(f.columns, "_" + stat);
    assert forall k, c :: 0 <= k < |f.rows| && c in cols ==> c in f.rows[k];
    SetColumn(f, RestColumn(stat), seq(|f.rows|, k requires 0 <= k < |f.rows| =>
      Int(IntOf(f.rows[k][stat]) - SumColumns(f.rows[k], cols))))
  }

  /** What `teammates_stats` needs: the team totals as integers and no
      string in a stat column. */
  predicate ResidualReady(f: Frame) {
    && WellFormed(f)
    && IntColumn(f, "PTS") && IntColumn(f, "REB") && IntColumn(f, "AST")
    && forall k, c :: 0 <= k < |f.rows| && c in f.rows[k] && IsStatColumn(c) ==> IsNumber(f.rows[k][c])
  }

  /** `teammates_stats(team_games)`: fill missing stat values with 0, then
      add `REST_PTS`, `REST_REB` and `REST_AST`, each the team total minus
      the sum of the columns whose name contains `_PTS`, `_REB` or `_AST`
      at that point. */
  function TeammatesStats(f: Frame): (r: Frame)
    requires ResidualReady(f)
    ensures WellFormed(r) && |r.rows| == |f.rows|
    ensures |r.columns| >= |f.columns| && r.columns[..|f.columns|] == f.columns
  {
    TotalsNotStats();
    var filled := FillStatNulls(f);
    var p := AddRest(filled, "PTS");
    AddRestKeeps(filled, "PTS");
    var b := AddRest(p, "REB");
    AddRestKeeps(p, "REB");
    AddRest(b, "AST")
  }

  /** The residuals add exactly the three `REST_` columns. */
  lemma TeammatesStatsColumns(f: Frame)
    requires ResidualReady(f)
    ensures forall c :: c in TeammatesStats(f).columns <==> c in f.columns || c in RestColumns
  {
    TotalsNotStats();
    var filled := FillStatNulls(f);
    var p := AddRest(filled, "PTS");
    var b := AddRest(p, "REB");
    AddRestColumns(filled, "PTS");
    AddRestColumns(p, "REB");
    AddRestColumns(b, "AST");
  }

  /** Assigning `REST_X` leaves every other cell as it was. */
  lemma AddRestKeeps(f: Frame, stat: string)
    requires WellFormed(f) && stat in f.columns
    ensures forall k, c :: 0 <= k < |f.rows| && c in f.rows[k] && c != RestColumn(stat) ==>
      c in AddRest(f, stat).rows[k] && AddRest(f, stat).rows[k][c] == f.rows[k][c]
  {
  }

  /** Assigning `REST_X` keeps the stat cells integers. */
  lemma AddRestInts(f: Frame, stat: string)
    requires WellFormed(f) && stat in f.columns && StatCellsAreInts(f)
    ensures StatCellsAreInts(AddRest(f, stat))
  {
  }

  lemma AddRestColumns(f: Frame, stat: string)
    requires WellFormed(f) && stat in f.columns
    ensures forall c :: c in AddRest(f, stat).columns <==> c in f.columns || c == RestColumn(stat)
  {
  }

  /** After the residuals no stat cell is missing or a string. */
  lemma TeammatesStatsInts(f: Frame)
    requires ResidualReady(f)
    ensures StatCellsAreInts(TeammatesStats(f))
  {
    TotalsNotStats();
    var filled := FillStatNulls(f);
    var p := AddRest(filled, "PTS");
    AddRestKeeps(filled, "PTS");
    AddRestInts(filled, "PTS");
    var b := AddRest(p, "REB");
    AddRestKeeps(p, "REB");
    AddRestInts(p, "REB");
    AddRestInts(b, "AST");
  }

  /** The residuals leave every other cell as `fillna(0)` made it. */
  lemma TeammatesStatsKeeps(f: Frame, k: nat, c: string)
    requires ResidualReady(f) && k < |f.rows| && c in f.columns && c !in RestColumns
    ensures c in f.rows[k] && c in TeammatesStats(f).rows[k]
    ensures TeammatesStats(f).rows[k][c] == FillCell(c, f.rows[k][c])
  {
    assert RowFits(f.rows[k], f.columns);
    assert c != RestColumn("PTS") && c != RestColumn("REB") && c != RestColumn("AST");
    TotalsNotStats();
    var filled := FillStatNulls(f);
    var p := AddRest(filled, "PTS");
    AddRestKeeps(filled, "PTS");
    var b := AddRest(p, "REB");
    AddRestKeeps(p, "REB");
    AddRestKeeps(b, "AST");
  }

  /** One row's residual: `REST_X` plus the listed cells gives `total`. */
  predicate RowResidual(row: Row, stat: string, cols: seq<string>, total: int) {
    && RestColumn(stat) in row && row[RestColumn(stat)].Int?
    && (forall c :: c in cols ==> c in row)
    && row[RestColumn(stat)].n + SumColumns(row, cols) == total
  }

  /** `REST_X` plus the original columns containing `_X` gives the team
      total `X`, in every row. */
  predicate ResidualHolds(f: Frame, r: Frame, stat: string)
    requires |r.rows| == |f.rows|
  {
    forall k :: 0 <= k < |f.rows| ==>
      && stat in f.rows[k] && f.rows[k][stat].Int?
      && RowResidual(r.rows[k], stat, ColumnsContaining(f.columns, "_" + stat), f.rows[k][stat].n)
  }

  lemma SumColumnsAfterUpdate(r: Row, cols: seq<string>, name: string, v: Value)
    requires forall c :: c in cols ==> c in r
    requires name !in cols
    ensures SumColumns(r[name := v], cols) == SumColumns(r, cols)
  {
    SumColumnsAgree(r[name := v], r, cols);
  }

  /** Writing another column keeps a row's residual. */
  lemma RowResidualUpdate(row: Row, stat: string, cols: seq<string>, total: int, name: string, v: Value)
    requires RowResidual(row, stat, cols, total)
    requires name != RestColumn(stat) && name !in cols
    ensures RowResidual(row[name := v], stat, cols, total)
  {
    SumColumnsAfterUpdate(row, cols, name, v);
  }

  /** One `REST_X` assignment establishes its residual. */
  lemma AddRestResidual(f: Frame, stat: string, k: nat)
    requires WellFormed(f) && stat in f.columns && k < |f.rows|
    requires RestColumn(stat) !in ColumnsContaining(f.columns, "_" + stat)
    ensures RowResidual(AddRest(f, stat).rows[k], stat, ColumnsContaining(f.columns, "_" + stat), IntOf(f.rows[k][stat]))
  {
    var cols := ColumnsContaining(f.columns, "_" + stat);
    SumColumnsAfterUpdate(f.rows[k], cols, RestColumn(stat), AddRest(f, stat).rows[k][RestColumn(stat)]);
  }

  /** Appending `REST_X` adds it to the columns containing `_X`. */
  lemma ColumnsContainingOwnRest(cols: seq<string>, stat: string)
    ensures ColumnsContaining(cols + [RestColumn(stat)], "_" + stat) ==
      ColumnsContaining(cols, "_" + stat) + [RestColumn(stat)]
  {
    FilterAppend(cols, [RestColumn(stat)], c => Contains(c, "_" + stat));
    RestMatchesOwn(stat);
  }

  /** Appending `REST_X` leaves the columns containing `_Y` alone. */
  lemma ColumnsContainingOtherRest(cols: seq<string>, stat: string, other: string)
    requires |stat| == 3 && |other| == 3 && '_' !in stat && stat != other
    ensures ColumnsContaining(cols + [RestColumn(stat)], "_" + other) == ColumnsContaining(cols, "_" + other)
  {
    FilterAppend(cols, [RestColumn(stat)], c => Contains(c, "_" + other));
    RestMissesOther(stat, other);
  }

  /** The three team totals are different three-letter names without an
      underscore. */
  lemma StatNames()
    ensures "PTS" != "REB" && "PTS" != "AST" && "REB" != "AST"
    ensures '_' !in "PTS" && '_' !in "REB" && '_' !in "AST"
  {
    assert "PTS"[0] == 'P' && "REB"[0] == 'R' && "AST"[0] == 'A';
  }

  /** The columns `teammates_stats` reads for each residual are the input
      columns containing `_X`: the residuals added before do not match. */
  lemma ResidualStages(g: Frame)
    requires WellFormed(g) && "PTS" in g.columns && "REB" in g.columns && "AST" in g.columns
    requires forall c :: c in RestColumns ==> c !in g.columns
    ensures var p := AddRest(g, "PTS");
            var b := AddRest(p, "REB");
            && p.columns == g.columns + [RestColumn("PTS")]
            && b.columns == p.columns + [RestColumn("REB")]
            && AddRest(b, "AST").columns == b.columns + [RestColumn("AST")]
  {
    RestColumnsDistinct();
    assert RestColumn("PTS") in RestColumns && RestColumn("REB") in RestColumns && RestColumn("AST") in RestColumns;
  }

  /** A `REST_` column added earlier does not match a later statistic. */
  lemma ResidualStagesMatch(g: Frame)
    requires WellFormed(g) && "PTS" in g.columns && "REB" in g.columns && "AST" in g.columns
    requires forall c :: c in RestColumns ==> c !in g.columns
    ensures var p := AddRest(g, "PTS");
            var b := AddRest(p, "REB");
            && ColumnsContaining(p.columns, "_" + "REB") == ColumnsContaining(g.columns, "_" + "REB")
            && ColumnsContaining(b.columns, "_" + "AST") == ColumnsContaining(g.columns, "_" + "AST")
  {
    ResidualStages(g);
    StatNames();
    ColumnsContainingOtherRest(g.columns, "PTS", "REB");
    ColumnsContainingOtherRest(g.columns, "PTS", "AST");
    ColumnsContainingOtherRest(g.columns + [RestColumn("PTS")], "REB", "AST");
  }

  /** The residuals are the three `REST_` columns appended in order. */
  lemma TeammatesStatsAppends(f: Frame)
    requires ResidualReady(f)
    requires forall c :: c in RestColumns ==> c !in f.columns
    ensures TeammatesStats(f).columns == f.columns + RestColumns
  {
    ResidualStages(FillStatNulls(f));
    assert RestColumns == [RestColumn("PTS")] + [RestColumn("REB")] + [RestColumn("AST")];
  }

  /** The residual invariant for points. */
  lemma ResidualPoints(f: Frame)
    requires ResidualReady(f)
    requires forall c :: c in RestColumns ==> c !in f.columns
    ensures ResidualHolds(f, TeammatesStats(f), "PTS")
  {
    TotalsNotStats();
    var filled := FillStatNulls(f);
    var p := AddRest(filled, "PTS");
    var b := AddRest(p, "REB");
    var a := AddRest(b, "AST");
    var cols := ColumnsContaining(f.columns, "_" + "PTS");
    assert RestColumn("REB") !in cols && RestColumn("AST") !in cols by {
      assert RestColumn("REB") in RestColumns && RestColumn("AST") in RestColumns;
    }
    RestColumnsDistinct();
    forall k | 0 <= k < |f.rows|
      ensures "PTS" in f.rows[k] && f.rows[k]["PTS"].Int?
      ensures RowResidual(a.rows[k], "PTS", cols, f.rows[k]["PTS"].n)
    {
      AddRestResidual(filled, "PTS", k);
      RowResidualUpdate(p.rows[k], "PTS", cols, f.rows[k]["PTS"].n, RestColumn("REB"), b.rows[k][RestColumn("REB")]);
      RowResidualUpdate(b.rows[k], "PTS", cols, f.rows[k]["PTS"].n, RestColumn("AST"), a.rows[k][RestColumn("AST")]);
    }
  }

  /** The residual invariant for rebounds. */
  lemma ResidualRebounds(f: Frame)
    requires ResidualReady(f)
    requires forall c :: c in RestColumns ==> c !in f.columns
    ensures ResidualHolds(f, TeammatesStats(f), "REB")
  {
    TotalsNotStats();
    var filled := FillStatNulls(f);
    ResidualStages(filled);
    ResidualStagesMatch(filled);
    var p := AddRest(filled, "PTS");
    var b := AddRest(p, "REB");
    var a := AddRest(b, "AST");
    var cols := ColumnsContaining(f.columns, "_" + "REB");
    assert RestColumn("AST") !in cols by {
      assert RestColumn("AST") in RestColumns;
    }
    RestColumnsDistinct();
    forall k | 0 <= k < |f.rows|
      ensures "REB" in f.rows[k] && f.rows[k]["REB"].Int?
      ensures RowResidual(a.rows[k], "REB", cols, f.rows[k]["REB"].n)
    {
      AddRestResidual(p, "REB", k);
      RowResidualUpdate(b.rows[k], "REB", cols, f.rows[k]["REB"].n, RestColumn("AST"), a.rows[k][RestColumn("AST")]);
    }
  }

  /** The residual invariant for assists. */
  lemma ResidualAssists(f: Frame)
    requires ResidualReady(f)
    requires forall c :: c in RestColumns ==> c !in f.columns
    ensures ResidualHolds(f, TeammatesStats(f), "AST")
  {
    TotalsNotStats();
    RestColumnsDistinct();
    var filled := FillStatNulls(f);
    ResidualStages(filled);
    ResidualStagesMatch(filled);
    var p := AddRest(filled, "PTS");
    var b := AddRest(p, "REB");
    forall k | 0 <= k < |f.rows|
      ensures "AST" in f.rows[k] && f.rows[k]["AST"].Int?
      ensures RowResidual(TeammatesStats(f).rows[k], "AST", ColumnsContaining(f.columns, "_" + "AST"), f.rows[k]["AST"].n)
    {
      AddRestResidual(b, "AST", k);
    }
  }

  /** The residuals add `REST_PTS`, `REST_REB` and `REST_AST` at the end,
      and each is the only new column matching its own stat. */
  lemma ResidualColumns(f: Frame)
    requires ResidualReady(f)
    requires forall c :: c in RestColumns ==> c !in f.columns
    ensures var r := TeammatesStats(f);
            && r.columns == f.columns + RestColumns
            && ColumnsContaining(r.columns, "_" + "PTS") == ColumnsContaining(f.columns, "_" + "PTS") + [RestColumn("PTS")]
            && ColumnsContaining(r.columns, "_" + "REB") == ColumnsContaining(f.columns, "_" + "REB") + [RestColumn("REB")]
            && ColumnsContaining(r.columns, "_" + "AST") == ColumnsContaining(f.columns, "_" + "AST") + [RestColumn("AST")]
  {
    ResidualStages(FillStatNulls(f));
    TeammatesStatsAppends(f);
    var c1 := f.columns + [RestColumn("PTS")];
    var c2 := c1 + [RestColumn("REB")];
    StatNames();
    ColumnsContainingOwnRest(f.columns, "PTS");
    ColumnsContainingOtherRest(c1, "REB", "PTS");
    ColumnsContainingOtherRest(c2, "AST", "PTS");
    ColumnsContainingOtherRest(f.columns, "PTS", "REB");
    ColumnsContainingOwnRest(c1, "REB");
    ColumnsContainingOtherRest(c2, "AST", "REB");
    ColumnsContainingOtherRest(f.columns, "PTS", "AST");
    ColumnsContainingOtherRest(c1, "REB", "AST");
    ColumnsContainingOwnRest(c2, "AST");
  }

  /** The residual invariant: in every row, `REST_X` plus the columns of
      the input whose name contains `_X` gives the team total `X`; and the
      only new column matching `_X` is `REST_X` itself. */
  lemma ResidualInvariant(f: Frame)
    requires ResidualReady(f)
    requires forall c :: c in RestColumns ==> c !in f.columns
    ensures var r := TeammatesStats(f);
            && ResidualHolds(f, r, "PTS") && ResidualHolds(f, r, "REB") && ResidualHolds(f, r, "AST")
            && r.columns == f.columns + RestColumns
            && ColumnsContaining(r.columns, "_" + "PTS") == ColumnsContaining(f.columns, "_" + "PTS") + [RestColumn("PTS")]
            && ColumnsContaining(r.columns, "_" + "REB") == ColumnsContaining(f.columns, "_" + "REB") + [RestColumn("REB")]
            && ColumnsContaining(r.columns, "_" + "AST") == ColumnsContaining(f.columns, "_" + "AST") + [RestColumn("AST")]
  {
    ResidualPoints(f);
    ResidualRebounds(f);
    ResidualAssists(f);
    ResidualColumns(f);
  }

  // ---------------------------------------------------------------------------
  // Integer cast (stats_to_int)
  // ---------------------------------------------------------------------------

  /** `stats_to_int(team_games)`: with integer cells, `astype(int)` changes
      nothing; a missing value or a string in a stat column raises. */
  function StatsToInt(f: Frame): (r: Result<Frame>)
    ensures r.Success? <==> StatCellsAreInts(f)
    ensures r.Success? ==> r.value == f
    ensures r.Failure? ==> r.error == IntCastError
  {
    if StatCellsAreInts(f) then Success(f) else Failure(IntCastError)
  }

  /** After the residuals every stat cell is an integer, so the cast
      cannot fail. */
  lemma StatsToIntAfterResiduals(f: Frame)
    requires ResidualReady(f)
    ensures StatsToInt(TeammatesStats(f)) == Success(TeammatesStats(f))
  {
    TeammatesStatsInts(f);
  }

  // ---------------------------------------------------------------------------
  // Projection onto the stored schema (final_preparation)
  // ---------------------------------------------------------------------------

  function WinFlag(wl: Value): Value {
    if wl == Str("W") then Int(1) else Int(0)
  }

  predicate FinalReady(f: Frame) {
    && WellFormed(f)
    && "WL" in f.columns && "GAME_ID" in f.columns && "GAME_DATE" in f.columns
    && "SEASON_ID" in f.columns && "PLAYOFFS" in f.columns
    && Distinct(LowerAll(StatColumns(f.columns) + FinalKeys))
  }

  function WithWin(f: Frame): (r: Frame)
    requires WellFormed(f) && "WL" in f.columns
    ensures WellFormed(r) && |r.rows| == |f.rows| && "WIN" in r.columns
    ensures StatColumns(r.columns) == StatColumns(f.columns)
    ensures forall c :: c in f.columns ==> c in r.columns
    ensures forall k :: 0 <= k < |f.rows| ==> "WL" in f.rows[k] && r.rows[k] == f.rows[k]["WIN" := WinFlag(f.rows[k]["WL"])]
  {
    TotalsNotStats();
    StatColumnsAppendNonStat(f.columns, "WIN");
    assert forall k :: 0 <= k < |f.rows| ==> "WL" in f.rows[k];
    SetColumn(f, "WIN", seq(|f.rows|, k requires 0 <= k < |f.rows| => WinFlag(f.rows[k]["WL"])))
  }

  /** `final_preparation(team_games)`: add `WIN` (1 exactly for a `"W"`),
      keep the stat columns in their order followed by `GAME_ID`,
      `GAME_DATE`, `SEASON_ID`, `PLAYOFFS` and `WIN`, and lower-case every
      name. */
  function FinalPreparation(f: Frame): (r: Frame)
    requires FinalReady(f)
    ensures WellFormed(r)
    ensures r.columns == LowerAll(StatColumns(f.columns) + FinalKeys)
    ensures |r.rows| == |f.rows|
  {
    var w := WithWin(f);
    var cols := StatColumns(w.columns) + FinalKeys;
    LowerDistinct(cols);
    LowercaseColumns(Select(w, cols))
  }

  /** Cell `n` of the selection, under its lower-cased name. */
  lemma FinalCell(f: Frame, k: nat, n: nat)
    requires FinalReady(f) && k < |f.rows| && n < |StatColumns(f.columns) + FinalKeys|
    ensures var cols := StatColumns(f.columns) + FinalKeys;
            var r := FinalPreparation(f);
            && Lower(cols[n]) in r.rows[k]
            && cols[n] in WithWin(f).rows[k]
            && r.rows[k][Lower(cols[n])] == WithWin(f).rows[k][cols[n]]
  {
    var w := WithWin(f);
    var cols := StatColumns(w.columns) + FinalKeys;
    LowerDistinct(cols);
    var s := Select(w, cols);
    assert FinalPreparation(f) == LowercaseColumns(s);
    assert RowFits(FinalPreparation(f).rows[k], LowerAll(cols));
    assert LowerAll(cols)[n] == Lower(cols[n]);
    assert RowFits(w.rows[k], w.columns);
  }

  /** Each stat column's cell is kept under its lower-cased name. */
  lemma FinalStatCell(f: Frame, k: nat, c: string)
    requires FinalReady(f) && k < |f.rows| && c in StatColumns(f.columns)
    ensures c in f.rows[k] && Lower(c) in FinalPreparation(f).rows[k]
    ensures FinalPreparation(f).rows[k][Lower(c)] == f.rows[k][c]
  {
    var i :| 0 <= i < |StatColumns(f.columns)| && StatColumns(f.columns)[i] == c;
    FinalCell(f, k, i);
    assert (StatColumns(f.columns) + FinalKeys)[i] == c;
    TotalsNotStats();
    assert RowFits(f.rows[k], f.columns);
  }

  /** `game_id`, `game_date`, `season_id` and `playoffs` copy the source
      keys. */
  lemma FinalKeyCell(f: Frame, k: nat, i: nat)
    requires FinalReady(f) && k < |f.rows| && i < 4
    ensures FinalKeys[i] in f.rows[k] && StoreKeys[i] in FinalPreparation(f).rows[k]
    ensures FinalPreparation(f).rows[k][StoreKeys[i]] == f.rows[k][FinalKeys[i]]
  {
    StoreKeysAreLowered();
    var n := |StatColumns(f.columns)| + i;
    FinalCell(f, k, n);
    assert (StatColumns(f.columns) + FinalKeys)[n] == FinalKeys[i];
    assert FinalKeys[i] != "WIN";
    assert RowFits(f.rows[k], f.columns);
  }

  /** `win` is 1 exactly when `WL` was `"W"`. */
  lemma FinalWinCell(f: Frame, k: nat)
    requires FinalReady(f) && k < |f.rows|
    ensures "WL" in f.rows[k] && "win" in FinalPreparation(f).rows[k]
    ensures FinalPreparation(f).rows[k]["win"] == if f.rows[k]["WL"] == Str("W") then Int(1) else Int(0)
  {
    StoreKeysAreLowered();
    var n := |StatColumns(f.columns)| + 4;
    FinalCell(f, k, n);
    assert (StatColumns(f.columns) + FinalKeys)[n] == "WIN";
    assert RowFits(f.rows[k], f.columns);
  }

  // ---------------------------------------------------------------------------
  // The composition pushed to the store (push_data_to_feature_store)
  // ---------------------------------------------------------------------------

  /** The two tracked players of the source's roster. */
  const Roster: seq<int> := [203999, 1627750]

  /** Game rows as the game finder returns them, tagged with `PLAYOFFS`:
      the keys and team totals are present and no column name contains a
      tracked-stat substring. */
  predicate GameFrame(f: Frame) {
    && WellFormed(f)
    && "GAME_ID" in f.columns && "GAME_DATE" in f.columns && "SEASON_ID" in f.columns
    && "WL" in f.columns && "PLAYOFFS" in f.columns
    && IntColumn(f, "PTS") && IntColumn(f, "REB") && IntColumn(f, "AST")
    && forall c :: c in f.columns ==> !IsStatColumn(c)
  }

  /** The roster's surnames give distinct column names, also after
      lower-casing, next to the residual and key columns. */
  predicate RosterNames(players: seq<int>, surnames: map<int, string>) {
    KnownPlayers(players, surnames) ==>
      Distinct(LowerAll(TrackedColumns(players, surnames) + RestColumns + FinalKeys))
  }

  /** The stored schema for a roster. */
  function StoredColumns(players: seq<int>, surnames: map<int, string>): seq<string>
    requires KnownPlayers(players, surnames)
  {
    LowerAll(TrackedColumns(players, surnames) + RestColumns + FinalKeys)
  }

  /** Distinct names stay distinct in every part of the schema. */
  lemma RosterColumns(players: seq<int>, surnames: map<int, string>)
    requires KnownPlayers(players, surnames) && RosterNames(players, surnames)
    ensures Distinct(TrackedColumns(players, surnames))
    ensures forall c :: c in RestColumns ==> c !in TrackedColumns(players, surnames)
    ensures forall c :: c in TrackedColumns(players, surnames) ==> IsStatColumn(c)
  {
    var tracked := TrackedColumns(players, surnames);
    var all := tracked + RestColumns + FinalKeys;
    LowerDistinct(all);
    TrackedColumnsAreStats(players, surnames);
    assert forall i :: 0 <= i < |tracked| ==> tracked[i] == all[i];
    forall c, n | c in RestColumns && 0 <= n < |tracked|
      ensures tracked[n] != c
    {
      var m :| 0 <= m < 3 && RestColumns[m] == c;
      assert all[n] == tracked[n] && all[|tracked| + m] == c;
    }
  }

  /** Game rows can be enriched: the roster's columns are new. */
  lemma GamesFresh(players: seq<int>, surnames: map<int, string>, games: Frame)
    requires GameFrame(games) && RosterNames(players, surnames)
    ensures FreshTracked(players, surnames, games.columns)
  {
    if KnownPlayers(players, surnames) {
      RosterColumns(players, surnames);
    }
  }

  /** One enriched row: numbers in every stat cell and the team totals
      still integers. */
  lemma EnrichedRow(players: seq<int>, surnames: map<int, string>, box: BoxScores, games: Frame, k: nat)
    requires GameFrame(games) && RosterNames(players, surnames) && KnownPlayers(players, surnames)
    requires k < |games.rows|
    ensures EnrichReady(players, surnames, games)
    ensures var e := Enrich(players, surnames, box, games).value;
            && (forall c :: c in e.rows[k] && IsStatColumn(c) ==> IsNumber(e.rows[k][c]))
            && "PTS" in e.rows[k] && e.rows[k]["PTS"].Int?
            && "REB" in e.rows[k] && e.rows[k]["REB"].Int?
            && "AST" in e.rows[k] && e.rows[k]["AST"].Int?
  {
    GamesFresh(players, surnames, games);
    var tracked := TrackedColumns(players, surnames);
    var e := Enrich(players, surnames, box, games).value;
    EnrichKeeps(players, surnames, box, games, k);
    assert RowFits(games.rows[k], games.columns);
    TrackedValuesAreNumbers(players, box(games.rows[k]["GAME_ID"]));
    forall c | c in e.rows[k] && IsStatColumn(c)
      ensures IsNumber(e.rows[k][c])
    {
      assert RowFits(e.rows[k], e.columns);
      if c !in games.columns {
        var n :| 0 <= n < |tracked| && tracked[n] == c;
        EnrichTracked(players, surnames, box, games, k, n);
      }
    }
  }

  /** The enriched games are ready for the residuals, carry no residual
      column yet, and their stat columns are exactly the tracked ones. */
  lemma EnrichedReady(players: seq<int>, surnames: map<int, string>, box: BoxScores, games: Frame)
    requires GameFrame(games) && RosterNames(players, surnames) && KnownPlayers(players, surnames)
    ensures EnrichReady(players, surnames, games)
    ensures var e := Enrich(players, surnames, box, games).value;
            && ResidualReady(e)
            && (forall c :: c in RestColumns ==> c !in e.columns)
            && StatColumns(e.columns) == TrackedColumns(players, surnames)
  {
    EnrichedRows(players, surnames, box, games);
    EnrichedColumns(players, surnames, box, games);
  }

  lemma EnrichedRows(players: seq<int>, surnames: map<int, string>, box: BoxScores, games: Frame)
    requires GameFrame(games) && RosterNames(players, surnames) && KnownPlayers(players, surnames)
    ensures EnrichReady(players, surnames, games)
    ensures ResidualReady(Enrich(players, surnames, box, games).value)
  {
    GamesFresh(players, surnames, games);
    forall k | 0 <= k < |games.rows| {
      EnrichedRow(players, surnames, box, games, k);
    }
  }

  lemma EnrichedColumns(players: seq<int>, surnames: map<int, string>, box: BoxScores, games: Frame)
    requires GameFrame(games) && RosterNames(players, surnames) && KnownPlayers(players, surnames)
    ensures EnrichReady(players, surnames, games)
    ensures var e := Enrich(players, surnames, box, games).value;
            && (forall c :: c in RestColumns ==> c !in e.columns)
            && StatColumns(e.columns) == TrackedColumns(players, surnames)
  {
    GamesFresh(players, surnames, games);
    RosterColumns(players, surnames);
    RestNames();
    var tracked := TrackedColumns(players, surnames);
    FilterAppend(games.columns, tracked, IsStatColumn);
    FilterNone(games.columns, IsStatColumn);
    FilterAll(tracked, IsStatColumn);
  }

  /** The residuals are stat columns appended after the existing ones. */
  lemma StatColumnsAfterResiduals(e: Frame)
    requires ResidualReady(e) && (forall c :: c in RestColumns ==> c !in e.columns)
    ensures StatColumns(TeammatesStats(e).columns) == StatColumns(e.columns) + RestColumns
  {
    TeammatesStatsAppends(e);
    FilterAppend(e.columns, RestColumns, IsStatColumn);
    RestColumnsAreStats();
  }

  lemma RestColumnsAreStats()
    ensures StatColumns(RestColumns) == RestColumns
  {
    RestNames();
    FilterAll(RestColumns, IsStatColumn);
  }

  /** After the residuals the cast succeeds and the projection applies. */
  lemma ResidualsReadyForFinal(e: Frame)
    requires ResidualReady(e) && (forall c :: c in RestColumns ==> c !in e.columns)
    requires "GAME_ID" in e.columns && "GAME_DATE" in e.columns && "SEASON_ID" in e.columns
    requires "WL" in e.columns && "PLAYOFFS" in e.columns
    requires Distinct(LowerAll(StatColumns(e.columns) + RestColumns + FinalKeys))
    ensures var t := TeammatesStats(e);
            && StatsToInt(t) == Success(t)
            && FinalReady(t)
            && StatColumns(t.columns) == StatColumns(e.columns) + RestColumns
  {
    StatsToIntAfterResiduals(e);
    StatColumnsAfterResiduals(e);
    TeammatesStatsColumns(e);
  }

  /** Enrichment, residuals, integer cast and projection, in that order. */
  function Prepare(players: seq<int>, surnames: map<int, string>, box: BoxScores, games: Frame): (r: Result<Frame>)
    requires GameFrame(games) && RosterNames(players, surnames)
    ensures r.Success? <==> KnownPlayers(players, surnames)
    ensures r.Failure? ==> r.error == UnknownPlayer(FirstUnknown(players, surnames))
    ensures r.Success? ==> WellFormed(r.value) && |r.value.rows| == |games.rows|
    ensures r.Success? ==> r.value.columns == StoredColumns(players, surnames)
  {
    GamesFresh(players, surnames, games);
    var enriched := Enrich(players, surnames, box, games);
    if enriched.Failure? then Failure(enriched.error)
    else
      EnrichedReady(players, surnames, box, games);
      ResidualsReadyForFinal(enriched.value);
      var t := TeammatesStats(enriched.value);
      Success(FinalPreparation(StatsToInt(t).value))
  }

  /** `push_data_to_feature_store(feature_group, team_games)`: the rows it
      inserts, for the roster [203999, 1627750]. */
  function PushRows(surnames: map<int, string>, box: BoxScores, games: Frame): (r: Result<Frame>)
    requires GameFrame(games) && RosterNames(Roster, surnames)
    ensures r.Success? <==> Roster[0] in surnames && Roster[1] in surnames
    ensures r.Success? ==> |r.value.rows| == |games.rows|
    ensures r.Success? ==> r.value.columns == StoredColumns(Roster, surnames)
  {
    Prepare(Roster, surnames, box, games)
  }
}

=== FILE: recent.dfy ===
/** `fetch_recent_games` of src/fetch_data.py: the games played since the
    latest stored date, tagged and prepared for the store. The stored table
    and the date-range game finder are parameters; the upper date of the
    regular-season query is a parameter too. */
module Recent {
  import opened Strings
  import opened Outcomes
  import opened Frames
  import opened Dates
  import opened Pipeline
  import opened Seasons
  import opened Store

  // ---------------------------------------------------------------------------
  // The cursor in the finder's date format
  // ---------------------------------------------------------------------------

  /** `s.split(sep)`. */
  function Split(s: string, sep: char): (parts: seq<string>)
    ensures |parts| > 0
    decreases |s|
  {
    if |s| == 0 then [""]
    else
      var rest := Split(s[1..], sep);
      if s[0] == sep then [""] + rest else [[s[0]] + rest[0]] + rest[1..]
  }

  /** A piece without the separator splits off whole. */
  lemma {:induction false} SplitPiece(a: string, sep: char, rest: string)
    requires sep !in a
    ensures Split(a + [sep] + rest, sep) == [a] + Split(rest, sep)
    ensures Split(a, sep) == [a]
    decreases |a|
  {
    if |a| > 0 {
      assert (a + [sep] + rest)[1..] == a[1..] + [sep] + rest;
      SplitPiece(a[1..], sep, rest);
      assert [a[0]] + a[1..] == a;
    } else {
      assert a + [sep] + rest == [sep] + rest;
    }
  }

  /** `month + "/" + day + "/" + year` from `most_recent_date.split("-")`;
      fewer than three pieces is an IndexError. */
  function DateFrom(cursor: string): (r: Result<string>)
    ensures r.Failure? <==> |Split(cursor, '-')| < 3
    ensures r.Failure? ==> r.error == CursorSplitError
  {
    var parts := Split(cursor, '-');
    if |parts| < 3 then Failure(CursorSplitError)
    else Success(parts[1] + "/" + parts[2] + "/" + parts[0])
  }

  lemma DigitsHaveNoDash(s: string)
    requires AllDigits(s)
    ensures '-' !in s
  {
    forall i | 0 <= i < |s|
      ensures s[i] != '-'
    {
      assert IsDigit(s[i]);
    }
  }

  /** A `yyyy-mm-dd` cursor becomes `mm/dd/yyyy`. */
  lemma DateFromRendering(d: Date)
    requires ValidDate(d)
    ensures DateFrom(FormatDate(d)) == Success(Pad2(d.month) + "/" + Pad2(d.day) + "/" + Pad4(d.year))
  {
    var y, m, day := Pad4(d.year), Pad2(d.month), Pad2(d.day);
    DigitsHaveNoDash(y);
    DigitsHaveNoDash(m);
    DigitsHaveNoDash(day);
    assert FormatDate(d) == y + ['-'] + (m + ['-'] + day);
    SplitPiece(y, '-', m + ['-'] + day);
    SplitPiece(m, '-', day);
    SplitPiece(day, '-', "");
  }

  /** The cursor read from the store always splits into three pieces. */
  lemma CursorSplits(stored: Frame)
    requires AllStrAt(stored.rows, "game_date")
    requires MostRecentCursor(stored).Success?
    ensures DateFrom(MostRecentCursor(stored).value).Success?
  {
    var k :| 0 <= k < |stored.rows| && Success(MostRecentCursor(stored).value) == AddOneDay(stored.rows[k]["game_date"].s);
    var next := AddOneDay(stored.rows[k]["game_date"].s);
    var n :| ValidDate(n) && next.value == FormatDate(n);
    DateFromRendering(n);
  }

  // ---------------------------------------------------------------------------
  // Summer league
  // ---------------------------------------------------------------------------

  /** `GAME_DATE.str[5:7] == "07"`: a July game. A missing date is NaN and
      never equal. */
  predicate InJuly(r: Row) {
    "GAME_DATE" in r && r["GAME_DATE"].Str? && Slice(r["GAME_DATE"].s, 5, 7) == "07"
  }

  predicate NotInJuly(r: Row) {
    !InJuly(r)
  }

  predicate AnyRow(r: Row) {
    true
  }

  /** Dropping the summer-league games: the July rows go, every other row
      stays in order. */
  function DropSummerLeague(f: Frame): (r: Frame)
    ensures r.columns == f.columns
    ensures WellFormed(f) ==> WellFormed(r)
    ensures forall x :: x in r.rows <==> x in f.rows && !InJuly(x)
  {
    FilterRows(f, NotInJuly)
  }

  /** The rows dropped and the rows kept make up the games. */
  lemma DropSummerLeagueCount(f: Frame)
    ensures |DropSummerLeague(f).rows| + |Filter(f.rows, InJuly)| == |f.rows|
    ensures multiset(DropSummerLeague(f).rows) + multiset(Filter(f.rows, InJuly)) == multiset(f.rows)
  {
    FilterSplit(f.rows, NotInJuly, InJuly, AnyRow);
    FilterAll(f.rows, AnyRow);
    assert DropSummerLeague(f).rows == Filter(f.rows, NotInJuly);
    assert multiset(Filter(f.rows, AnyRow)) == multiset(f.rows);
    assert |multiset(f.rows)| == |multiset(DropSummerLeague(f).rows)| + |multiset(Filter(f.rows, InJuly))|;
  }

  /** For a `YYYY-MM-DD` date the test is the month being July. */
  lemma InJulyOfRendering(r: Row, d: Date)
    requires ValidDate(d) && "GAME_DATE" in r && r["GAME_DATE"] == Str(FormatDate(d))
    ensures InJuly(r) <==> d.month == 7
  {
    FormatDateParts(d);
    Pad2RoundTrip(d.month);
    Pad2RoundTrip(7);
  }

  lemma DropSummerLeagueApi(f: Frame)
    requires ApiGames(f)
    ensures ApiGames(DropSummerLeague(f))
  {
    var g := DropSummerLeague(f);
    assert forall k :: 0 <= k < |g.rows| ==> g.rows[k] in f.rows;
  }

  // ---------------------------------------------------------------------------
  // The batch to push
  // ---------------------------------------------------------------------------

  /** The four branches on the two frames' lengths: both tagged and
      concatenated regular season first, one of them tagged, or nothing in
      the off-season. */
  function RecentBatch(reg: Frame, po: Frame): (b: Option<Frame>)
    ensures b.None? <==> |reg.rows| == 0 && |po.rows| == 0
    ensures b.Some? ==> |b.value.rows| == |reg.rows| + |po.rows|
  {
    if |reg.rows| > 0 && |po.rows| > 0 then Some(Concat(Tagged(reg, RegularSeason), Tagged(po, Playoffs)))
    else if |reg.rows| > 0 then Some(Tagged(reg, RegularSeason))
    else if |po.rows| > 0 then Some(Tagged(po, Playoffs))
    else None
  }

  /** The first rows of the batch are the regular-season games, tagged 0,
      and the rest the playoff games, tagged 1. */
  lemma RecentBatchTags(reg: Frame, po: Frame)
    ensures var b := RecentBatch(reg, po);
            b.Some? ==> forall k :: 0 <= k < |b.value.rows| ==>
              "PLAYOFFS" in b.value.rows[k] && b.value.rows[k]["PLAYOFFS"] == if k < |reg.rows| then Int(0) else Int(1)
  {
    TaggedFacts(reg, RegularSeason);
    TaggedFacts(po, Playoffs);
    if |reg.rows| > 0 && |po.rows| > 0 {
      UnionColumnsHas(Tagged(reg, RegularSeason).columns, Tagged(po, Playoffs).columns);
    }
  }

  /** The batch keeps every other cell of the regular-season games, at the
      same positions. */
  lemma RecentBatchRegularCells(reg: Frame, po: Frame, k: nat, c: string)
    requires WellFormed(reg) && k < |reg.rows| && c in reg.rows[k] && c != "PLAYOFFS"
    ensures var b := RecentBatch(reg, po);
            b.Some? && k < |b.value.rows| && c in b.value.rows[k] && b.value.rows[k][c] == reg.rows[k][c]
  {
    var a := Tagged(reg, RegularSeason);
    TaggedFacts(reg, RegularSeason);
    assert c in a.rows[k] && a.rows[k][c] == reg.rows[k][c];
    assert c in a.columns;
    if |po.rows| > 0 {
      ConcatCells(a, Tagged(po, Playoffs), k, c);
      assert RecentBatch(reg, po) == Some(Concat(a, Tagged(po, Playoffs)));
    } else {
      assert RecentBatch(reg, po) == Some(a);
    }
  }

  /** The batch keeps every other cell of the playoff games, after the
      regular-season games. */
  lemma RecentBatchPlayoffCells(reg: Frame, po: Frame, k: nat, c: string)
    requires WellFormed(po) && k < |po.rows| && c in po.rows[k] && c != "PLAYOFFS"
    ensures var b := RecentBatch(reg, po);
            b.Some? && |reg.rows| + k < |b.value.rows|
            && c in b.value.rows[|reg.rows| + k] && b.value.rows[|reg.rows| + k][c] == po.rows[k][c]
  {
    var b := Tagged(po, Playoffs);
    if |reg.rows| > 0 {
      PlayoffCellAfterRegular(Tagged(reg, RegularSeason), po, |reg.rows|, k, c);
    } else {
      assert b.rows[k] == po.rows[k]["PLAYOFFS" := Int(1)];
    }
  }

  lemma PlayoffCellAfterRegular(a: Frame, po: Frame, n: nat, k: nat, c: string)
    requires n == |a.rows|
    requires WellFormed(po) && k < |po.rows| && c in po.rows[k] && c != "PLAYOFFS"
    ensures var cat := Concat(a, Tagged(po, Playoffs));
            n + k < |cat.rows| && c in cat.rows[n + k] && cat.rows[n + k][c] == po.rows[k][c]
  {
    var b := Tagged(po, Playoffs);
    assert b.rows[k] == po.rows[k]["PLAYOFFS" := Int(1)];
    assert c in po.columns;
    assert c in b.columns;
    assert c in b.rows[k] && b.rows[k][c] == po.rows[k][c];
    ConcatCells(a, b, k, c);
    var cat := Concat(a, b);
    assert cat.rows[n + k][c] == b.rows[k][c];
  }

  /** Tagged finder frames concatenate to what the push step needs. */
  lemma RecentBatchGameFrame(reg: Frame, po: Frame)
    requires ApiGames(reg) && ApiGames(po)
    ensures RecentBatch(reg, po).Some? ==> GameFrame(RecentBatch(reg, po).value)
  {
    var a, b := Tagged(reg, RegularSeason), Tagged(po, Playoffs);
    TaggedReady(reg, RegularSeason);
    TaggedReady(po, Playoffs);
    if |reg.rows| > 0 && |po.rows| > 0 {
      ConcatGames(a, b);
    }
  }

  lemma ConcatGames(a: Frame, b: Frame)
    requires TaggedGames(a) && TaggedGames(b)
    ensures GameFrame(Concat(a, b))
  {
    ConcatWellFormed(a, b);
    UnionColumnsHas(a.columns, b.columns);
    ConcatIntColumn(a, b, "PTS");
    ConcatIntColumn(a, b, "REB");
    ConcatIntColumn(a, b, "AST");
  }

  lemma ConcatIntColumn(a: Frame, b: Frame, col: string)
    requires IntColumn(a, col) && IntColumn(b, col)
    ensures IntColumn(Concat(a, b), col)
  {
    ConcatKeeps(a, b, col, IsInt);
  }

  // ---------------------------------------------------------------------------
  // fetch_recent_games
  // ---------------------------------------------------------------------------

  /** `LeagueGameFinder(date_from_nullable=..., date_to_nullable=...,
      season_type_nullable=...)`. */
  type RangeFinder = (string, Option<string>, SeasonType) -> Frame

  ghost predicate RangeFinderReady(finder: RangeFinder) {
    forall from, to, t :: ApiGames(finder(from, to, t))
  }

  /** The games `fetch_recent_games` would push, or `None` in the
      off-season. */
  function RecentGames(stored: Frame, finder: RangeFinder, dateTo: string): (r: Result<Option<Frame>>)
    requires AllStrAt(stored.rows, "game_date")
    ensures |stored.rows| == 0 ==> r == Failure(EmptyStore)
    ensures r.Failure? ==> r.error != CursorSplitError
  {
    var cursor := MostRecentCursor(stored);
    if cursor.Failure? then Failure(cursor.error)
    else
      CursorSplits(stored);
      var from := DateFrom(cursor.value).value;
      var reg := DropSummerLeague(finder(from, Some(dateTo), RegularSeason));
      var po := finder(from, None, Playoffs);
      Success(RecentBatch(reg, po))
  }

  /** Every stored `game_date` renders a date, and `latest` is the latest
      of them in the calendar. */
  ghost predicate LatestStoredDate(stored: Frame, latest: Date) {
    && ValidDate(latest)
    && (exists k :: 0 <= k < |stored.rows| && "game_date" in stored.rows[k] && stored.rows[k]["game_date"] == Str(FormatDate(latest)))
    && forall k :: 0 <= k < |stored.rows| ==>
         "game_date" in stored.rows[k] &&
         exists d :: ValidDate(d) && !Before(latest, d) && stored.rows[k]["game_date"] == Str(FormatDate(d))
  }

  /** The string maximum of the stored dates is the rendering of the
      calendar-latest one. */
  lemma LatestIsMaxStr(stored: Frame, latest: Date)
    requires AllStrAt(stored.rows, "game_date") && LatestStoredDate(stored, latest)
    ensures |stored.rows| > 0 && MaxStr(stored.rows, "game_date") == FormatDate(latest)
  {
    var k0 :| 0 <= k0 < |stored.rows| && "game_date" in stored.rows[k0] && stored.rows[k0]["game_date"] == Str(FormatDate(latest));
    var m := MaxStr(stored.rows, "game_date");
    assert LexLe(FormatDate(latest), m);
    var k1 :| 0 <= k1 < |stored.rows| && stored.rows[k1]["game_date"].s == m;
    var d :| ValidDate(d) && !Before(latest, d) && stored.rows[k1]["game_date"] == Str(FormatDate(d));
    FormatDateLe(d, latest);
    LexLessAsymmetric(m, FormatDate(latest));
  }

  /** Both queries start the calendar day after the latest stored game,
      written `MM/DD/YYYY`; the batch is the summer-filtered regular season
      up to `dateTo` followed by the playoffs from that day on. */
  lemma RecentGamesWindow(stored: Frame, finder: RangeFinder, dateTo: string, latest: Date)
    requires AllStrAt(stored.rows, "game_date") && LatestStoredDate(stored, latest)
    requires latest != Date(MaxYear, 12, 31)
    ensures NextDay(latest).Success?
    ensures var n := NextDay(latest).value;
            var w := Pad2(n.month) + "/" + Pad2(n.day) + "/" + Pad4(n.year);
            RecentGames(stored, finder, dateTo)
            == Success(RecentBatch(DropSummerLeague(finder(w, Some(dateTo), RegularSeason)), finder(w, None, Playoffs)))
  {
    LatestIsMaxStr(stored, latest);
    MostRecentCursorIsLatest(stored);
    AddOneDayOfRendering(latest);
    DateFromRendering(NextDay(latest).value);
  }

  /** A batch built from finder answers is what the push step needs. */
  lemma RecentGamesReady(stored: Frame, finder: RangeFinder, dateTo: string)
    requires AllStrAt(stored.rows, "game_date") && RangeFinderReady(finder)
    ensures var r := RecentGames(stored, finder, dateTo);
            r.Success? && r.value.Some? ==> GameFrame(r.value.value)
  {
    var cursor := MostRecentCursor(stored);
    if cursor.Success? {
      CursorSplits(stored);
      var from := DateFrom(cursor.value).value;
      DropSummerLeagueApi(finder(from, Some(dateTo), RegularSeason));
      RecentBatchGameFrame(DropSummerLeague(finder(from, Some(dateTo), RegularSeason)), finder(from, None, Playoffs));
    }
  }

  /** What a run does: push prepared rows, or nothing in the off-season. */
  datatype Recent = Pushed(inserted: Frame) | OffSeason

  /** `fetch_recent_games()`: the batch, prepared by
      `push_data_to_feature_store` for the roster. */
  function FetchRecentGames(stored: Frame, finder: RangeFinder, dateTo: string,
                            surnames: map<int, string>, box: BoxScores): (r: Result<Recent>)
    requires AllStrAt(stored.rows, "game_date") && RangeFinderReady(finder)
    requires RosterNames(Roster, surnames)
    ensures r == Success(OffSeason) <==> RecentGames(stored, finder, dateTo) == Success(None)
    ensures r.Success? && r.value.Pushed? ==>
      KnownPlayers(Roster, surnames) && r.value.inserted.columns == StoredColumns(Roster, surnames)
  {
    var plan := RecentGames(stored, finder, dateTo);
    if plan.Failure? then Failure(plan.error)
    else if plan.value.None? then Success(OffSeason)
    else
      RecentGamesReady(stored, finder, dateTo);
      var rows := PushRows(surnames, box, plan.value.value);
      if rows.Failure? then Failure(rows.error) else Success(Pushed(rows.value))
  }

  /** Failures of the cursor pass through unchanged. */
  lemma FetchRecentGamesFails(stored: Frame, finder: RangeFinder, dateTo: string,
                              surnames: map<int, string>, box: BoxScores)
    requires AllStrAt(stored.rows, "game_date") && RangeFinderReady(finder)
    requires RosterNames(Roster, surnames)
    requires RecentGames(stored, finder, dateTo).Failure?
    ensures FetchRecentGames(stored, finder, dateTo, surnames, box) == Failure(RecentGames(stored, finder, dateTo).error)
  {
  }

  /** A non-empty batch is pushed as one prepared row per game, and the
      push fails only for a roster player without a surname. */
  lemma FetchRecentGamesPushes(stored: Frame, finder: RangeFinder, dateTo: string,
                               surnames: map<int, string>, box: BoxScores, games: Frame)
    requires AllStrAt(stored.rows, "game_date") && RangeFinderReady(finder)
    requires RosterNames(Roster, surnames)
    requires RecentGames(stored, finder, dateTo) == Success(Some(games))
    ensures var r := FetchRecentGames(stored, finder, dateTo, surnames, box);
            && (r.Success? <==> Roster[0] in surnames && Roster[1] in surnames)
            && (r.Success? ==> r.value.Pushed? && |r.value.inserted.rows| == |games.rows|)
  {
    RecentGamesReady(stored, finder, dateTo);
  }
}

=== FILE: seasons.dfy ===
/** The season loops of src/data.py: `pull_team_games` asks the game
    finder for each season's regular-season and playoff games, tags them
    and sorts them by date; `append_players_stats` enriches the games one
    season at a time. The stats API is the `GameFinder` and `BoxScores`
    parameters. */
module Seasons {
  import opened Strings
  import opened Outcomes
  import opened Frames
  import opened Pipeline

  // ---------------------------------------------------------------------------
  // Season ids
  // ---------------------------------------------------------------------------

  /** The API's season id for the season that starts in year `y`:
      `str(y) + "-" + str(y + 1)[-2:]`. */
  function SeasonString(y: int): string {
    IntToStr(y) + "-" + LastTwo(IntToStr(y + 1))
  }

  /** For four-digit years the season id is the year, a dash and the last
      two digits of the next year, both zero-padded. */
  lemma SeasonStringFourDigits(y: int)
    requires 1000 <= y <= 9998
    ensures SeasonString(y) == Pad4(y) + "-" + Pad2((y + 1) % 100)
  {
    NatToStrFourDigits(y);
    NatToStrFourDigits(y + 1);
    assert Pad4(y + 1)[2..] == Pad2((y + 1) % 100);
  }

  /** The season id gives back its year and the next year's last two
      digits. */
  lemma SeasonStringParts(y: int)
    requires 1000 <= y <= 9998
    ensures |SeasonString(y)| == 7 && SeasonString(y)[4] == '-'
    ensures ParseInt(SeasonString(y)[..4]) == Some(y)
    ensures ParsePad2(SeasonString(y)[5..]) == (y + 1) % 100
  {
    SeasonStringFourDigits(y);
    var s := SeasonString(y);
    assert s[..4] == Pad4(y) && s[5..] == Pad2((y + 1) % 100);
    NatToStrFourDigits(y);
    ParseIntOfIntToStr(y);
    Pad2RoundTrip((y + 1) % 100);
  }

  /** The two examples of the comment in `pull_team_games`, and the turn
      of the century. */
  lemma SeasonStringExamples()
    ensures SeasonString(2022) == "2022-23"
    ensures SeasonString(1999) == "1999-00"
  {
    SeasonStringFourDigits(2022);
    SeasonStringFourDigits(1999);
  }

  // ---------------------------------------------------------------------------
  // pull_team_games
  // ---------------------------------------------------------------------------

  datatype SeasonType = RegularSeason | Playoffs

  /** `LeagueGameFinder(season_nullable=..., season_type_nullable=...)`. */
  type GameFinder = (string, SeasonType) -> Frame

  /** `PLAYOFFS` is 1 for playoff games and 0 for regular-season games. */
  function PlayoffsFlag(t: SeasonType): Value {
    Int(if t == Playoffs then 1 else 0)
  }

  /** `games["PLAYOFFS"] = flag`. */
  function Tagged(f: Frame, t: SeasonType): Frame {
    ConstColumn(f, "PLAYOFFS", PlayoffsFlag(t))
  }

  /** Tagging sets `PLAYOFFS` in every row, keeps every other cell and
      adds the column when it is new. */
  lemma TaggedFacts(f: Frame, t: SeasonType)
    ensures var r := Tagged(f, t);
            && "PLAYOFFS" in r.columns && |r.rows| == |f.rows|
            && (forall k :: 0 <= k < |r.rows| ==> "PLAYOFFS" in r.rows[k] && r.rows[k]["PLAYOFFS"] == PlayoffsFlag(t))
            && (forall k, c :: 0 <= k < |r.rows| && c in f.rows[k] && c != "PLAYOFFS" ==> c in r.rows[k] && r.rows[k][c] == f.rows[k][c])
            && (forall c :: c in r.columns <==> c in f.columns || c == "PLAYOFFS")
            && (WellFormed(f) ==> WellFormed(r))
  {
  }

  /** One finder call: the season's starting year and a season type. */
  datatype Request = Request(year: int, kind: SeasonType)

  /** The calls the loop makes: regular season then playoffs, season
      after season. */
  function SeasonRequests(init: int, end: int): (reqs: seq<Request>)
    ensures |reqs| == if init <= end then 2 * (end - init + 1) else 0
    decreases end - init
  {
    if init > end then []
    else
      [Request(init, RegularSeason), Request(init, Playoffs)] + SeasonRequests(init + 1, end)
  }

  /** Calls `2 i` and `2 i + 1` ask for season `init + i`'s regular-season
      and playoff games. */
  lemma {:induction false} SeasonRequestsAt(init: int, end: int, i: nat)
    requires init + i <= end
    ensures SeasonRequests(init, end)[2 * i] == Request(init + i, RegularSeason)
    ensures SeasonRequests(init, end)[2 * i + 1] == Request(init + i, Playoffs)
    decreases i
  {
    if i > 0 {
      SeasonRequestsAt(init + 1, end, i - 1);
    }
  }

  /** The finder's answer to one call, tagged. */
  function Answer(finder: GameFinder, req: Request): Frame {
    Tagged(finder(SeasonString(req.year), req.kind), req.kind)
  }

  /** The frames the loop collects. */
  function Answers(finder: GameFinder, reqs: seq<Request>): (fs: seq<Frame>)
    ensures |fs| == |reqs|
    ensures forall i :: 0 <= i < |reqs| ==> fs[i] == Answer(finder, reqs[i])
  {
    seq(|reqs|, i requires 0 <= i < |reqs| => Answer(finder, reqs[i]))
  }

  /** The number of games the finder returns for the calls. */
  function AnsweredRows(finder: GameFinder, reqs: seq<Request>): nat
    decreases |reqs|
  {
    if |reqs| == 0 then 0
    else AnsweredRows(finder, reqs[..|reqs| - 1]) + |finder(SeasonString(reqs[|reqs| - 1].year), reqs[|reqs| - 1].kind).rows|
  }

  lemma {:induction false} AnswersRows(finder: GameFinder, reqs: seq<Request>)
    ensures SumRows(Answers(finder, reqs)) == AnsweredRows(finder, reqs)
    decreases |reqs|
  {
    if |reqs| > 0 {
      var init := reqs[..|reqs| - 1];
      AnswersRows(finder, init);
      assert Answers(finder, reqs)[..|reqs| - 1] == Answers(finder, init);
    }
  }

  /** A game frame as the finder returns it: the keys, integer team totals,
      no column the stat comprehensions would pick up, and a date string in
      every row. */
  predicate ApiGames(f: Frame) {
    && WellFormed(f)
    && "GAME_ID" in f.columns && "GAME_DATE" in f.columns && "SEASON_ID" in f.columns && "WL" in f.columns
    && IntColumn(f, "PTS") && IntColumn(f, "REB") && IntColumn(f, "AST")
    && StrColumn(f, "GAME_DATE")
    && forall c :: c in f.columns ==> !IsStatColumn(c)
  }

  ghost predicate FinderReady(finder: GameFinder) {
    forall s, t :: ApiGames(finder(s, t))
  }

  /** `pull_team_games(team_id, season_init, season_end)`: every season's
      tagged games, concatenated and sorted by date. With no season in the
      range `pd.concat` has nothing to concatenate and raises. */
  function PullTeamGames(init: int, end: int, finder: GameFinder): (r: Result<Frame>)
    requires FinderReady(finder)
    ensures r.Failure? <==> init > end
    ensures r.Failure? ==> r.error == NothingToConcatenate
    ensures r.Success? ==> && WellFormed(r.value)
                           && AllStrAt(r.value.rows, "GAME_DATE")
                           && SortedBy(r.value.rows, "GAME_DATE")
  {
    if init > end then Failure(NothingToConcatenate)
    else
      var all := ConcatAll(Answers(finder, SeasonRequests(init, end)));
      AnswersConcatenate(finder, SeasonRequests(init, end));
      Success(SortBy(all, "GAME_DATE"))
  }

  /** The answers concatenate to a well-formed frame with a date in every
      row. */
  lemma AnswersConcatenate(finder: GameFinder, reqs: seq<Request>)
    requires FinderReady(finder) && |reqs| > 0
    ensures WellFormed(ConcatAll(Answers(finder, reqs)))
    ensures AllStrAt(ConcatAll(Answers(finder, reqs)).rows, "GAME_DATE")
  {
    AnswersWellFormed(finder, reqs);
    AnswersDated(finder, reqs);
  }

  lemma AnswersWellFormed(finder: GameFinder, reqs: seq<Request>)
    requires FinderReady(finder) && |reqs| > 0
    ensures WellFormed(ConcatAll(Answers(finder, reqs)))
  {
    AnswersReady(finder, reqs);
    ConcatAllWellFormed(Answers(finder, reqs));
  }

  predicate IsStr(v: Value) {
    v.Str?
  }

  lemma AnswersDated(finder: GameFinder, reqs: seq<Request>)
    requires FinderReady(finder) && |reqs| > 0
    ensures AllStrAt(ConcatAll(Answers(finder, reqs)).rows, "GAME_DATE")
  {
    var fs := Answers(finder, reqs);
    AnswersReady(finder, reqs);
    assert forall i, k :: 0 <= i < |fs| && 0 <= k < |fs[i].rows| ==>
      "GAME_DATE" in fs[i].rows[k] && IsStr(fs[i].rows[k]["GAME_DATE"]);
    ConcatAllKeeps(fs, "GAME_DATE", IsStr);
  }

  /** The pulled games are exactly the rows of all answers, reordered: as
      many as the finder returned over all calls. */
  lemma PullTeamGamesRows(init: int, end: int, finder: GameFinder)
    requires FinderReady(finder) && init <= end
    ensures var g := PullTeamGames(init, end, finder).value;
            && multiset(g.rows) == multiset(ConcatAll(Answers(finder, SeasonRequests(init, end))).rows)
            && |g.rows| == AnsweredRows(finder, SeasonRequests(init, end))
  {
    AnswersRows(finder, SeasonRequests(init, end));
  }

  /** The collected frames: well formed, with dates, totals and tags. */
  lemma AnswersReady(finder: GameFinder, reqs: seq<Request>)
    requires FinderReady(finder)
    ensures forall i :: 0 <= i < |reqs| ==> TaggedGames(Answers(finder, reqs)[i])
  {
    forall i | 0 <= i < |reqs|
      ensures TaggedGames(Answers(finder, reqs)[i])
    {
      TaggedReady(finder(SeasonString(reqs[i].year), reqs[i].kind), reqs[i].kind);
    }
  }

  /** A finder frame after tagging. */
  predicate TaggedGames(f: Frame) {
    && WellFormed(f)
    && "GAME_ID" in f.columns && "GAME_DATE" in f.columns && "SEASON_ID" in f.columns && "WL" in f.columns
    && "PLAYOFFS" in f.columns
    && IntColumn(f, "PTS") && IntColumn(f, "REB") && IntColumn(f, "AST")
    && StrColumn(f, "GAME_DATE")
    && (forall k :: 0 <= k < |f.rows| ==> "PLAYOFFS" in f.rows[k] && IsFlag(f.rows[k]["PLAYOFFS"]))
    && forall c :: c in f.columns ==> !IsStatColumn(c)
  }

  predicate IsFlag(v: Value) {
    v == Int(0) || v == Int(1)
  }

  lemma TaggedReady(f: Frame, t: SeasonType)
    requires ApiGames(f)
    ensures TaggedGames(Tagged(f, t))
  {
    var r := Tagged(f, t);
    TaggedFacts(f, t);
    forall c | c in r.columns
      ensures !IsStatColumn(c)
    {
      if c == "PLAYOFFS" {
        NoUnderscoreNotStat(c);
      }
    }
  }

  /** Every pulled game carries `PLAYOFFS` 0 or 1. */
  lemma PullTeamGamesTags(init: int, end: int, finder: GameFinder)
    requires FinderReady(finder) && init <= end
    ensures var g := PullTeamGames(init, end, finder).value;
            forall k :: 0 <= k < |g.rows| ==> "PLAYOFFS" in g.rows[k] && IsFlag(g.rows[k]["PLAYOFFS"])
  {
    var fs := Answers(finder, SeasonRequests(init, end));
    AnswersReady(finder, SeasonRequests(init, end));
    ConcatAllKeeps(fs, "PLAYOFFS", IsFlag);
    PermutationKeeps(PullTeamGames(init, end, finder).value.rows, ConcatAll(fs).rows, "PLAYOFFS", IsFlag);
  }

  /** A call for a regular season answers with games tagged 0 and a call
      for playoffs with games tagged 1. */
  lemma AnswerTags(finder: GameFinder, req: Request)
    ensures var f := Answer(finder, req);
            forall k :: 0 <= k < |f.rows| ==> "PLAYOFFS" in f.rows[k] && f.rows[k]["PLAYOFFS"] == PlayoffsFlag(req.kind)
  {
    TaggedFacts(finder(SeasonString(req.year), req.kind), req.kind);
  }

  predicate IsInt(v: Value) {
    v.Int?
  }

  /** A column every finder answer holds integers in holds integers after
      the concatenation and the sort. */
  lemma PullTeamGamesInt(init: int, end: int, finder: GameFinder, col: string)
    requires FinderReady(finder) && init <= end
    requires forall s, t :: IntColumn(finder(s, t), col)
    ensures IntColumn(PullTeamGames(init, end, finder).value, col)
  {
    var fs := Answers(finder, SeasonRequests(init, end));
    AnswersInt(finder, SeasonRequests(init, end), col);
    ConcatAllKeeps(fs, col, IsInt);
    PermutationKeeps(PullTeamGames(init, end, finder).value.rows, ConcatAll(fs).rows, col, IsInt);
  }

  lemma AnswersInt(finder: GameFinder, reqs: seq<Request>, col: string)
    requires forall s, t :: IntColumn(finder(s, t), col)
    ensures forall i :: 0 <= i < |reqs| ==> col in Answers(finder, reqs)[i].columns
    ensures forall i, k :: 0 <= i < |reqs| && 0 <= k < |Answers(finder, reqs)[i].rows| ==>
      col in Answers(finder, reqs)[i].rows[k] && IsInt(Answers(finder, reqs)[i].rows[k][col])
  {
    forall i | 0 <= i < |reqs|
      ensures col in Answers(finder, reqs)[i].columns
      ensures forall k :: 0 <= k < |Answers(finder, reqs)[i].rows| ==>
        col in Answers(finder, reqs)[i].rows[k] && IsInt(Answers(finder, reqs)[i].rows[k][col])
    {
      var f := finder(SeasonString(reqs[i].year), reqs[i].kind);
      TaggedFacts(f, reqs[i].kind);
      assert IntColumn(f, col);
    }
  }

  /** The pulled games have the columns the later steps read and none
      they would take for a tracked stat. */
  lemma PullTeamGamesColumns(init: int, end: int, finder: GameFinder)
    requires FinderReady(finder) && init <= end
    ensures var g := PullTeamGames(init, end, finder).value;
            && "GAME_ID" in g.columns && "GAME_DATE" in g.columns && "SEASON_ID" in g.columns
            && "WL" in g.columns && "PLAYOFFS" in g.columns
            && forall c :: c in g.columns ==> !IsStatColumn(c)
  {
    var fs := Answers(finder, SeasonRequests(init, end));
    AnswersReady(finder, SeasonRequests(init, end));
    ConcatAllColumns(fs);
    assert TaggedGames(fs[0]);
    forall x | x in ConcatAll(fs).columns
      ensures !IsStatColumn(x)
    {
      var i :| 0 <= i < |fs| && x in fs[i].columns;
      assert TaggedGames(fs[i]);
    }
  }

  /** The pulled games are what the enrichment and residual steps need. */
  lemma PullTeamGamesGameFrame(init: int, end: int, finder: GameFinder)
    requires FinderReady(finder) && init <= end
    ensures GameFrame(PullTeamGames(init, end, finder).value)
  {
    PullTeamGamesColumns(init, end, finder);
    PullTeamGamesInt(init, end, finder, "PTS");
    PullTeamGamesInt(init, end, finder, "REB");
    PullTeamGamesInt(init, end, finder, "AST");
  }
}

=== FILE: starters.dfy ===
/** `pull_games_starters` of src/data.py: the stored games of a date range
    in which every tracked player started, without the starter columns. */
module Starters {
  import opened Strings
  import opened Frames
  import opened Pipeline
  import opened Dates

  /** `[col for col in team_games.columns if "_starter" in col]`. */
  function StarterColumns(cols: seq<string>): seq<string> {
    ColumnsContaining(cols, "_starter")
  }

  /** `date_range[0] <= game_date <= date_range[1]`, compared as strings.
      A missing date compares false, so its row is dropped. */
  predicate InDateRange(r: Row, from: string, to: string) {
    "game_date" in r && r["game_date"].Str? && LexLe(from, r["game_date"].s) && LexLe(r["game_date"].s, to)
  }

  /** `team_games["starters"] == len(cols)`: the starter cells add up to the
      number of starter columns. */
  predicate StartersSum(r: Row, cols: seq<string>) {
    (forall c :: c in cols ==> c in r) && SumColumns(r, cols) == |cols|
  }

  /** Both masks of the function. */
  function KeepOf(from: string, to: string, cols: seq<string>): Row -> bool {
    r => InDateRange(r, from, to) && StartersSum(r, cols)
  }

  /** The columns left once `starters` and the starter columns are dropped. */
  function KeptColumns(cols: seq<string>): (kept: seq<string>)
    ensures forall c :: c in kept <==> c in cols && c != "starters" && !Contains(c, "_starter")
  {
    Filter(cols, c => c != "starters" && !Contains(c, "_starter"))
  }

  /** `pull_games_starters(team_games, date_range)`. */
  function PullGamesStarters(f: Frame, from: string, to: string): (r: Frame)
    requires WellFormed(f)
    ensures WellFormed(r) && r.columns == KeptColumns(f.columns)
    ensures |r.rows| == |Filter(f.rows, KeepOf(from, to, StarterColumns(f.columns)))|
    ensures forall k :: 0 <= k < |r.rows| ==>
      var x := Filter(f.rows, KeepOf(from, to, StarterColumns(f.columns)))[k];
      && x in f.rows && InDateRange(x, from, to)
      && RowFits(r.rows[k], r.columns) && forall c :: c in r.columns ==> r.rows[k][c] == x[c]
  {
    var kept := Filter(f.rows, KeepOf(from, to, StarterColumns(f.columns)));
    var cols := KeptColumns(f.columns);
    FilterDistinct(f.columns, c => c != "starters" && !Contains(c, "_starter"));
    assert forall k :: 0 <= k < |kept| ==> kept[k] in f.rows;
    Frame(cols, seq(|kept|, k requires 0 <= k < |kept| => Project(kept[k], cols)))
  }

  // ---------------------------------------------------------------------------
  // What the sum test means
  // ---------------------------------------------------------------------------

  /** A starter cell holds 1 for a starter and 0 otherwise. */
  predicate StarterFlags(r: Row, cols: seq<string>) {
    forall c :: c in cols ==> c in r && (r[c] == Int(0) || r[c] == Int(1))
  }

  /** Every tracked player started. */
  predicate AllStarted(r: Row, cols: seq<string>) {
    forall c :: c in cols ==> c in r && r[c] == Int(1)
  }

  /** With 0/1 flags the sum never exceeds the count of flags. */
  lemma {:induction false} StarterSumBound(r: Row, cols: seq<string>)
    requires StarterFlags(r, cols)
    ensures SumColumns(r, cols) <= |cols|
    ensures SumColumns(r, cols) == |cols| ==> AllStarted(r, cols)
    decreases |cols|
  {
    if |cols| > 0 {
      StarterSumBound(r, cols[1..]);
      assert forall c :: c in cols[1..] ==> c in cols;
      if SumColumns(r, cols) == |cols| {
        assert r[cols[0]] == Int(1);
        assert forall c :: c in cols ==> c == cols[0] || c in cols[1..];
      }
    }
  }

  /** With 0/1 flags the sum equals the count exactly when every flag is 1. */
  lemma {:induction false} StartersSumIffAll(r: Row, cols: seq<string>)
    requires StarterFlags(r, cols)
    ensures StartersSum(r, cols) <==> AllStarted(r, cols)
    decreases |cols|
  {
    StarterSumBound(r, cols);
    if AllStarted(r, cols) && |cols| > 0 {
      assert forall c :: c in cols[1..] ==> c in cols;
      StartersSumIffAll(r, cols[1..]);
    }
  }

  /** Where the flags are 0 or 1, the sum test keeps exactly the games in
      range in which every tracked player started. */
  lemma StartersSelected(f: Frame, from: string, to: string)
    requires forall k :: 0 <= k < |f.rows| ==> StarterFlags(f.rows[k], StarterColumns(f.columns))
    ensures Filter(f.rows, KeepOf(from, to, StarterColumns(f.columns)))
         == Filter(f.rows, r => InDateRange(r, from, to) && AllStarted(r, StarterColumns(f.columns)))
  {
    var cols := StarterColumns(f.columns);
    forall k | 0 <= k < |f.rows|
      ensures StartersSum(f.rows[k], cols) == AllStarted(f.rows[k], cols)
    {
      StartersSumIffAll(f.rows[k], cols);
    }
    FilterCongruent(f.rows, KeepOf(from, to, cols), r => InDateRange(r, from, to) && AllStarted(r, cols));
  }

  /** No starter column and no `starters` column is left. */
  lemma StarterColumnsDropped(f: Frame, from: string, to: string)
    requires WellFormed(f)
    ensures forall c :: c in PullGamesStarters(f, from, to).columns ==> c !in StarterColumns(f.columns) && c != "starters"
    ensures forall c :: c in f.columns && c != "starters" && c !in StarterColumns(f.columns) ==> c in PullGamesStarters(f, from, to).columns
  {
  }

  /** For dates written `YYYY-MM-DD` the string bounds are the calendar
      bounds. */
  lemma DateRangeIsChronological(from: Date, to: Date, d: Date, r: Row)
    requires ValidDate(from) && ValidDate(to) && ValidDate(d)
    requires "game_date" in r && r["game_date"] == Str(FormatDate(d))
    ensures InDateRange(r, FormatDate(from), FormatDate(to)) <==> !Before(d, from) && !Before(to, d)
  {
    FormatDateLe(from, d);
    FormatDateLe(d, to);
  }
}

=== FILE: store.dfy ===
/** The post-read logic of src/feature_store.py: the season filter and date
    sort of `get_feature_store_data_r1`, and the "latest stored date plus
    one day" cursor of `get_date_most_recent_game_fs`. The stored table that
    `feature_group.read()` returns is a parameter. */
module Store {
  import opened Strings
  import opened Outcomes
  import opened Frames
  import opened Dates

  // ---------------------------------------------------------------------------
  // get_feature_store_data_r1
  // ---------------------------------------------------------------------------

  /** `season_id.str[1:] >= str(season_init)` and `<= str(season_end)`,
      compared as strings; a missing id compares false. */
  predicate InSeasonRange(r: Row, init: int, end: int) {
    && "season_id" in r && r["season_id"].Str?
    && LexLe(IntToStr(init), DropFirst(r["season_id"].s))
    && LexLe(DropFirst(r["season_id"].s), IntToStr(end))
  }

  function InSeasonRangeOf(init: int, end: int): Row -> bool {
    r => InSeasonRange(r, init, end)
  }

  lemma FilterStrAt(rows: seq<Row>, p: Row -> bool, col: string)
    requires AllStrAt(rows, col)
    ensures AllStrAt(Filter(rows, p), col)
  {
    assert forall k :: 0 <= k < |Filter(rows, p)| ==> Filter(rows, p)[k] in rows;
  }

  /** `get_feature_store_data_r1(feature_group, season_init, season_end)`:
      the stored games of the seasons, ascending by `game_date`. */
  function ReadSeasons(stored: Frame, init: int, end: int): (r: Frame)
    requires AllStrAt(stored.rows, "game_date")
    ensures r.columns == stored.columns
    ensures WellFormed(stored) ==> WellFormed(r)
    ensures multiset(r.rows) == multiset(Filter(stored.rows, InSeasonRangeOf(init, end)))
    ensures AllStrAt(r.rows, "game_date") && SortedBy(r.rows, "game_date")
  {
    var kept := FilterRows(stored, InSeasonRangeOf(init, end));
    FilterStrAt(stored.rows, InSeasonRangeOf(init, end), "game_date");
    SortBy(kept, "game_date")
  }

  /** A stored game is read back exactly when its season is in the range. */
  lemma ReadSeasonsMembers(stored: Frame, init: int, end: int, x: Row)
    requires AllStrAt(stored.rows, "game_date")
    ensures x in ReadSeasons(stored, init, end).rows <==> x in stored.rows && InSeasonRange(x, init, end)
  {
    var r := ReadSeasons(stored, init, end);
    assert x in r.rows <==> x in multiset(r.rows);
    assert x in Filter(stored.rows, InSeasonRangeOf(init, end)) <==> x in multiset(Filter(stored.rows, InSeasonRangeOf(init, end)));
  }

  /** For four-digit years the string comparison is the numeric one: a game
      whose id is a type digit followed by year `y` is kept exactly when
      `init <= y <= end`. */
  lemma SeasonRangeIsNumeric(r: Row, init: int, end: int, kind: char, y: int)
    requires 1000 <= init <= 9999 && 1000 <= end <= 9999 && 1000 <= y <= 9999
    requires "season_id" in r && r["season_id"] == Str([kind] + IntToStr(y))
    ensures InSeasonRange(r, init, end) <==> init <= y <= end
  {
    assert DropFirst([kind] + IntToStr(y)) == IntToStr(y);
    FourDigitYearOrder(init, y);
    FourDigitYearOrder(y, end);
  }

  // ---------------------------------------------------------------------------
  // get_date_most_recent_game_fs
  // ---------------------------------------------------------------------------

  /** `get_date_most_recent_game_fs(feature_group)`: the latest stored
      `game_date`, plus one day. An empty store has no row 0 to read. */
  function MostRecentCursor(stored: Frame): (r: Result<string>)
    requires AllStrAt(stored.rows, "game_date")
    ensures |stored.rows| == 0 <==> r == Failure(EmptyStore)
    ensures r.Success? ==> exists k :: 0 <= k < |stored.rows| && Success(r.value) == AddOneDay(stored.rows[k]["game_date"].s)
  {
    if |stored.rows| == 0 then Failure(EmptyStore)
    else
      var latest := MaxStr(stored.rows, "game_date");
      var cursor := AddOneDay(latest);
      if cursor.Failure? then Failure(cursor.error) else Success(cursor.value)
  }

  /** The cursor is the day after the latest stored date. */
  lemma MostRecentCursorIsLatest(stored: Frame)
    requires AllStrAt(stored.rows, "game_date") && |stored.rows| > 0
    ensures MostRecentCursor(stored) == AddOneDay(MaxStr(stored.rows, "game_date"))
    ensures forall k :: 0 <= k < |stored.rows| ==> LexLe(stored.rows[k]["game_date"].s, MaxStr(stored.rows, "game_date"))
  {
  }

  /** `s` renders, as `YYYY-MM-DD`, a day that has a successor. */
  ghost predicate RendersEarlierDay(s: string) {
    exists d :: ValidDate(d) && d != Date(MaxYear, 12, 31) && s == FormatDate(d)
  }

  lemma CursorAfter(s: string)
    requires RendersEarlierDay(s)
    ensures AddOneDay(s).Success? && LexLess(s, AddOneDay(s).value)
  {
    var d :| ValidDate(d) && d != Date(MaxYear, 12, 31) && s == FormatDate(d);
    AddOneDayIncreases(d);
  }

  /** When every stored date renders a day before 9999-12-31, the cursor
      exists and lies strictly after every stored date. */
  lemma MostRecentCursorAfterAll(stored: Frame)
    requires AllStrAt(stored.rows, "game_date") && |stored.rows| > 0
    requires forall k :: 0 <= k < |stored.rows| ==> RendersEarlierDay(stored.rows[k]["game_date"].s)
    ensures MostRecentCursor(stored).Success?
    ensures forall k :: 0 <= k < |stored.rows| ==> LexLess(stored.rows[k]["game_date"].s, MostRecentCursor(stored).value)
  {
    var latest := MaxStr(stored.rows, "game_date");
    var m :| 0 <= m < |stored.rows| && stored.rows[m]["game_date"].s == latest;
    CursorAfter(latest);
    var cursor := AddOneDay(latest).value;
    forall k | 0 <= k < |stored.rows|
      ensures LexLess(stored.rows[k]["game_date"].s, cursor)
    {
      LexLeLessTransitive(stored.rows[k]["game_date"].s, latest, cursor);
    }
  }
}

=== FILE: strings.dfy ===
/** Text helpers with Python's meaning: decimal rendering of integers
    (`str(n)` and `int(s)`), ordinal string comparison (`<` on `str`),
    substring containment (`t in s`), slicing and ASCII case mapping. */
module Strings {

  // ---------------------------------------------------------------------------
  // Digits and decimal rendering
  // ---------------------------------------------------------------------------

  predicate IsDigit(c: char) {
    '0' <= c <= '9'
  }

  predicate AllDigits(s: string) {
    forall i :: 0 <= i < |s| ==> IsDigit(s[i])
  }

  function DigitChar(d: int): (c: char)
    requires 0 <= d <= 9
    ensures IsDigit(c)
    ensures c as int - '0' as int == d
  {
    (48 + d) as char
  }

  function DigitValue(c: char): (d: int)
    requires IsDigit(c)
    ensures 0 <= d <= 9
    ensures DigitChar(d) == c
  {
    c as int - 48
  }

  /** `str(n)` for a non-negative integer: no leading zeros, "0" for zero. */
  function NatToStr(n: nat): (s: string)
    ensures |s| > 0 && AllDigits(s)
    decreases n
  {
    if n < 10 then [DigitChar(n)] else NatToStr(n / 10) + [DigitChar(n % 10)]
  }

  /** `str(n)` for any integer. */
  function IntToStr(n: int): string {
    if n < 0 then "-" + NatToStr(-n) else NatToStr(n)
  }

  /** The value of a non-empty run of decimal digits. */
  function ParseNat(s: string): nat
    requires |s| > 0 && AllDigits(s)
    decreases |s|
  {
    if |s| == 1 then DigitValue(s[0])
    else ParseNat(s[..|s| - 1]) * 10 + DigitValue(s[|s| - 1])
  }

  datatype Option<T> = None | Some(value: T)

  /** `int(s)` restricted to an optional minus sign followed by decimal
      digits; anything else is rejected (Python raises ValueError). */
  function ParseInt(s: string): (r: Option<int>)
    ensures r.Some? ==> |s| > 0
  {
    if |s| > 0 && s[0] == '-' then
      if |s| > 1 && AllDigits(s[1..]) then Some(0 - ParseNat(s[1..]) as int) else None
    else if |s| > 0 && AllDigits(s) then Some(ParseNat(s))
    else None
  }

  lemma {:induction false} ParseNatOfNatToStr(n: nat)
    ensures ParseNat(NatToStr(n)) == n
    decreases n
  {
    if n >= 10 {
      var s := NatToStr(n);
      assert s[..|s| - 1] == NatToStr(n / 10);
      ParseNatOfNatToStr(n / 10);
    }
  }

  /** `int(str(n)) == n`: the decimal rendering round-trips. */
  lemma ParseIntOfIntToStr(n: int)
    ensures ParseInt(IntToStr(n)) == Some(n)
  {
    if n < 0 {
      var s := IntToStr(n);
      assert s[1..] == NatToStr(-n);
      ParseNatOfNatToStr(-n);
    } else {
      ParseNatOfNatToStr(n);
    }
  }

  /** Two-digit zero-padded rendering, as `%02d` does. */
  function Pad2(n: int): (s: string)
    requires 0 <= n < 100
    ensures |s| == 2 && AllDigits(s)
  {
    [DigitChar(n / 10), DigitChar(n % 10)]
  }

  /** Four-digit zero-padded rendering, as `%04d` does. */
  function Pad4(n: int): (s: string)
    requires 0 <= n < 10000
    ensures |s| == 4 && AllDigits(s)
  {
    Pad2(n / 100) + Pad2(n % 100)
  }

  function ParsePad2(s: string): int
    requires |s| == 2 && AllDigits(s)
  {
    DigitValue(s[0]) * 10 + DigitValue(s[1])
  }

  function ParsePad4(s: string): int
    requires |s| == 4 && AllDigits(s)
  {
    ParsePad2(s[..2]) * 100 + ParsePad2(s[2..])
  }

  lemma Pad2RoundTrip(n: int)
    requires 0 <= n < 100
    ensures ParsePad2(Pad2(n)) == n
  {
  }

  lemma Pad4RoundTrip(n: int)
    requires 0 <= n < 10000
    ensures ParsePad4(Pad4(n)) == n
  {
    var s := Pad4(n);
    assert s[..2] == Pad2(n / 100);
    assert s[2..] == Pad2(n % 100);
    Pad2RoundTrip(n / 100);
    Pad2RoundTrip(n % 100);
  }

  /** For years with four digits, `str(n)` is the zero-padded rendering. */
  lemma NatToStrFourDigits(n: int)
    requires 1000 <= n <= 9999
    ensures NatToStr(n) == Pad4(n)
  {
    var n1 := n / 10;
    var n2 := n1 / 10;
    var n3 := n2 / 10;
    assert 1 <= n3 <= 9 && 10 <= n2 < 100 && 100 <= n1 < 1000;
    assert NatToStr(n2) == [DigitChar(n3), DigitChar(n2 % 10)];
    assert NatToStr(n1) == [DigitChar(n3), DigitChar(n2 % 10), DigitChar(n1 % 10)];
    assert NatToStr(n) == [DigitChar(n3), DigitChar(n2 % 10), DigitChar(n1 % 10), DigitChar(n % 10)];
    assert n / 100 == n2 && n2 / 10 == n3;
    assert (n % 100) / 10 == n1 % 10 && (n % 100) % 10 == n % 10;
  }

  // ---------------------------------------------------------------------------
  // Ordinal comparison of strings (Python's `<` on `str`)
  // ---------------------------------------------------------------------------

  /** `a < b` on Python strings: code-point lexicographic order, where a
      proper prefix is smaller. */
  predicate LexLess(a: string, b: string)
    decreases |a|
  {
    if |a| == 0 then |b| > 0
    else if |b| == 0 then false
    else a[0] < b[0] || (a[0] == b[0] && LexLess(a[1..], b[1..]))
  }

  /** `a <= b` on Python strings. */
  predicate LexLe(a: string, b: string) {
    a == b || LexLess(a, b)
  }

  lemma {:induction false} LexLessIrreflexive(a: string)
    ensures !LexLess(a, a)
    decreases |a|
  {
    if |a| > 0 {
      LexLessIrreflexive(a[1..]);
    }
  }

  lemma {:induction false} LexLessAsymmetric(a: string, b: string)
    ensures !(LexLess(a, b) && LexLess(b, a))
    decreases |a|
  {
    if |a| > 0 && |b| > 0 && a[0] == b[0] {
      LexLessAsymmetric(a[1..], b[1..]);
    }
  }

  lemma {:induction false} LexLessTransitive(a: string, b: string, c: string)
    requires LexLess(a, b) && LexLess(b, c)
    ensures LexLess(a, c)
    decreases |a|
  {
    if |a| > 0 && a[0] == b[0] && b[0] == c[0] {
      LexLessTransitive(a[1..], b[1..], c[1..]);
    }
  }

  lemma {:induction false} LexTotal(a: string, b: string)
    ensures a == b || LexLess(a, b) || LexLess(b, a)
    decreases |a|
  {
    if |a| > 0 && |b| > 0 && a[0] == b[0] {
      LexTotal(a[1..], b[1..]);
      if a[1..] == b[1..] {
        assert a == [a[0]] + a[1..] && b == [b[0]] + b[1..];
      }
    }
  }

  lemma LexLeTransitive(a: string, b: string, c: string)
    requires LexLe(a, b) && LexLe(b, c)
    ensures LexLe(a, c)
  {
    if a != b && b != c {
      LexLessTransitive(a, b, c);
    }
  }

  lemma LexLeLessTransitive(a: string, b: string, c: string)
    requires LexLe(a, b) && LexLess(b, c)
    ensures LexLess(a, c)
  {
    if a != b {
      LexLessTransitive(a, b, c);
    }
  }

  /** Comparing two concatenations whose first parts have equal length
      compares the first parts, then the second parts. */
  lemma {:induction false} LexLessAppend(a1: string, a2: string, b1: string, b2: string)
    requires |a1| == |b1|
    ensures LexLess(a1 + a2, b1 + b2) <==> LexLess(a1, b1) || (a1 == b1 && LexLess(a2, b2))
    decreases |a1|
  {
    if |a1| > 0 {
      assert (a1 + a2)[0] == a1[0] && (b1 + b2)[0] == b1[0];
      assert (a1 + a2)[1..] == a1[1..] + a2;
      assert (b1 + b2)[1..] == b1[1..] + b2;
      LexLessAppend(a1[1..], a2, b1[1..], b2);
      if a1[0] == b1[0] && a1[1..] == b1[1..] {
        assert a1 == [a1[0]] + a1[1..] && b1 == [b1[0]] + b1[1..];
      }
    } else {
      assert a1 + a2 == a2 && b1 + b2 == b2;
    }
  }

  lemma Pad2Order(m: int, n: int)
    requires 0 <= m < 100 && 0 <= n < 100
    ensures LexLess(Pad2(m), Pad2(n)) <==> m < n
  {
    var a, b := Pad2(m), Pad2(n);
    assert LexLess(a, b) <==> a[0] < b[0] || (a[0] == b[0] && LexLess(a[1..], b[1..]));
    assert LexLess(a[1..], b[1..]) <==> a[1] < b[1] || (a[1] == b[1] && LexLess(a[2..], b[2..]));
    assert a[2..] == [] && b[2..] == [];
  }

  /** On zero-padded four-digit renderings, string order is numeric order. */
  lemma Pad4Order(m: int, n: int)
    requires 0 <= m < 10000 && 0 <= n < 10000
    ensures LexLess(Pad4(m), Pad4(n)) <==> m < n
  {
    LexLessAppend(Pad2(m / 100), Pad2(m % 100), Pad2(n / 100), Pad2(n % 100));
    Pad2Order(m / 100, n / 100);
    Pad2Order(m % 100, n % 100);
    if Pad2(m / 100) == Pad2(n / 100) {
      Pad2RoundTrip(m / 100);
      Pad2RoundTrip(n / 100);
    }
  }

  /** Python's string comparison agrees with numeric comparison on
      four-digit years. */
  lemma FourDigitYearOrder(m: int, n: int)
    requires 1000 <= m <= 9999 && 1000 <= n <= 9999
    ensures LexLe(IntToStr(m), IntToStr(n)) <==> m <= n
  {
    NatToStrFourDigits(m);
    NatToStrFourDigits(n);
    Pad4Order(m, n);
    if Pad4(m) == Pad4(n) {
      Pad4RoundTrip(m);
      Pad4RoundTrip(n);
    }
  }

  // ---------------------------------------------------------------------------
  // Substrings, slices and case
  // ---------------------------------------------------------------------------

  predicate StartsWith(s: string, t: string) {
    |t| <= |s| && s[..|t|] == t
  }

  /** `t` occurs in `s` starting at position `i`. */
  predicate OccursAt(s: string, t: string, i: int) {
    0 <= i && i + |t| <= |s| && s[i..i + |t|] == t
  }

  /** `t in s` on Python strings: `t` occurs at some position of `s`. */
  predicate Contains(s: string, t: string) {
    exists i | 0 <= i <= |s| - |t| :: OccursAt(s, t, i)
  }

  /** The left-to-right scan CPython's substring search is equivalent to:
      `t` is a prefix of `s`, or of some proper suffix of it. */
  lemma ContainsScan(s: string, t: string)
    ensures Contains(s, t) <==> StartsWith(s, t) || (|s| > 0 && Contains(s[1..], t))
  {
    if StartsWith(s, t) {
      assert s[0..|t|] == s[..|t|];
      assert OccursAt(s, t, 0);
    }
    if |s| > 0 && Contains(s[1..], t) {
      var i :| 0 <= i <= |s[1..]| - |t| && OccursAt(s[1..], t, i);
      assert s[1..][i..i + |t|] == s[i + 1..i + 1 + |t|];
      assert OccursAt(s, t, i + 1);
    }
    if Contains(s, t) && !StartsWith(s, t) {
      var i :| 0 <= i <= |s| - |t| && OccursAt(s, t, i);
      assert s[1..][i - 1..i - 1 + |t|] == s[i..i + |t|];
      assert OccursAt(s[1..], t, i - 1);
    }
  }

  lemma OccursAtStart(s: string, t: string)
    requires |t| > 0
    ensures forall i :: OccursAt(s, t, i) ==> s[i] == t[0]
  {
    forall i | OccursAt(s, t, i)
      ensures s[i] == t[0]
    {
      assert s[i..i + |t|][0] == s[i];
    }
  }

  /** `t` is not in `s` when the only place its first character appears in
      `s` is a place where `t` does not fit or does not follow. */
  lemma NotContainsAt(s: string, t: string, u: int)
    requires |t| > 0 && 0 <= u
    requires forall i :: 0 <= i < |s| && s[i] == t[0] ==> i == u
    requires u + |t| > |s| || s[u..u + |t|] != t
    ensures !Contains(s, t)
  {
    OccursAtStart(s, t);
    assert forall i :: !OccursAt(s, t, i);
  }

  /** `t` is not in `s` when its first character does not appear in `s`. */
  lemma NotContainsChar(s: string, t: string)
    requires |t| > 0
    requires forall i :: 0 <= i < |s| ==> s[i] != t[0]
    ensures !Contains(s, t)
  {
    OccursAtStart(s, t);
    assert forall i :: !OccursAt(s, t, i);
  }

  /** A string ends with, hence contains, its suffix. */
  lemma ContainsSuffix(s: string, t: string)
    ensures Contains(s + t, t)
  {
    assert OccursAt(s + t, t, |s|);
  }

  /** `s[i:j]` for non-negative bounds: out-of-range bounds are clamped. */
  function Slice(s: string, i: nat, j: nat): (r: string)
    ensures |r| <= |s|
  {
    var lo := if i < |s| then i else |s|;
    var hi := if j < |s| then j else |s|;
    if lo <= hi then s[lo..hi] else []
  }

  /** `s[1:]`. */
  function DropFirst(s: string): string {
    if |s| == 0 then s else s[1..]
  }

  /** `s[-2:]`. */
  function LastTwo(s: string): (r: string)
    ensures |r| == if |s| < 2 then |s| else 2
  {
    if |s| < 2 then s else s[|s| - 2..]
  }

  function UpperChar(c: char): char {
    if 'a' <= c <= 'z' then (c as int - 32) as char else c
  }

  function LowerChar(c: char): char {
    if 'A' <= c <= 'Z' then (c as int + 32) as char else c
  }

  /** `s.upper()` on ASCII letters; other characters are kept. */
  function Upper(s: string): (r: string)
    ensures |r| == |s|
    ensures forall i :: 0 <= i < |s| ==> r[i] == UpperChar(s[i])
  {
    seq(|s|, i requires 0 <= i < |s| => UpperChar(s[i]))
  }

  /** `s.lower()` on ASCII letters; other characters are kept. */
  function Lower(s: string): (r: string)
    ensures |r| == |s|
    ensures forall i :: 0 <= i < |s| ==> r[i] == LowerChar(s[i])
  {
    seq(|s|, i requires 0 <= i < |s| => LowerChar(s[i]))
  }

  lemma LowerAppend(a: string, b: string)
    ensures Lower(a + b) == Lower(a) + Lower(b)
  {
  }
}

=== FILE: sync.dfy ===
/** `pull_data` of src/data.py: read the requested seasons from the store,
    fetch and prepare only the seasons it lacks, insert them, and return the
    stored and the new games together. The store read, the season finder and
    the box-score source are parameters. */
module Sync {
  import opened Strings
  import opened Outcomes
  import opened Frames
  import opened Pipeline
  import opened Seasons
  import opened Store
  import opened SeasonGroups

  // ---------------------------------------------------------------------------
  // The requested, stored and missing seasons
  // ---------------------------------------------------------------------------

  /** `[str(season) for season in range(season_init, season_end + 1)]`. */
  function Requested(init: int, end: int): (years: seq<string>)
    ensures |years| == if init <= end then end - init + 1 else 0
    ensures forall i :: 0 <= i < |years| ==> years[i] == IntToStr(init + i)
  {
    seq(if init <= end then end - init + 1 else 0, i requires 0 <= i => IntToStr(init + i))
  }

  /** `s` is the decimal form of a year of the range. */
  ghost predicate YearIn(s: string, init: int, end: int) {
    exists y :: init <= y <= end && s == IntToStr(y)
  }

  /** The requested list holds exactly the years of the range. */
  lemma RequestedMembers(init: int, end: int, s: string)
    ensures s in Requested(init, end) <==> YearIn(s, init, end)
  {
    if YearIn(s, init, end) {
      var y :| init <= y <= end && s == IntToStr(y);
      assert Requested(init, end)[y - init] == s;
    }
  }

  /** A stored game of season `s`: its `season_id` without the type digit
      is `s`. */
  predicate OfSeason(r: Row, s: string) {
    "season_id" in r && r["season_id"].Str? && DropFirst(r["season_id"].s) == s
  }

  /** `feature_store_data["season_id"].str[1:].unique()`; a missing id is
      NaN and equals no season. */
  function PresentSeasons(rows: seq<Row>): (present: set<string>)
    ensures forall s :: s in present <==> exists k :: 0 <= k < |rows| && OfSeason(rows[k], s)
  {
    set k | 0 <= k < |rows| && "season_id" in rows[k] && rows[k]["season_id"].Str? :: DropFirst(rows[k]["season_id"].s)
  }

  /** What reading the feature group gives: the stored table, or the REST
      error of a feature group that was never written. */
  datatype StoreRead = Stored(table: Frame) | NotFound

  predicate Readable(read: StoreRead) {
    read.Stored? ==> AllStrAt(read.table.rows, "game_date")
  }

  /** `seasons_not_in_feature_store`: every requested season on a first run,
      otherwise the requested seasons the stored range lacks, in order. */
  function Missing(read: StoreRead, init: int, end: int): (m: seq<string>)
    requires Readable(read)
    ensures forall s :: s in m <==>
      (s in Requested(init, end) && (read.Stored? ==> s !in PresentSeasons(ReadSeasons(read.table, init, end).rows)))
  {
    match read
    case NotFound => Requested(init, end)
    case Stored(t) =>
      var present := PresentSeasons(ReadSeasons(t, init, end).rows);
      Filter(Requested(init, end), s => s !in present)
  }

  /** A first run fetches the whole range. */
  lemma FirstRunMissesAll(init: int, end: int)
    ensures Missing(NotFound, init, end) == Requested(init, end)
  {
  }

  /** For four-digit years, a season is missing exactly when it is on a
      first run or no stored game belongs to it. */
  lemma MissingYear(read: StoreRead, init: int, end: int, y: int)
    requires Readable(read)
    requires 1000 <= init <= y <= end <= 9999
    ensures IntToStr(y) in Missing(read, init, end) <==>
      read.NotFound? || forall x :: x in read.table.rows ==> !OfSeason(x, IntToStr(y))
  {
    RequestedMembers(init, end, IntToStr(y));
    if read.Stored? {
      var t := read.table;
      var got := ReadSeasons(t, init, end).rows;
      forall x: Row | x in t.rows && OfSeason(x, IntToStr(y))
        ensures x in got
      {
        var id := x["season_id"].s;
        assert |id| > 0 && id == [id[0]] + IntToStr(y);
        SeasonRangeIsNumeric(x, init, end, id[0], y);
        ReadSeasonsMembers(t, init, end, x);
      }
      forall k | 0 <= k < |got| && OfSeason(got[k], IntToStr(y))
        ensures got[k] in t.rows
      {
        ReadSeasonsMembers(t, init, end, got[k]);
      }
    }
  }

  // ---------------------------------------------------------------------------
  // The range to fetch
  // ---------------------------------------------------------------------------

  /** `min` of a list of strings. */
  function Least(ss: seq<string>): (m: string)
    requires |ss| > 0
    ensures m in ss && forall s :: s in ss ==> LexLe(m, s)
    decreases |ss|
  {
    if |ss| == 1 then ss[0]
    else
      var m := Least(ss[1..]);
      LexTotal(ss[0], m);
      assert forall s :: s in ss ==> s == ss[0] || s in ss[1..];
      if LexLess(ss[0], m) then
        assert forall s :: s in ss[1..] ==> LexLe(ss[0], s) by {
          forall s | s in ss[1..]
            ensures LexLe(ss[0], s)
          {
            if m != s {
              LexLessTransitive(ss[0], m, s);
            }
          }
        }
        ss[0]
      else
        m
  }

  /** `max` of a list of strings. */
  function Greatest(ss: seq<string>): (m: string)
    requires |ss| > 0
    ensures m in ss && forall s :: s in ss ==> LexLe(s, m)
    decreases |ss|
  {
    if |ss| == 1 then ss[0]
    else
      var m := Greatest(ss[1..]);
      LexTotal(ss[0], m);
      assert forall s :: s in ss ==> s == ss[0] || s in ss[1..];
      if LexLess(m, ss[0]) then
        assert forall s :: s in ss[1..] ==> LexLe(s, ss[0]) by {
          forall s | s in ss[1..]
            ensures LexLe(s, ss[0])
          {
            LexLeLessTransitive(s, m, ss[0]);
          }
        }
        ss[0]
      else
        m
  }

  /** Every missing season is the decimal form of a requested year. */
  lemma MissingAreYears(read: StoreRead, init: int, end: int, s: string)
    requires Readable(read) && s in Missing(read, init, end)
    ensures YearIn(s, init, end) && ParseInt(s).Some?
  {
    RequestedMembers(init, end, s);
    var y :| init <= y <= end && s == IntToStr(y);
    ParseIntOfIntToStr(y);
  }

  /** `int(min(missing))` and `int(max(missing))`: the string extremes, read
      back as numbers. */
  function FetchBounds(read: StoreRead, init: int, end: int): (b: (int, int))
    requires Readable(read) && |Missing(read, init, end)| > 0
    ensures var m := Missing(read, init, end);
            && (exists s :: s in m && ParseInt(s) == Some(b.0) && forall t :: t in m ==> LexLe(s, t))
            && (exists s :: s in m && ParseInt(s) == Some(b.1) && forall t :: t in m ==> LexLe(t, s))
  {
    var m := Missing(read, init, end);
    MissingAreYears(read, init, end, Least(m));
    MissingAreYears(read, init, end, Greatest(m));
    (ParseInt(Least(m)).value, ParseInt(Greatest(m)).value)
  }

  /** For four-digit years the fetched range is the smallest one holding
      every missing season, and it lies inside the requested range. */
  lemma FetchBoundsCover(read: StoreRead, init: int, end: int)
    requires Readable(read) && |Missing(read, init, end)| > 0
    requires 1000 <= init && end <= 9999
    ensures var b := FetchBounds(read, init, end);
            && init <= b.0 <= b.1 <= end
            && IntToStr(b.0) in Missing(read, init, end) && IntToStr(b.1) in Missing(read, init, end)
            && forall y :: IntToStr(y) in Missing(read, init, end) ==> b.0 <= y <= b.1
  {
    var m := Missing(read, init, end);
    var lo, hi := FetchBounds(read, init, end).0, FetchBounds(read, init, end).1;
    var a := Least(m);
    var b := Greatest(m);
    MissingAreYears(read, init, end, a);
    MissingAreYears(read, init, end, b);
    var ya :| init <= ya <= end && a == IntToStr(ya);
    var yb :| init <= yb <= end && b == IntToStr(yb);
    ParseIntOfIntToStr(ya);
    ParseIntOfIntToStr(yb);
    assert lo == ya && hi == yb;
    FourDigitYearOrder(ya, yb);
    forall y | IntToStr(y) in m
      ensures lo <= y <= hi
    {
      MissingAreYears(read, init, end, IntToStr(y));
      var z :| init <= z <= end && IntToStr(y) == IntToStr(z);
      ParseIntOfIntToStr(y);
      ParseIntOfIntToStr(z);
      FourDigitYearOrder(ya, y);
      FourDigitYearOrder(y, yb);
    }
  }

  /** On a first run the whole requested range is fetched. */
  lemma FirstRunFetchesAll(init: int, end: int)
    requires 1000 <= init <= end <= 9999
    ensures |Missing(NotFound, init, end)| > 0
    ensures FetchBounds(NotFound, init, end).0 == init && FetchBounds(NotFound, init, end).1 == end
  {
    var m := Missing(NotFound, init, end);
    assert m[0] == IntToStr(init) && m[end - init] == IntToStr(end);
    assert IntToStr(init) in m && IntToStr(end) in m;
    FetchBoundsCover(NotFound, init, end);
    var b := FetchBounds(NotFound, init, end);
    assert b.0 <= init && end <= b.1;
  }

  // ---------------------------------------------------------------------------
  // pull_data
  // ---------------------------------------------------------------------------

  /** The returned games, the number that came from the store, the number
      that came from the API, and the prepared rows inserted into the store,
      if any. */
  datatype Pulled = Pulled(data: Frame, rowsStore: nat, rowsApi: nat, inserted: Option<Frame>)

  /** `pull_data(team_id, season_init, season_end, status_message)`. With
      nothing missing and nothing stored, `feature_store_data` is unbound
      when the function returns it. */
  function PullData(init: int, end: int, read: StoreRead, finder: GameFinder,
                    surnames: map<int, string>, box: BoxScores): (r: Result<Pulled>)
    requires Readable(read) && FinderReady(finder) && RosterNames(Roster, surnames)
    ensures |Missing(read, init, end)| == 0 && read.NotFound? ==> r == Failure(UnboundStoreData)
    ensures |Missing(read, init, end)| == 0 && read.Stored? ==>
      && r.Success? && r.value.inserted.None? && r.value.rowsApi == 0
      && r.value.data == ReadSeasons(read.table, init, end)
    ensures r.Success? ==> |r.value.data.rows| == r.value.rowsStore + r.value.rowsApi
    ensures r.Success? && r.value.inserted.Some? ==>
      && r.value.rowsApi == |r.value.inserted.value.rows|
      && KnownPlayers(Roster, surnames)
      && r.value.inserted.value.columns == StoredColumns(Roster, surnames)
  {
    var missing := Missing(read, init, end);
    if |missing| == 0 then
      if read.NotFound? then Failure(UnboundStoreData)
      else
        var stored := ReadSeasons(read.table, init, end);
        Success(Pulled(stored, |stored.rows|, 0, None))
    else
      var (lo, hi) := FetchBounds(read, init, end);
      var games :- PullTeamGames(lo, hi, finder);
      PullTeamGamesGameFrame(lo, hi, finder);
      var prepared :- PrepareSeasons(Roster, surnames, box, games);
      if read.NotFound? then Success(Pulled(prepared, 0, |prepared.rows|, Some(prepared)))
      else
        var stored := ReadSeasons(read.table, init, end);
        Success(Pulled(Concat(stored, prepared), |stored.rows|, |prepared.rows|, Some(prepared)))
  }

  /** When something is missing, the inserted rows are the fetched games
      prepared season by season, which is the one-pass preparation of the
      games grouped by season; the returned table puts the stored games
      first and the new ones after. */
  lemma PullDataInserts(init: int, end: int, read: StoreRead, finder: GameFinder,
                        surnames: map<int, string>, box: BoxScores)
    requires Readable(read) && FinderReady(finder) && RosterNames(Roster, surnames)
    requires |Missing(read, init, end)| > 0
    requires PullData(init, end, read, finder, surnames, box).Success?
    ensures var (lo, hi) := FetchBounds(read, init, end);
            var p := PullData(init, end, read, finder, surnames, box).value;
            && lo <= hi
            && GameFrame(PullTeamGames(lo, hi, finder).value)
            && Success(p.inserted.value) == PrepareSeasons(Roster, surnames, box, PullTeamGames(lo, hi, finder).value)
            && GameFrame(Regroup(PullTeamGames(lo, hi, finder).value))
            && Success(p.inserted.value) == Prepare(Roster, surnames, box, Regroup(PullTeamGames(lo, hi, finder).value))
            && p.data == (if read.Stored? then Concat(ReadSeasons(read.table, init, end), p.inserted.value) else p.inserted.value)
  {
    var (lo, hi) := FetchBounds(read, init, end);
    PullTeamGamesGameFrame(lo, hi, finder);
    PrepareSeasonsRegroups(Roster, surnames, box, PullTeamGames(lo, hi, finder).value);
  }

  /** For four-digit years the only failures are a first run over an empty
      range, a fetched range without a single game (nothing to concatenate),
      and a roster player without a surname. */
  lemma PullDataFails(init: int, end: int, read: StoreRead, finder: GameFinder,
                      surnames: map<int, string>, box: BoxScores)
    requires Readable(read) && FinderReady(finder) && RosterNames(Roster, surnames)
    requires 1000 <= init && end <= 9999
    ensures PullData(init, end, read, finder, surnames, box).Failure? <==>
      if |Missing(read, init, end)| == 0 then read.NotFound?
      else
        var g := PullTeamGames(FetchBounds(read, init, end).0, FetchBounds(read, init, end).1, finder);
        g.Failure? || |g.value.rows| == 0 || !(Roster[0] in surnames && Roster[1] in surnames)
    ensures |Missing(read, init, end)| > 0 ==>
      PullTeamGames(FetchBounds(read, init, end).0, FetchBounds(read, init, end).1, finder).Success?
  {
    if |Missing(read, init, end)| > 0 {
      FetchBoundsCover(read, init, end);
      var (lo, hi) := FetchBounds(read, init, end);
      PullTeamGamesGameFrame(lo, hi, finder);
    }
  }

  /** A first run over an empty range fails, and a store that already
      holds every requested season is read without fetching. */
  lemma NothingMissing(init: int, end: int, read: StoreRead)
    requires Readable(read)
    ensures |Missing(NotFound, init, end)| == 0 <==> init > end
    ensures read.Stored? && (forall s :: s in Requested(init, end) ==> s in PresentSeasons(ReadSeasons(read.table, init, end).rows))
            ==> |Missing(read, init, end)| == 0
  {
    if read.Stored? && |Missing(read, init, end)| > 0 {
      assert Missing(read, init, end)[0] in Missing(read, init, end);
    }
  }
}
